=== FILE: README.md ===
# autoclasswrapper in Dafny

A model of the two pandas-backed halves of autoclasswrapper, the Python
wrapper around the AutoClass C classifier.

**Input preparation** (`autoclasswrapper/input.py`). Each data file is
loaded as a `Dataset`:
- the declared type is checked;
- the raw header is checked for duplicate names;
- every data column is stamped with `{type, error, missing: False}` metadata;
- column names are sanitised and the metadata follows them to the new keys;
- real columns are checked for castability to float.

The `Input` object then merges its datasets into one full dataset. The merge is an
outer join with a last-write-wins union of the metadata maps, followed by a
duplicate-name check. It then flags columns that contain missing values, and it
emits the five AutoClass C descriptor files: `.db2` (with a `.tsv` copy),
`.hd2`, `.model`, `.s-params` and `.r-params`.

**Result reconstruction** (`autoclasswrapper/output.py`). `Output` works in
these steps:
- It reads AutoClass's `case-data` report in two passes into a case × (2 + classes)
  matrix whose cells may be unset.
- It joins that matrix by position onto the original table.
- It writes the `.cdt` visualisation file: gene ids, the class/probability sort,
  one block per class, and five spacer lines after each block.
- It writes the per-class statistics file.

Both classes wrap their public operations in the same fail-fast/tolerant
error controller (`handle_error`). It is modelled once, generically, in
`Controller`.

Everything is pure. A table is:
- an optional index name;
- column names;
- row identifiers;
- rows of `Option<string>` cells, where `None` is pandas' NaN.

A loaded file is handed over already parsed. Float parsing is a parameter
(`FloatParser`), and so are float formatting and the per-cluster
mean/standard deviation. Integers use a concrete `[+-]?digits` parser. An
operation of an object is a function from the object's state to an `Outcome`:
either `Done` or `Raised`. Both carry the state as it stands when the method
returns or the exception escapes, so partial updates the Python code leaves
behind are kept. A written file is a list of lines in a map from file names.

| file | module | what |
|---|---|---|
| basics.dfy | Basics | `Option`, `Result`, the exceptions the core raises |
| text.dfy | Text | join/split, whitespace words, strip, integer printing and parsing, zero padding |
| tables.dfy | Tables | cells, declared types, metadata, tables, distinctness |
| controller.dfy | Controller | `handle_error`: the two-flag controller and running a sequence of stages |
| datasets.dfy | Datasets, CleanNameExamples | `raise_on_duplicates` and the `Dataset` methods |
| merge.dfy | Merge | `prepare_input_data`: `pd.concat(..., join="outer")`, the metadata union, the duplicate check, missing-value flagging |
| descriptors.dfy | Descriptors | the `.db2`/`.tsv`, `.hd2`, `.model`, `.s-params` and `.r-params` texts |
| inputsession.dfy | InputSession | the `Input` object's stages and pipeline |
| casedata.dfy | CaseData | the two passes of `extract_results` |
| report.dfy | Report | `aggregate_input_data`'s join, the `.cdt` layout, the statistics file layout |
| outputsession.dfy | OutputSession | the `Output` object's stages and pipeline |

Some behaviours of the code are easy to miss; the model keeps each of them:
- **Class count.** `class_number` counts the distinct class ids of the first
  pair of each record only. A class that appears only in later pairs enlarges
  the matrix with a new `prob-class-k` column instead of being counted.
- **Partial `.hd2` file.** `create_hd2_file` opens the file before its
  per-column loop, so a failing column leaves the header and the records
  before it in the file. `create_model_file` builds its groups before
  opening, so it leaves no file.
- **Short records.** A record with fewer than two tokens fails the first pass,
  and so does a blank line, whose split is empty. A record with an even token
  count fails the second pass. The `len(items) >= 0` assertion never fires.
- **Second `write_cdt`.** It numbers its gene ids from the already-sorted order
  left by the first call, because the sort is done in place.
- **`.cdt` class labels.** With probabilities, the `.cdt` header labels the
  class columns `prob-class-1..k`. The cells under them are classes `0..k-1`.
- **Statistics classes.** The statistics file iterates classes
  `0 .. nunique(main-class) - 1`, whichever class ids actually occur.
- **Unnamed index.** `read_csv` leaves the index unnamed when the header's
  first field is empty, and `clean_column_names` then raises on the `None`
  name, so such a file is never added.
- **Numeric tables in `write_cdt`.** When the identifiers and every
  experiment column are numeric, `apply(axis=1)` hands the gid lambda float
  rows, and `{:04d}` raises on the float row number before the file is opened.
- **Single-dataset merge.** With one dataset the full dataset *is* that dataset:
  a separate code path, not the degenerate case of the merge.

## Model

| member | source | states |
|---|---|---|
| Datasets.RaiseOnDuplicates | autoclasswrapper/input.py:16-34 | no error exactly when the names are pairwise distinct; otherwise a DuplicateColumnNameError carrying the whole list |
| Datasets.NewDataset | autoclasswrapper/input.py:426-445 | construction succeeds exactly for the four type names `real scalar`, `real location`, `discrete`, `merged`, keeping file, error and separator; any other name raises naming the file |
| Tables.ParseTypeName | autoclasswrapper/input.py:441-442 | a type name reads back to the one declared type that prints as it, and to nothing for any other string |
| Datasets.ReadDatafile | autoclasswrapper/input.py:447-494 | fails exactly when the raw first line split on the separator has a repeated field, before any parsing; on success the table is the parsed file, with no index name when pandas leaves the index unnamed, and every data column, never the index, is stamped with the declared type, the error and missing = False, so the metadata keys are the column names |
| Datasets.CleanName | autoclasswrapper/input.py:513-523 | the cleaned name contains only `[A-Za-z0-9._+-]`, is no longer than the original and is empty only when the original is |
| Datasets.CleanNameKept | autoclasswrapper/input.py:513-517 | every allowed character other than `_` survives cleaning, in order, and no other one appears |
| Datasets.CleanRun | autoclasswrapper/input.py:513-517 | a maximal run of disallowed characters becomes exactly one `_` |
| Datasets.CleanPrefix | autoclasswrapper/input.py:513-517 | an already-clean prefix passes through unchanged |
| Datasets.CleanNameFixesClean | autoclasswrapper/input.py:517-519 | a clean name is left unchanged, so no rename happens |
| Datasets.CleanNameIdempotent | autoclasswrapper/input.py:513-526 | cleaning a cleaned name changes nothing |
| CleanNameExamples.ExampleParens | tests/test_input.py:88-93 | `gene(name)` cleans to `gene_name_` |
| CleanNameExamples.ExampleAccents | tests/test_input.py:94 | `coléèà` cleans to `col_` |
| CleanNameExamples.ExampleBrackets | tests/test_input.py:95 | `col[]()/` cleans to `col_` |
| Datasets.CleanColumnNames | autoclasswrapper/input.py:497-528 | a dataset without an index name cannot be cleaned; otherwise the index name and every column are cleaned, the result's columns are all clean, and identifiers, rows and source are unchanged |
| Datasets.RekeyMetaMoves | autoclasswrapper/input.py:522-528 | the rename loop over distinct labels succeeds, leaves exactly the cleaned names as keys, and introduces no new metadata value |
| Datasets.RekeyMetaPlaces | autoclasswrapper/input.py:522-528 | when no two labels clean to the same name, each label's own entry ends up under its cleaned name, and every key that is neither a label nor a cleaned name keeps its entry |
| Datasets.CleanColumnNamesCovered | autoclasswrapper/input.py:522-528 | after the renames the metadata keys are exactly the new column names, and every entry is one of the old entries |
| Datasets.CleanColumnNamesKeepsEntries | autoclasswrapper/input.py:522-528 | when no two labels clean to the same name, cleaning succeeds and each cleaned column's metadata entry is the entry of the column it was renamed from |
| Datasets.CheckDataType | autoclasswrapper/input.py:534-561 | no error exactly when every column passes; otherwise the error is that of the first column that does not |
| Datasets.CheckDataTypeCovered | autoclasswrapper/input.py:540-557 | with metadata for every column, the check passes exactly when every real column casts to float, and otherwise raises the cast error for a real column that does not |
| Datasets.DiscreteNeverFails | autoclasswrapper/input.py:558-561 | a dataset of discrete columns always passes the type check |
| Datasets.SearchMissingValues | autoclasswrapper/input.py:563-572 | the flag is set on exactly the columns holding a null, an already-set flag is never cleared, and type, error and the key set are unchanged; a null column without metadata raises |
| Merge.Concat | autoclasswrapper/input.py:183 | the columns are the inputs' columns in input order; identical indexes are put side by side; otherwise a duplicate identifier within one input raises, and the rows are the distinct union of the identifiers with each input's row, or NaNs where an input lacks the identifier |
| Merge.ConcatCellProvenance | autoclasswrapper/input.py:183 | the cell of input `k`'s column `j` in a merged row is that input's cell for the row's identifier |
| Merge.ConcatSameIds | autoclasswrapper/input.py:183 | inputs over the same identifiers always concatenate, keep those identifiers and have as many columns as all inputs together |
| Merge.MergeMeta | autoclasswrapper/input.py:179-181 | the merged metadata's keys are the base keys plus every input's keys |
| Merge.LastWriteWins | autoclasswrapper/input.py:179-181 | a key takes the entry of the last input that has it |
| Merge.MergeMetaKeepsBase | autoclasswrapper/input.py:179-181 | a key no input has keeps the base entry |
| Merge.Gather | autoclasswrapper/input.py:172-183 | one dataset becomes the full dataset itself; otherwise the metadata is merged even when the concatenation raises, which leaves the previous frame |
| Merge.PrepareInputData | autoclasswrapper/input.py:158-189 | no dataset raises; a duplicate name in the final header raises; on success the header has distinct names and a column is flagged missing exactly when it already was or holds a null |
| Merge.SingleDatasetIsItself | autoclasswrapper/input.py:172-189 | preparing a single clean dataset succeeds with its own table, source and metadata keys |
| Merge.MergedMetaCoversHeader | autoclasswrapper/input.py:177-183 | merging the metadata of covered datasets gives exactly the names of the concatenated header |
| Merge.PreparedIsCovered | autoclasswrapper/input.py:172-189 | after a successful preparation the metadata keys are exactly the full table's columns |
| Merge.SharedNameRaises | autoclasswrapper/input.py:183-185 | two datasets sharing a column name make the preparation raise a DuplicateColumnNameError |
| Descriptors.Db2RoundTrip | autoclasswrapper/input.py:202-205 | reading a `.db2` line back, splitting on the separator and mapping the marker to NaN, gives the row's identifier and cells |
| Descriptors.TsvLines | autoclasswrapper/input.py:207-210 | the `.tsv` copy is a header line followed by exactly the `.db2` rows written with a tab and an empty marker |
| Descriptors.TsvHeaderRoundTrip | autoclasswrapper/input.py:207-210 | the `.tsv` header splits back into the index label and the column names |
| Descriptors.Hd2File | autoclasswrapper/input.py:215-243 | the six fixed lines come first; the file is complete exactly when every column passes; then it has one record per non-merged column; otherwise it stops at the first failing column, which is a missing key or a negative minimum, and keeps the records before it |
| Descriptors.Hd2LoopRecords | autoclasswrapper/input.py:226-243 | the column-by-column loop, run up to the first column that stops it, writes exactly the records of the non-merged columns before that column, in column order, and raises that column's error |
| Descriptors.Hd2FileLine | autoclasswrapper/input.py:226-243 | in a file written without an error, line 6 + m is the record the loop writes for the m-th non-merged column |
| Descriptors.Hd2AttributeCount | autoclasswrapper/input.py:222 | the third line reads back as `number_of_attributes` with the column count plus one |
| Descriptors.Hd2Numbering | autoclasswrapper/input.py:226-243 | in a file written without an error, the m-th record reads back as attribute number position + 1 with the quoted column name, for a non-merged column |
| Descriptors.RecordParses | autoclasswrapper/input.py:229-243 | a record whose name and error are single words reads back with its attribute number first and its quoted name fourth |
| Descriptors.ModelFile | autoclasswrapper/input.py:246-287 | the file is produced exactly when every column has metadata, and otherwise raises for the first column without; it starts with the `model_index` line and `ignore 0` |
| Descriptors.ModelPartition | autoclasswrapper/input.py:258-266 | a column is in `single_normal_cn` iff real and not missing, in `single_normal_cm` iff real and missing, in `single_multinomial` iff discrete, and a merged column is in none |
| Descriptors.ModelCountMatchesLines | autoclasswrapper/input.py:267-287 | the count on the first line equals the number of model lines that follow |
| Descriptors.ModelFileGroups | autoclasswrapper/input.py:258-287 | read back, the file lists column `j` as number `j+1` on the `single_normal_cn` line iff it is real without missing values, on the `single_normal_cm` line iff real with missing values, and on the `single_multinomial` line iff discrete |
| Descriptors.GroupLineRoundTrip | autoclasswrapper/input.py:279-287 | a group line reads back as its model name followed by the 1-based column numbers in order |
| Descriptors.SparamsFile | autoclasswrapper/input.py:339-353 | seven settings, ten for a reproducible run |
| Descriptors.SparamsLines | autoclasswrapper/input.py:345-349 | lines four to seven set the duration, tries, cycles and start list |
| Descriptors.SparamsRoundTrip | autoclasswrapper/input.py:339-353 | reading the `.s-params` text back recovers every search parameter, the reproducible flag included |
| Descriptors.RparamsFile | autoclasswrapper/input.py:356-363 | three lines |
| Descriptors.RparamsReadBack | autoclasswrapper/input.py:361 | the cross-reference setting reads back as the attribute list 0, 1, 2 |
| Controller.Invoke | autoclasswrapper/input.py:111-118 | a call runs exactly when tolerant or no error yet; a skipped call changes nothing; the flag becomes set exactly when it was set or the call raised |
| Controller.FailFastFreezes | autoclasswrapper/output.py:33-40 | in fail-fast mode after an error every later stage is a no-op |
| Controller.ErrorIsSticky | autoclasswrapper/output.py:33-40 | the error flag is never cleared and the mode never changes |
| Controller.TolerantRunsEvery | autoclasswrapper/output.py:33-40 | in tolerant mode every stage runs on the previous stage's state, raised or not |
| Controller.FailFastStopsAtFirstError | autoclasswrapper/input.py:111-118 | in fail-fast mode the stages run up to and including the first one that raises, and the flag records whether one did |
| InputSession.NewInput | autoclasswrapper/input.py:83-95 | a new `Input` has no error, no dataset, an empty merged dataset and no file |
| InputSession.LoadDataset | autoclasswrapper/input.py:147-154 | a loaded dataset has the declared source, the cleaned index name and header, the file's identifiers, every column stamped, and passes the type check; an invalid type raises before reading; a file with an unnamed index and no repeated header field raises `NoIndexName` |
| InputSession.AddInputData | autoclasswrapper/input.py:123-155 | the dataset is appended exactly when loading succeeds, so never for a file with an unnamed index; a raise leaves the object unchanged |
| InputSession.Prepare | autoclasswrapper/input.py:157-189 | the full dataset becomes the prepared one even when the preparation raises part-way |
| InputSession.CreateDb2File | autoclasswrapper/input.py:191-210 | without a frame it raises and writes nothing; otherwise it writes the `.db2` rows and the `.tsv` copy under the root name |
| InputSession.CreateHd2File | autoclasswrapper/input.py:212-243 | the `.hd2` text is stored even when a column fails, and the stage raises exactly then |
| InputSession.CreateModelFile | autoclasswrapper/input.py:245-287 | a column without metadata raises with no file written; otherwise the `.model` text is stored |
| InputSession.CreateSparamsFile | autoclasswrapper/input.py:289-353 | never raises and stores the `.s-params` text |
| InputSession.CreateRparamsFile | autoclasswrapper/input.py:355-363 | never raises and stores the `.r-params` text |
| InputSession.FailedPreparationWritesNothing | autoclasswrapper/input.py:111-118 | in fail-fast mode a failed preparation writes no descriptor file and leaves the error set |
| InputSession.TolerantWritesParameters | autoclasswrapper/input.py:111-118 | in tolerant mode with no dataset, only the `.s-params` and `.r-params` files are written, and the error is set |
| CaseData.RecordLines | autoclasswrapper/output.py:56-60 | only lines starting with `#` or `DATA` are dropped; the rest keep their order |
| CaseData.RecordLinesOne | autoclasswrapper/output.py:56-60 | a single line is kept exactly when it starts with neither `#` nor `DATA` |
| CaseData.RecordLinesAppend | autoclasswrapper/output.py:56-60 | the filter works line by line: the records of two parts of the file are the records of the first part followed by those of the second, so every kept line appears once, in place |
| CaseData.RecordLinesMembers | autoclasswrapper/output.py:56-60 | a line is among the records exactly when it is in the file and starts with neither `#` nor `DATA` |
| CaseData.HeadClass | autoclasswrapper/output.py:61-62 | a record fails the first pass exactly when it has fewer than two tokens or its second token is not an integer; otherwise the class read is `int(items[1])`, the integer value of the second token |
| CaseData.FirstPass | autoclasswrapper/output.py:51-64 | the pass succeeds exactly when every record does; then the case count is the number of records and the classes are the first-pair class ids; otherwise it stops at the first bad record |
| CaseData.ParseRecord | autoclasswrapper/output.py:82-90 | a parsed record has an odd token count, its case id is the first token, and it has one (class, probability) pair per following token pair |
| CaseData.EvenRecordFails | autoclasswrapper/output.py:88-90 | a record with an even number of tokens fails the second pass |
| CaseData.SecondPassHeadAgrees | autoclasswrapper/output.py:88-93 | the main class set by the second pass is the class the first pass counted |
| CaseData.Initial | autoclasswrapper/output.py:67-74 | the initial matrix has rows `1..N` and class columns `0..n-1`, all cells unset |
| CaseData.SecondPassIsFold | autoclasswrapper/output.py:76-95 | the second pass succeeds exactly when every record parses, and then equals applying the writes of all records in order |
| CaseData.FoldLabels | autoclasswrapper/output.py:91-95 | the writes add a row for every case id and a column for every class id they name, and nothing else |
| CaseData.FoldMain | autoclasswrapper/output.py:91-93 | a case's main class and probability are those of its last record; cases no record names keep theirs |
| CaseData.FoldProb | autoclasswrapper/output.py:94-95 | a case's class cell holds the last probability written to it, and is set only if written |
| CaseData.ExtractResults | autoclasswrapper/output.py:45-95 | a first-pass failure stores the partial case count and a zero class count and keeps the previous matrix; otherwise the counts are the record count and the number of first-pair classes, and a matrix is stored; after a clean first pass, the second pass fails exactly when some record line does not parse |
| CaseData.ExtractShape | autoclasswrapper/output.py:67-95 | the matrix rows are `1..N` plus every case named, its columns `0..n-1` plus every class named, its cells hold the last writes, and its winning class and probability for each case are the last main pair written for that case |
| CaseData.DenseShape | autoclasswrapper/output.py:67-95 | when every case is in `1..N` and every class in `0..n-1` the matrix keeps its N × (2 + n) shape |
| Report.Aggregate | autoclasswrapper/output.py:104-112 | the join fails exactly when the counts differ; otherwise row `i` of the data gets the identifier, cells and matrix row `i`, by position |
| Report.AggregateCaseOrder | autoclasswrapper/output.py:107-112 | with matrix rows `1..N`, data row `i` gets case `i+1`'s classes |
| Report.BeforeIsOrder | autoclasswrapper/output.py:139-141 | the sort order is a strict total order on rows with distinct positions |
| Report.SortRows | autoclasswrapper/output.py:133-141 | the sorted table is a permutation of the numbered rows, in class-ascending then probability-descending order with NaN last and ties in original order |
| Report.SortKeepsSorted | autoclasswrapper/output.py:139-141 | sorting a sorted table changes nothing |
| Report.SecondSortIsIdentity | autoclasswrapper/output.py:133-141 | sorting the sorted table again keeps its order, so the positions it numbers are the sorted ones |
| Report.GidNamesPosition | autoclasswrapper/output.py:133-137 | a gene id reads back as its row's 1-based position before sorting |
| Report.Spacers | autoclasswrapper/output.py:168-171 | five spacer lines, `GENE000d-cccS` for d = 1..5 with the class `ccc` zero-padded |
| Report.Block | autoclasswrapper/output.py:157 | a class block holds exactly the rows of that class |
| Report.BlockAppend | autoclasswrapper/output.py:157 | the class filter keeps each row of the class once, in the table's order: the block of two parts of the table is the first part's block followed by the second's |
| Report.BlockOrdered | autoclasswrapper/output.py:139-157 | within a block rows come by decreasing probability, NaN last, ties in original order |
| Report.CdtLineCount | autoclasswrapper/output.py:142-171 | the file has the header, the EWEIGHT line, one line per row of a class in `0..k-1` and five spacers per class |
| Report.BlockAt | autoclasswrapper/output.py:156-171 | classes are written in ascending order: the lines of class `c` start at line `5c + Listed(es, c)` of the body, after every earlier class and its spacers, and are the rows of class `c` in the sorted order followed by the five spacers of class `c` |
| Report.BodyLines | autoclasswrapper/output.py:156-167 | every line after the first two is a spacer or the line of a listed row, written with all `k` class columns |
| Report.ListedAll | autoclasswrapper/output.py:156-167 | when every class is in `0..k-1`, every row is written |
| Report.CdtHeaderWidth | autoclasswrapper/output.py:144-154 | the header and the EWEIGHT line both have 4 + experiments fields, plus the class count with probabilities |
| Report.Cluster | autoclasswrapper/output.py:190 | the cluster holds exactly the rows of that class |
| Report.ClusterAppend | autoclasswrapper/output.py:190 | the cluster keeps each row of the class once, in the table's order: the cluster of two parts of the table is the first part's cluster followed by the second's |
| Report.ClusterStatsLines | autoclasswrapper/output.py:182-197 | a header over the experiments, then for each class `0..nunique-1` its mean line and std line |
| Report.StatLabelNamesClass | autoclasswrapper/output.py:191-192 | a statistics row label reads back as its class and ends in `mean` or `std` |
| Report.ClassMaxContiguous | autoclasswrapper/output.py:182-189 | when the classes present are exactly `0..k-1`, the loop covers exactly them |
| OutputSession.NewOutput | autoclasswrapper/output.py:15-26 | a new `Output` has no error, no matrix, no table and no file |
| OutputSession.Extract | autoclasswrapper/output.py:44-95 | stores the counts and matrix of the extraction and raises exactly when it failed; the table and files are untouched |
| OutputSession.AggregateInput | autoclasswrapper/output.py:98-112 | without a matrix, or with a case count different from the row count, it raises leaving the bare table; otherwise it stores the joined table |
| OutputSession.ExtractThenAggregate | autoclasswrapper/output.py:45-112 | a report inside its initial frame, joined with a table of as many rows, succeeds |
| OutputSession.WriteCdt | autoclasswrapper/output.py:115-171 | without the matrix columns it raises before writing; a non-empty table whose identifiers and experiment cells are all numeric raises the gid format error, unsorted and with no file; otherwise it leaves the table sorted and writes the `.cdt` lines from the sorted rows |
| OutputSession.WriteCdtTwice | autoclasswrapper/output.py:128-141 | for a table whose gids can be formatted, a second call keeps the table and numbers the gene ids by position in the sorted table |
| OutputSession.WriteClusterStats | autoclasswrapper/output.py:174-197 | without the matrix columns it raises with no file; otherwise it writes one header and two lines per class, from the mean and deviation given |
| OutputSession.FailedExtractionWritesNothing | autoclasswrapper/output.py:33-40 | in fail-fast mode a failed extraction writes no result file |
| OutputSession.TolerantWithoutMatrix | autoclasswrapper/output.py:33-40 | in tolerant mode a report that fails its first pass leaves the bare table, no file and the error set |

## Left out

- File input and output:
  - pandas parsing, chardet encoding detection and `to_csv` quoting;
  - a loaded file arrives as its raw first line, index name, columns, identifiers and cells.
  - `Writable` excludes cells that contain the separator or equal the marker.
- Float parsing and rendering are parameters, not modelled:
  - `float()` is a `FloatParser`;
  - the `.cdt` float format is `fmt`;
  - the per-cluster means and standard deviations are `Summary` values.
- `.cdt` cell text: data cells are written as their text. pandas would write the floats it re-read from the `.tsv` file.
- Logging, the `describe()` statistics, `print_files`, `wrap_outputs`, and `run.py`/`tools.py` (the subprocess that runs AutoClass C) are not modelled.
- Separators are single characters and whitespace is ASCII whitespace. Python's `int()` also accepts underscores and Unicode digits; the model does not.
- Aliasing: with a single dataset, Python shares one object between the full dataset and the input list, and the model copies instead. In Python, flagging missing values also changes the input dataset's metadata. A later preparation with several datasets also writes the merged frame and metadata into `input_datasets[0]` through the shared object (autoclasswrapper/input.py:172-183), so a third preparation raises `DuplicateColumnNameError`, where the model merges cleanly again.
- Row order of the outer join when identifier sets differ: the model uses first-appearance order, but only set-level facts are stated, because the order depends on the pandas version.
- Name collisions between data columns and the matrix columns (`main-class`, `prob-class-k`, `gid`, …) after the join are not modelled.
- `write_cdt` on a table without the matrix columns: the model raises the missing-column error without modelling the helper columns Python adds before failing. For an empty table the exception type may differ.
- Descriptors.Hd2File: models `df.min()[idx]` as the minimum of column `idx`, parsed with `FloatParser`. It leaves out the cases where pandas' frame-wide `min()` drops or rejects non-numeric columns, and so shifts positions.
- Descriptors.Db2RoundTrip: the read-back holds for writable rows only (no separator inside a cell, no cell equal to the marker), because `to_csv` quoting is not modelled.
- OutputSession.ExtractThenAggregate: stated for a first extraction, on an `Output` with no earlier matrix.
- OutputSession.WriteCdt: a column counts as numeric when every present cell parses with `FloatParser`. pandas' dtype inference differs at the edges, for example integers wider than 64 bits or `1_000`. An empty table never raises the gid format error in the model, and what pandas' `apply` does on an empty frame is not modelled.
- OutputSession.WriteClusterStats: the per-class mean and deviation are total parameters, so in the model the stage always completes. The code's outcome depends on the pandas version. From pandas 2.0 on, `cluster.mean()` refuses any string column, and by the time the pipeline reaches this stage `write_cdt` has added the string columns `name1` and `name2` (identifiers, output.py:130-131) and `gid` (output.py:134-137) to the table; so the stage raises `TypeError` right after the header line, whatever the experiment columns are. Before pandas 2.0, `mean()` drops string columns, and only a string-valued experiment column makes the stage raise (`KeyError`). The model follows pandas before 2.0 with numeric experiment columns, and produces neither raise.
- Merge.Concat: cells keep their text. When the outer join puts NaN into an integer column, pandas turns the column into floats, and `to_csv` then writes `1.0` where the model keeps `1`.

=== FILE: basics.dfy ===
/** Failure-carrying values shared by the input-preparation and the
    result-reconstruction halves of the wrapper. */
module Basics {

  /** A value that may be absent: a missing table cell, an unset matrix
      entry, a string that does not parse. */
  datatype Option<+T> = None | Some(value: T)

  /** Every exception a wrapped stage can let escape, one constructor per
      cause. */
  datatype Error =
    | DuplicateColumnName(names: seq<string>)   // raise_on_duplicates
    | CastFloat64(column: string)               // check_data_type
    | InvalidDataType(file: string)             // the assertion in Dataset.__init__
    | MinimumBelowZero(column: string)          // the assertion in create_hd2_file
    | MissingMetadata(column: string)           // a KeyError on column_meta
    | NoIndexName                               // re.sub on an unnamed index
    | NothingToConcatenate                      // pd.concat of an empty list
    | NonUniqueIndex                            // outer concat of non-unique, unequal indexes
    | MissingToken(line: string)                // an IndexError on a case-data record
    | NotAnInteger(token: string)               // int() on a case-data token
    | NotAFloat(token: string)                  // float() on a case-data token
    | CaseCountMismatch(cases: nat, rows: nat)  // the assertion in aggregate_input_data
    | UnsetAttribute(name: string)              // an AttributeError on a field not yet set
    | MissingColumn(name: string)               // a KeyError on a dataframe column
    | FloatFormattedAsInteger                   // "{:04d}" on a float gid number in write_cdt

  datatype Result<+T> = Ok(value: T) | Err(error: Error)
}

=== FILE: casedata.dfy ===
/** `Output.extract_results`: the AutoClass C `case-data` report read in two
    passes. Lines starting with `#` or `DATA` are skipped; every other line
    is a record `case class prob [class prob ...]`. The first pass counts the
    records and the distinct classes of their first pair; the second fills
    a case-by-class matrix, pandas `.loc` adding a row or a column for a
    case or class it has not seen. */
module CaseData {
  import opened Basics
  import opened Text
  import opened Tables
  import opened Datasets

  predicate Skipped(line: string) {
    StartsWith(line, "#") || StartsWith(line, "DATA")
  }

  /** The record lines, in file order. */
  function RecordLines(lines: seq<string>): (r: seq<string>)
    ensures |r| <= |lines|
    ensures forall k :: 0 <= k < |r| ==> !Skipped(r[k])
    ensures (forall k :: 0 <= k < |lines| ==> !Skipped(lines[k])) ==> r == lines
    ensures (forall k :: 0 <= k < |lines| ==> Skipped(lines[k])) ==> r == []
  {
    if |lines| == 0 then []
    else
      var rest := RecordLines(lines[1..]);
      assert forall k :: 1 <= k < |lines| ==> lines[k] == lines[1..][k - 1];
      if Skipped(lines[0]) then rest else [lines[0]] + rest
  }

  /** A single line is kept exactly when it is not skipped. */
  lemma RecordLinesOne(line: string)
    ensures RecordLines([line]) == if Skipped(line) then [] else [line]
  {
  }

  /** Filtering a file in two parts is filtering each part, in order: with
      `RecordLinesOne`, every non-skipped line is kept exactly once and in
      its place, so each one counts as one case. */
  lemma {:induction false} RecordLinesAppend(a: seq<string>, b: seq<string>)
    ensures RecordLines(a + b) == RecordLines(a) + RecordLines(b)
    decreases |a|
  {
    if |a| > 0 {
      assert (a + b)[1..] == a[1..] + b;
      RecordLinesAppend(a[1..], b);
    } else {
      assert a + b == b;
    }
  }

  /** The kept lines are exactly the lines of the file that are not
      skipped. */
  lemma {:induction false} RecordLinesMembers(lines: seq<string>)
    ensures forall x :: x in RecordLines(lines) <==> x in lines && !Skipped(x)
    decreases |lines|
  {
    if |lines| > 0 {
      RecordLinesMembers(lines[1..]);
      assert forall x :: x in lines <==> x == lines[0] || x in lines[1..];
    }
  }

  // ---------------------------------------------------------------------
  // first pass

  /** The class of a record's first pair, as the first pass reads it:
      `int(items[1])`. */
  function HeadClass(line: string): (r: Result<int>)
    ensures r.Err? <==> |Words(line)| < 2 || ParseInt(Words(line)[1]).None?
    ensures r.Ok? ==> ParseInt(Words(line)[1]) == Some(r.value)
  {
    var items := Words(line);
    if |items| < 2 then Err(MissingToken(line))
    else match ParseInt(items[1])
      case None => Err(NotAnInteger(items[1]))
      case Some(c) => Ok(c)
  }

  /** What the first pass leaves: the number of records counted and the
      classes seen, or the exception that stopped it. */
  datatype PassOne = PassOne(cases: nat, classes: set<int>, error: Option<Error>)

  function HeadClasses(recs: seq<string>): set<int> {
    set k | 0 <= k < |recs| && HeadClass(recs[k]).Ok? :: HeadClass(recs[k]).value
  }

  /** The first pass counts one case per record and collects the class of
      each record's first pair. It stops at the first record without a
      second token or whose second token is not an integer, having counted
      the records before it. */
  function FirstPass(recs: seq<string>): (r: PassOne)
    ensures r.error.None? <==> forall k :: 0 <= k < |recs| ==> HeadClass(recs[k]).Ok?
    ensures r.error.None? ==> r.cases == |recs| && r.classes == HeadClasses(recs)
    ensures r.error.Some? ==> r.cases < |recs| && HeadClass(recs[r.cases]) == Err(r.error.value)
                              && forall k :: 0 <= k < r.cases ==> HeadClass(recs[k]).Ok?
    decreases |recs|
  {
    if |recs| == 0 then PassOne(0, {}, None)
    else match HeadClass(recs[0])
      case Err(e) => PassOne(0, {}, Some(e))
      case Ok(c) =>
        var rest := FirstPass(recs[1..]);
        assert forall k :: 1 <= k < |recs| ==> recs[k] == recs[1..][k - 1];
        HeadClassesCons(recs);
        PassOne(rest.cases + 1, {c} + rest.classes, rest.error)
  }

  /** The first pair classes of a record list: those of its first record,
      if that one has a class, and those of the rest. */
  lemma HeadClassesCons(recs: seq<string>)
    requires |recs| > 0 && HeadClass(recs[0]).Ok?
    ensures HeadClasses(recs) == {HeadClass(recs[0]).value} + HeadClasses(recs[1..])
  {
    var c := HeadClass(recs[0]).value;
    forall x | x in HeadClasses(recs) ensures x in {c} + HeadClasses(recs[1..]) {
      var k :| 0 <= k < |recs| && HeadClass(recs[k]).Ok? && HeadClass(recs[k]).value == x;
      if k > 0 {
        assert recs[k] == recs[1..][k - 1];
        assert HeadClass(recs[1..][k - 1]).value == x;
      }
    }
    forall x | x in HeadClasses(recs[1..]) ensures x in HeadClasses(recs) {
      var k :| 0 <= k < |recs[1..]| && HeadClass(recs[1..][k]).Ok? && HeadClass(recs[1..][k]).value == x;
      assert recs[k + 1] == recs[1..][k];
    }
  }

  // ---------------------------------------------------------------------
  // second pass: parsing one record

  /** The pairs of a record from token `idx` on, up to the first token that
      does not parse or the missing probability of a trailing class; the
      pairs before the failure are the ones the source has already
      stored. */
  function ParsePairs(items: seq<string>, idx: nat, num: FloatParser, line: string): (r: (seq<(int, real)>, Option<Error>))
    ensures idx <= |items| && r.1.None? ==> |items| - idx == 2 * |r.0|
    ensures idx <= |items| && r.1.None? ==> forall m :: 0 <= m < |r.0| ==>
              ParseInt(items[idx + 2 * m]) == Some(r.0[m].0) && num(items[idx + 2 * m + 1]) == Some(r.0[m].1)
    ensures idx <= |items| && (|items| - idx) % 2 == 1 ==> r.1.Some?
    decreases |items| - idx
  {
    if idx >= |items| then ([], None)
    else match ParseInt(items[idx])
      case None => ([], Some(NotAnInteger(items[idx])))
      case Some(c) =>
        if idx + 1 >= |items| then ([], Some(MissingToken(line)))
        else match num(items[idx + 1])
          case None => ([], Some(NotAFloat(items[idx + 1])))
          case Some(p) =>
            var rest := ParsePairs(items, idx + 2, num, line);
            ([(c, p)] + rest.0, rest.1)
  }

  /** A record as the second pass reads it: the case, then its pairs. */
  datatype Parsed = Parsed(caseId: Option<int>, pairs: seq<(int, real)>, error: Option<Error>)

  function ParseRecord(line: string, num: FloatParser): (r: Parsed)
    ensures r.caseId.None? ==> r.pairs == [] && r.error.Some?
    ensures r.error.None? ==> |Words(line)| % 2 == 1 && |r.pairs| == |Words(line)| / 2
    ensures r.error.None? ==> ParseInt(Words(line)[0]) == r.caseId
    ensures r.error.None? ==> forall m :: 0 <= m < |r.pairs| ==>
              ParseInt(Words(line)[1 + 2 * m]) == Some(r.pairs[m].0) && num(Words(line)[2 + 2 * m]) == Some(r.pairs[m].1)
  {
    var items := Words(line);
    if |items| == 0 then Parsed(None, [], Some(MissingToken(line)))
    else match ParseInt(items[0])
      case None => Parsed(None, [], Some(NotAnInteger(items[0])))
      case Some(c) =>
        var ps := ParsePairs(items, 1, num, line);
        Parsed(Some(c), ps.0, ps.1)
  }

  /** A record with an even number of tokens always fails in the second
      pass: its last class has no probability, or an earlier token does not
      parse. */
  lemma EvenRecordFails(line: string, num: FloatParser)
    requires |Words(line)| % 2 == 0
    ensures ParseRecord(line, num).error.Some?
  {
  }

  /** A record both passes accept has at least one pair, and its first
      pair's class is the one the first pass counted. */
  lemma SecondPassHeadAgrees(line: string, num: FloatParser)
    requires HeadClass(line).Ok? && ParseRecord(line, num).error.None?
    ensures |ParseRecord(line, num).pairs| >= 1
    ensures ParseRecord(line, num).pairs[0].0 == HeadClass(line).value
  {
    var items := Words(line);
    var p := ParseRecord(line, num);
    assert |items| >= 2 && |items| % 2 == 1;
    assert |p.pairs| >= 1;
    assert ParseInt(items[1 + 2 * 0]) == Some(p.pairs[0].0);
  }

  // ---------------------------------------------------------------------
  // the stats frame

  /** The stats frame: its row labels (case numbers), the class of each
      `prob-class-k` column in column order, and the cells set so far
      (`main-class`, `main-prob` and `prob-class-k`); an absent entry is
      NaN. */
  datatype Stats = Stats(cases: seq<int>, labels: seq<int>, mainClass: map<int, int>,
                         mainProb: map<int, real>, prob: map<(int, int), real>)

  /** Every cell set belongs to a row and a column of the frame, whose
      labels do not repeat. */
  predicate WellFormed(s: Stats) {
    && Distinct(s.cases) && Distinct(s.labels)
    && s.mainClass.Keys == s.mainProb.Keys
    && (forall c :: c in s.mainClass ==> c in s.cases)
    && (forall key :: key in s.prob ==> key.0 in s.cases && key.1 in s.labels)
  }

  function Range(lo: int, hi: int): (r: seq<int>)
    ensures |r| == if hi > lo then hi - lo else 0
    ensures forall k :: 0 <= k < |r| ==> r[k] == lo + k
    decreases hi - lo
  {
    if hi <= lo then [] else [lo] + Range(lo + 1, hi)
  }

  /** The frame the second pass starts from: rows `1..cases`, columns
      `prob-class-0 .. prob-class-(classes-1)`, every cell NaN. */
  function Initial(cases: nat, classes: nat): (s: Stats)
    ensures WellFormed(s)
    ensures |s.cases| == cases && |s.labels| == classes
  {
    Stats(Range(1, cases + 1), Range(0, classes), map[], map[], map[])
  }

  /** A label added at the end unless the frame has it already. */
  function AddNew(xs: seq<int>, x: int): (r: seq<int>)
    ensures Distinct(xs) ==> Distinct(r)
    ensures Elements(r) == Elements(xs) + {x}
    ensures |xs| <= |r| && r[..|xs|] == xs
  {
    if x in xs then xs else xs + [x]
  }

  /** One `.loc` assignment of the second pass. */
  datatype Write = MainW(caseId: int, cls: int, p: real) | ProbW(caseId: int, cls: int, p: real)

  /** `stats.loc[case, "main-class"] = cls; stats.loc[case, "main-prob"] = p`
      or `stats.loc[case, "prob-class-cls"] = p`, enlarging the frame for a
      case or class it does not have. */
  function Apply(s: Stats, w: Write): (r: Stats)
    ensures WellFormed(s) ==> WellFormed(r)
  {
    match w
    case MainW(c, k, p) =>
      s.(cases := AddNew(s.cases, c), mainClass := s.mainClass[c := k], mainProb := s.mainProb[c := p])
    case ProbW(c, k, p) =>
      s.(cases := AddNew(s.cases, c), labels := AddNew(s.labels, k), prob := s.prob[(c, k) := p])
  }

  /** The assignments in order. */
  function Fold(s: Stats, log: seq<Write>): (r: Stats)
    ensures WellFormed(s) ==> WellFormed(r)
    decreases |log|
  {
    if |log| == 0 then s else Apply(Fold(s, log[..|log| - 1]), log[|log| - 1])
  }

  /** The assignments for one record: the first pair sets the main class
      and probability, then every pair sets its class column. */
  function RecordLog(c: int, pairs: seq<(int, real)>): (r: seq<Write>)
    ensures |pairs| == 0 ==> r == []
    ensures |pairs| > 0 ==> |r| == |pairs| + 1 && r[0] == MainW(c, pairs[0].0, pairs[0].1)
    ensures |pairs| > 0 ==> forall m :: 0 <= m < |pairs| ==> r[m + 1] == ProbW(c, pairs[m].0, pairs[m].1)
  {
    if |pairs| == 0 then []
    else [MainW(c, pairs[0].0, pairs[0].1)] + seq(|pairs|, m requires 0 <= m < |pairs| => ProbW(c, pairs[m].0, pairs[m].1))
  }

  /** The second pass over the records, in order, stopping at the first
      record that raises; that record's assignments made before the
      failing token are kept. */
  function SecondPass(s: Stats, recs: seq<string>, num: FloatParser): (r: (Stats, Option<Error>))
    ensures WellFormed(s) ==> WellFormed(r.0)
    decreases |recs|
  {
    if |recs| == 0 then (s, None)
    else
      var before := SecondPass(s, recs[..|recs| - 1], num);
      if before.1.Some? then before
      else
        var p := ParseRecord(recs[|recs| - 1], num);
        if p.caseId.None? then (before.0, p.error)
        else (Fold(before.0, RecordLog(p.caseId.value, p.pairs)), p.error)
  }

  // ---------------------------------------------------------------------
  // the whole log of a successful pass

  /** The assignments of all records, when every record parses. */
  function FullLog(recs: seq<string>, num: FloatParser): seq<Write>
    decreases |recs|
  {
    if |recs| == 0 then []
    else
      var p := ParseRecord(recs[|recs| - 1], num);
      FullLog(recs[..|recs| - 1], num) + (if p.caseId.Some? then RecordLog(p.caseId.value, p.pairs) else [])
  }

  predicate AllParse(recs: seq<string>, num: FloatParser) {
    forall k :: 0 <= k < |recs| ==> ParseRecord(recs[k], num).error.None?
  }

  lemma {:induction false} FoldAppend(s: Stats, a: seq<Write>, b: seq<Write>)
    ensures Fold(s, a + b) == Fold(Fold(s, a), b)
    decreases |b|
  {
    if |b| == 0 {
      assert a + b == a;
    } else {
      assert (a + b)[..|a + b| - 1] == a + b[..|b| - 1];
      FoldAppend(s, a, b[..|b| - 1]);
    }
  }

  /** The second pass succeeds exactly when every record parses, and then
      it performs the assignments of all records in order. */
  lemma {:induction false} SecondPassIsFold(s: Stats, recs: seq<string>, num: FloatParser)
    ensures SecondPass(s, recs, num).1.None? <==> AllParse(recs, num)
    ensures AllParse(recs, num) ==> SecondPass(s, recs, num).0 == Fold(s, FullLog(recs, num))
    decreases |recs|
  {
    if |recs| > 0 {
      var front := recs[..|recs| - 1];
      var last := recs[|recs| - 1];
      SecondPassIsFold(s, front, num);
      AllParseSplit(recs, num);
      var p := ParseRecord(last, num);
      if AllParse(front, num) && p.error.None? {
        FoldAppend(s, FullLog(front, num), RecordLog(p.caseId.value, p.pairs));
      }
    }
  }

  lemma AllParseSplit(recs: seq<string>, num: FloatParser)
    requires |recs| > 0
    ensures AllParse(recs, num) <==>
            AllParse(recs[..|recs| - 1], num) && ParseRecord(recs[|recs| - 1], num).error.None?
  {
    var front := recs[..|recs| - 1];
    assert forall k :: 0 <= k < |front| ==> front[k] == recs[k];
  }

  // ---------------------------------------------------------------------
  // last write wins

  /** The last main assignment for a case in a log. */
  function LastMain(log: seq<Write>, c: int): Option<(int, real)>
    decreases |log|
  {
    if |log| == 0 then None
    else
      var w := log[|log| - 1];
      if w.MainW? && w.caseId == c then Some((w.cls, w.p)) else LastMain(log[..|log| - 1], c)
  }

  /** The last assignment to a class column of a case in a log. */
  function LastProb(log: seq<Write>, c: int, k: int): Option<real>
    decreases |log|
  {
    if |log| == 0 then None
    else
      var w := log[|log| - 1];
      if w.ProbW? && w.caseId == c && w.cls == k then Some(w.p) else LastProb(log[..|log| - 1], c, k)
  }

  /** The cases a log assigns to. */
  function CasesOf(log: seq<Write>): set<int> {
    set i | 0 <= i < |log| :: log[i].caseId
  }

  /** The classes a log assigns a probability column for. */
  function ClassesOf(log: seq<Write>): set<int> {
    set i | 0 <= i < |log| && log[i].ProbW? :: log[i].cls
  }

  lemma LogSetsSplit(log: seq<Write>)
    requires |log| > 0
    ensures CasesOf(log) == CasesOf(log[..|log| - 1]) + {log[|log| - 1].caseId}
    ensures ClassesOf(log) == ClassesOf(log[..|log| - 1]) + (if log[|log| - 1].ProbW? then {log[|log| - 1].cls} else {})
  {
    var front := log[..|log| - 1];
    assert forall i :: 0 <= i < |front| ==> front[i] == log[i];
    assert log[|log| - 1].caseId in CasesOf(log);
  }

  /** The frame's rows after the assignments are the old ones plus every
      case assigned; its class columns the old ones plus every class
      assigned. */
  lemma {:induction false} FoldLabels(s: Stats, log: seq<Write>)
    ensures Elements(Fold(s, log).cases) == Elements(s.cases) + CasesOf(log)
    ensures Elements(Fold(s, log).labels) == Elements(s.labels) + ClassesOf(log)
    decreases |log|
  {
    if |log| > 0 {
      FoldLabels(s, log[..|log| - 1]);
      LogSetsSplit(log);
    }
  }

  /** After the assignments a case's main class and probability are those
      of the last main assignment to it, or what they were before when
      none touched it. */
  lemma {:induction false} FoldMain(s: Stats, log: seq<Write>)
    ensures forall c :: c in Fold(s, log).mainClass <==> c in s.mainClass || LastMain(log, c).Some?
    ensures forall c :: LastMain(log, c).Some? ==>
              && c in Fold(s, log).mainClass && Fold(s, log).mainClass[c] == LastMain(log, c).value.0
              && c in Fold(s, log).mainProb && Fold(s, log).mainProb[c] == LastMain(log, c).value.1
    ensures forall c :: LastMain(log, c).None? && c in s.mainClass ==> Fold(s, log).mainClass[c] == s.mainClass[c]
    decreases |log|
  {
    if |log| > 0 {
      var init := log[..|log| - 1];
      var w := log[|log| - 1];
      FoldMain(s, init);
      var t := Fold(s, init);
      var u := Fold(s, log);
      assert u == Apply(t, w);
      forall c
        ensures c in u.mainClass <==> c in s.mainClass || LastMain(log, c).Some?
        ensures LastMain(log, c).Some? ==>
                  && c in u.mainClass && u.mainClass[c] == LastMain(log, c).value.0
                  && c in u.mainProb && u.mainProb[c] == LastMain(log, c).value.1
        ensures LastMain(log, c).None? && c in s.mainClass ==> u.mainClass[c] == s.mainClass[c]
      {
        if w.MainW? && w.caseId == c {
          assert LastMain(log, c) == Some((w.cls, w.p));
          assert u.mainClass == t.mainClass[c := w.cls] && u.mainProb == t.mainProb[c := w.p];
        } else {
          assert LastMain(log, c) == LastMain(init, c);
          assert c in u.mainClass <==> c in t.mainClass;
          assert c in t.mainClass ==> u.mainClass[c] == t.mainClass[c];
          assert c in t.mainProb ==> u.mainProb[c] == t.mainProb[c];
        }
      }
    }
  }

  /** After the assignments a class column of a case holds the last value
      assigned to it, and is set only if it was set before or assigned. */
  lemma {:induction false} FoldProb(s: Stats, log: seq<Write>)
    ensures forall c, k :: LastProb(log, c, k).Some? ==>
              (c, k) in Fold(s, log).prob && Fold(s, log).prob[(c, k)] == LastProb(log, c, k).value
    ensures forall c, k :: LastProb(log, c, k).None? ==> ((c, k) in Fold(s, log).prob <==> (c, k) in s.prob)
    decreases |log|
  {
    if |log| > 0 {
      FoldProb(s, log[..|log| - 1]);
    }
  }

  // ---------------------------------------------------------------------
  // extract_results

  /** What `extract_results` leaves on the object: the case and class
      counts, the stats frame (unchanged when the first pass raises) and
      the exception, if any. */
  datatype Extracted = Extracted(caseNumber: nat, classNumber: nat, stats: Option<Stats>, error: Option<Error>)

  /** Both passes over the report's lines. The counts are reset first; the
      class count is only stored once the first pass completes, and the
      frame replaces the previous one before the second pass fills it. */
  function ExtractResults(previous: Option<Stats>, lines: seq<string>, num: FloatParser): (r: Extracted)
    ensures var one := FirstPass(RecordLines(lines));
            && (one.error.Some? ==> r == Extracted(one.cases, 0, previous, one.error))
            && (one.error.None? ==> r.caseNumber == |RecordLines(lines)| && r.classNumber == |one.classes|
                                    && r.stats.Some?)
            && (one.error.None? ==> (r.error.None? <==> AllParse(RecordLines(lines), num)))
    ensures r.stats.Some? && (previous.None? || WellFormed(previous.value)) ==> WellFormed(r.stats.value)
  {
    var recs := RecordLines(lines);
    var one := FirstPass(recs);
    if one.error.Some? then Extracted(one.cases, 0, previous, one.error)
    else
      SecondPassIsFold(Initial(one.cases, |one.classes|), recs, num);
      var two := SecondPass(Initial(one.cases, |one.classes|), recs, num);
      Extracted(one.cases, |one.classes|, Some(two.0), two.1)
  }

  /** A successful extraction's frame: every case row `1..N` and every
      column `prob-class-0..(n-1)` of the initial frame, plus a row for
      every case number and a column for every class the records name; its
      cells hold the last value written to them. */
  lemma ExtractShape(lines: seq<string>, num: FloatParser)
    requires ExtractResults(None, lines, num).error.None?
    ensures var r := ExtractResults(None, lines, num);
            var log := FullLog(RecordLines(lines), num);
            && r.stats.Some?
            && Elements(r.stats.value.cases) == Elements(Range(1, r.caseNumber + 1)) + CasesOf(log)
            && Elements(r.stats.value.labels) == Elements(Range(0, r.classNumber)) + ClassesOf(log)
            && (forall c :: c in r.stats.value.mainClass <==> LastMain(log, c).Some?)
            && (forall c :: LastMain(log, c).Some? ==> r.stats.value.mainClass[c] == LastMain(log, c).value.0)
            && (forall c :: c in r.stats.value.mainProb <==> LastMain(log, c).Some?)
            && (forall c :: LastMain(log, c).Some? ==> r.stats.value.mainProb[c] == LastMain(log, c).value.1)
            && (forall c, k :: ((c, k) in r.stats.value.prob <==> LastProb(log, c, k).Some?))
            && (forall c, k :: LastProb(log, c, k).Some? ==> r.stats.value.prob[(c, k)] == LastProb(log, c, k).value)
  {
    var recs := RecordLines(lines);
    var one := FirstPass(recs);
    var init := Initial(one.cases, |one.classes|);
    SecondPassIsFold(init, recs, num);
    FoldLabels(init, FullLog(recs, num));
    FoldMain(init, FullLog(recs, num));
    FoldProb(init, FullLog(recs, num));
  }

  /** When every case number lies in `1..N` and every class in `0..n-1`
      the frame keeps its initial shape: `N` rows and `2 + n` columns (600
      cases in 3 classes give a 600 x 5 frame). */
  lemma DenseShape(lines: seq<string>, num: FloatParser)
    requires ExtractResults(None, lines, num).error.None?
    requires InFrame(FullLog(RecordLines(lines), num), |RecordLines(lines)|, |HeadClasses(RecordLines(lines))|)
    ensures var r := ExtractResults(None, lines, num);
            && r.caseNumber == |RecordLines(lines)| && r.classNumber == |HeadClasses(RecordLines(lines))|
            && |r.stats.value.cases| == r.caseNumber && |r.stats.value.labels| == r.classNumber
  {
    var recs := RecordLines(lines);
    var one := FirstPass(recs);
    SecondPassIsFold(Initial(one.cases, |one.classes|), recs, num);
    DenseFrame(|recs|, |HeadClasses(recs)|, FullLog(recs, num));
  }

  /** Every assignment names a case in `1..cases` and a class in
      `0..classes-1`. */
  predicate InFrame(log: seq<Write>, cases: nat, classes: nat) {
    forall i :: 0 <= i < |log| ==> 1 <= log[i].caseId <= cases && 0 <= log[i].cls < classes
  }

  /** Assignments that stay inside the initial frame's rows and columns do
      not enlarge it. */
  lemma DenseFrame(cases: nat, classes: nat, log: seq<Write>)
    requires InFrame(log, cases, classes)
    ensures |Fold(Initial(cases, classes), log).cases| == cases
    ensures |Fold(Initial(cases, classes), log).labels| == classes
  {
    var init := Initial(cases, classes);
    var s := Fold(init, log);
    FoldLabels(init, log);
    assert CasesOf(log) <= Elements(init.cases) by {
      forall i | 0 <= i < |log| ensures log[i].caseId in Elements(init.cases) {
        assert init.cases[log[i].caseId - 1] == log[i].caseId;
      }
    }
    assert ClassesOf(log) <= Elements(init.labels) by {
      forall i | 0 <= i < |log| && log[i].ProbW? ensures log[i].cls in Elements(init.labels) {
        assert init.labels[log[i].cls] == log[i].cls;
      }
    }
    SameElementsSameLength(s.cases, init.cases);
    SameElementsSameLength(s.labels, init.labels);
  }

  lemma SameElementsSameLength<T>(a: seq<T>, b: seq<T>)
    requires Distinct(a) && Distinct(b) && Elements(a) == Elements(b)
    ensures |a| == |b|
  {
    DistinctIffNoCollapse(a);
    DistinctIffNoCollapse(b);
  }

  lemma RangeDistinct(lo: int, hi: int)
    ensures Distinct(Range(lo, hi))
  {
  }
}

=== FILE: controller.dfy ===
/** The error controller shared by `Input` and `Output` (`handle_error`):
    every public stage runs through it. In fail-fast mode the first error
    turns every later stage into a no-op returning `None`; in tolerant mode
    every stage runs. An escaping exception is swallowed and sets the error
    flag, which nothing ever clears. */
module Controller {
  import opened Basics

  datatype Controller = Controller(tolerateError: bool, hadError: bool)

  /** What a stage did to the object it belongs to: it returned a value, or
      it raised, leaving the object as it stood when the exception escaped
      (Python keeps the mutations done before the raise). */
  datatype Outcome<S, T> = Done(state: S, value: T) | Raised(state: S, error: Error)

  /** The controller, the object and the wrapper's return value after one
      wrapped call. */
  datatype Step<S, T> = Step(controller: Controller, state: S, value: Option<T>)

  /** The guard at the top of the wrapper: a stage runs when errors are
      tolerated or none has happened yet. */
  predicate Runs(c: Controller) {
    c.tolerateError || !c.hadError
  }

  /** One call through the wrapper. */
  function Invoke<S, T>(c: Controller, s: S, stage: S -> Outcome<S, T>): (r: Step<S, T>)
    ensures r.controller.tolerateError == c.tolerateError
    ensures !Runs(c) ==> r == Step(c, s, None)
    ensures Runs(c) ==> r.state == stage(s).state
    ensures r.value.Some? <==> Runs(c) && stage(s).Done?
    ensures r.value.Some? ==> r.value.value == stage(s).value
    ensures r.controller.hadError <==> c.hadError || (Runs(c) && stage(s).Raised?)
  {
    if !Runs(c) then Step(c, s, None)
    else match stage(s)
      case Done(s', v) => Step(c, s', Some(v))
      case Raised(s', _) => Step(c.(hadError := true), s', None)
  }

  /** A sequence of wrapped calls, one after the other. */
  function RunAll<S, T>(c: Controller, s: S, stages: seq<S -> Outcome<S, T>>): (Controller, S)
    decreases |stages|
  {
    if |stages| == 0 then (c, s)
    else
      var r := Invoke(c, s, stages[0]);
      RunAll(r.controller, r.state, stages[1..])
  }

  /** Reference behaviour of tolerant mode: every stage runs on the object
      the previous one left, whether or not it raised. */
  function RunEvery<S, T>(s: S, stages: seq<S -> Outcome<S, T>>): S
    decreases |stages|
  {
    if |stages| == 0 then s else RunEvery(stages[0](s).state, stages[1..])
  }

  /** Reference behaviour of fail-fast mode: the stages run until the first
      one that raises, included; the flag says whether one raised. */
  function RunUntilError<S, T>(s: S, stages: seq<S -> Outcome<S, T>>): (S, bool)
    decreases |stages|
  {
    if |stages| == 0 then (s, false)
    else match stages[0](s)
      case Done(s', _) => RunUntilError(s', stages[1..])
      case Raised(s', _) => (s', true)
  }

  /** Once an error has happened in fail-fast mode, every later call is a
      no-op: nothing changes, whatever the stages are. */
  lemma {:induction false} FailFastFreezes<S, T>(c: Controller, s: S, stages: seq<S -> Outcome<S, T>>)
    requires !c.tolerateError && c.hadError
    ensures RunAll(c, s, stages) == (c, s)
    decreases |stages|
  {
    if |stages| > 0 {
      FailFastFreezes(c, s, stages[1..]);
    }
  }

  /** The error flag is never reset and the mode never changes. */
  lemma {:induction false} ErrorIsSticky<S, T>(c: Controller, s: S, stages: seq<S -> Outcome<S, T>>)
    ensures RunAll(c, s, stages).0.tolerateError == c.tolerateError
    ensures c.hadError ==> RunAll(c, s, stages).0.hadError
    decreases |stages|
  {
    if |stages| > 0 {
      var r := Invoke(c, s, stages[0]);
      ErrorIsSticky(r.controller, r.state, stages[1..]);
    }
  }

  /** In tolerant mode every stage runs, each on the object the previous
      one left, and the flag records whether any of them raised. */
  lemma {:induction false} TolerantRunsEvery<S, T>(c: Controller, s: S, stages: seq<S -> Outcome<S, T>>)
    requires c.tolerateError
    ensures RunAll(c, s, stages).1 == RunEvery(s, stages)
    decreases |stages|
  {
    if |stages| > 0 {
      var r := Invoke(c, s, stages[0]);
      TolerantRunsEvery(r.controller, r.state, stages[1..]);
    }
  }

  /** In fail-fast mode, from a clean controller, the stages run up to and
      including the first one that raises, and the flag ends up set exactly
      when one raised. */
  lemma {:induction false} FailFastStopsAtFirstError<S, T>(c: Controller, s: S, stages: seq<S -> Outcome<S, T>>)
    requires !c.tolerateError && !c.hadError
    ensures RunAll(c, s, stages).1 == RunUntilError(s, stages).0
    ensures RunAll(c, s, stages).0.hadError == RunUntilError(s, stages).1
    decreases |stages|
  {
    if |stages| > 0 {
      var r := Invoke(c, s, stages[0]);
      if stages[0](s).Raised? {
        FailFastFreezes(r.controller, r.state, stages[1..]);
      } else {
        FailFastStopsAtFirstError(r.controller, r.state, stages[1..]);
      }
    }
  }
}

=== FILE: datasets.dfy ===
/** One input file's way into the wrapper (`Dataset` in
    autoclasswrapper/input.py): the declared-type check, the duplicate
    header check, metadata stamping on reading, column-name cleaning, the
    float-castability check and the missing-value scan. */
module Datasets {
  import opened Basics
  import opened Text
  import opened Tables

  /** Python's `float()` on a cell's text: `None` when the cast fails. */
  type FloatParser = string -> Option<real>

  // ---------------------------------------------------------------------
  // raise_on_duplicates

  /** `raise_on_duplicates`: the list's length is compared with the size of
      its set. It raises exactly when some name repeats. */
  function RaiseOnDuplicates(names: seq<string>): (r: Option<Error>)
    ensures r.None? <==> Distinct(names)
    ensures r.Some? ==> r.value == DuplicateColumnName(names)
  {
    DistinctIffNoCollapse(names);
    if |names| != |Elements(names)| then Some(DuplicateColumnName(names)) else None
  }

  // ---------------------------------------------------------------------
  // construction and reading

  /** The constructor arguments of a `Dataset` once its declared type has
      been accepted. The missing-value marker is stored by the source but
      never used, so it is not kept. */
  datatype Source = Source(file: string, kind: DataType, error: string, separator: char)

  /** `Dataset.__init__`: the declared type must be one of the four names. */
  function NewDataset(file: string, typeName: string, error: string, separator: char): (r: Result<Source>)
    ensures r.Ok? <==> typeName in ["real scalar", "real location", "discrete", "merged"]
    ensures r.Ok? ==> TypeName(r.value.kind) == typeName
    ensures r.Ok? ==> r.value.file == file && r.value.error == error && r.value.separator == separator
    ensures r.Err? ==> r.error == InvalidDataType(file)
  {
    match ParseTypeName(typeName)
    case Some(k) => Ok(Source(file, k, error, separator))
    case None => Err(InvalidDataType(file))
  }

  /** An input file as far as the wrapper looks at it: the raw first line,
      which the duplicate check splits itself, and pandas' parse of the file
      with the first row as header and the first column as index. The index
      name is `None` when pandas leaves the index unnamed, as it does for a
      header whose first field is empty. */
  datatype LoadedFile = LoadedFile(firstLine: string, indexName: Option<string>, columns: seq<string>,
                                   ids: seq<string>, rows: seq<seq<Cell>>)

  /** What `read_csv` guarantees of its result: a rectangular frame whose
      column labels are unique (pandas renames repeated labels). */
  predicate WellParsed(f: LoadedFile) {
    && Distinct(f.columns)
    && |f.rows| == |f.ids|
    && forall i :: 0 <= i < |f.rows| ==> |f.rows[i]| == |f.columns|
  }

  /** A dataset that has been read: its source, its frame and its metadata. */
  datatype Dataset = Dataset(source: Source, table: Table, meta: MetaMap)

  /** The header fields the duplicate check looks at: the stripped first
      line split on the file's separator. */
  function HeaderFields(firstLine: string, separator: char): seq<string> {
    SplitOn(Strip(firstLine), separator)
  }

  /** The metadata every data column of a freshly read file receives. */
  function Stamp(src: Source): Meta {
    Meta(src.kind, src.error, false)
  }

  /** `check_duplicate_col_names` then `read_datafile`: reject a header with
      a repeated field, otherwise keep pandas' frame and stamp every data
      column -- not the index -- with the file's type and error. */
  function ReadDatafile(src: Source, f: LoadedFile): (r: Result<Dataset>)
    requires WellParsed(f)
    ensures r.Err? <==> !Distinct(HeaderFields(f.firstLine, src.separator))
    ensures r.Err? ==> r.error == DuplicateColumnName(HeaderFields(f.firstLine, src.separator))
    ensures r.Ok? ==> r.value.source == src
    ensures r.Ok? ==> r.value.table == Table(f.indexName, f.columns, f.ids, f.rows)
    ensures r.Ok? ==> Covered(r.value)
    ensures r.Ok? ==> forall c :: c in r.value.meta ==> r.value.meta[c] == Stamp(src)
  {
    match RaiseOnDuplicates(HeaderFields(f.firstLine, src.separator))
    case Some(e) => Err(e)
    case None =>
      var meta := map c | c in f.columns :: Stamp(src);
      Ok(Dataset(src, Table(f.indexName, f.columns, f.ids, f.rows), meta))
  }

  /** The dataset invariant: a rectangular frame whose metadata keys are
      exactly its column labels. */
  predicate Covered(d: Dataset) {
    d.table.Rectangular() && d.meta.Keys == Elements(d.table.columns)
  }

  // ---------------------------------------------------------------------
  // clean_column_names

  /** The characters the cleaning regex `[^A-Za-z0-9._+-]+` leaves alone. */
  predicate Allowed(c: char) {
    ('A' <= c <= 'Z') || ('a' <= c <= 'z') || ('0' <= c <= '9')
    || c == '.' || c == '_' || c == '+' || c == '-'
  }

  predicate IsClean(s: string) {
    forall i :: 0 <= i < |s| ==> Allowed(s[i])
  }

  /** The allowed characters of a name other than `_`, in order: what
      cleaning never touches. */
  function Kept(s: string): string {
    if |s| == 0 then ""
    else (if Allowed(s[0]) && s[0] != '_' then [s[0]] else "") + Kept(s[1..])
  }

  /** Drops the leading run of disallowed characters. */
  function SkipRun(s: string): (r: string)
    ensures |r| <= |s| && r == s[|s| - |r|..]
    ensures |r| > 0 ==> Allowed(r[0])
  {
    if |s| > 0 && !Allowed(s[0]) then SkipRun(s[1..]) else s
  }

  /** `regex.sub("_", name)`: each maximal run of disallowed characters
      becomes one `_`. The result holds only allowed characters, an already
      clean name comes back unchanged, and every allowed character other
      than `_` survives in order. */
  function CleanName(s: string): (r: string)
    ensures IsClean(r)
    ensures |r| <= |s|
    ensures |r| == 0 <==> |s| == 0
    decreases |s|
  {
    if |s| == 0 then ""
    else if Allowed(s[0]) then
      var rest := CleanName(s[1..]);
      assert ([s[0]] + rest)[1..] == rest;
      [s[0]] + rest
    else
      var rest := CleanName(SkipRun(s[1..]));
      assert ("_" + rest)[1..] == rest;
      "_" + rest
  }

  /** Skipping a run drops no kept character. */
  lemma {:induction false} SkipRunKept(s: string)
    ensures Kept(SkipRun(s)) == Kept(s)
    decreases |s|
  {
    if |s| > 0 && !Allowed(s[0]) {
      SkipRunKept(s[1..]);
    }
  }

  /** Every allowed character of a name other than `_` survives cleaning,
      in order, and no other such character appears. */
  lemma {:induction false} CleanNameKept(s: string)
    ensures Kept(CleanName(s)) == Kept(s)
    decreases |s|
  {
    if |s| > 0 {
      if Allowed(s[0]) {
        var rest := CleanName(s[1..]);
        CleanNameKept(s[1..]);
        assert ([s[0]] + rest)[1..] == rest;
      } else {
        var rest := CleanName(SkipRun(s[1..]));
        CleanNameKept(SkipRun(s[1..]));
        SkipRunKept(s[1..]);
        assert ("_" + rest)[1..] == rest;
      }
    }
  }

  /** An already clean name comes back unchanged. */
  lemma {:induction false} CleanNameFixesClean(s: string)
    requires IsClean(s)
    ensures CleanName(s) == s
    decreases |s|
  {
    if |s| > 0 {
      CleanNameFixesClean(s[1..]);
      assert [s[0]] + s[1..] == s;
    }
  }

  /** Cleaning is idempotent. */
  lemma {:induction false} CleanNameIdempotent(s: string)
    ensures CleanName(CleanName(s)) == CleanName(s)
  {
    CleanNameFixesClean(CleanName(s));
  }

  predicate AllDisallowed(d: string) {
    forall i :: 0 <= i < |d| ==> !Allowed(d[i])
  }

  /** An allowed first character is copied as it stands. */
  lemma CleanAllowedHead(c: char, t: string)
    requires Allowed(c)
    ensures CleanName([c] + t) == [c] + CleanName(t)
  {
    assert ([c] + t)[0] == c;
    assert ([c] + t)[1..] == t;
  }

  /** A clean prefix is copied as it stands. */
  lemma {:induction false} CleanPrefix(a: string, b: string)
    requires IsClean(a)
    ensures CleanName(a + b) == a + CleanName(b)
    decreases |a|
  {
    if |a| > 0 {
      assert a + b == [a[0]] + (a[1..] + b);
      assert Allowed(a[0]);
      CleanAllowedHead(a[0], a[1..] + b);
      assert IsClean(a[1..]) by {
        forall i | 0 <= i < |a[1..]| ensures Allowed(a[1..][i]) {
          assert a[1..][i] == a[i + 1];
        }
      }
      CleanPrefix(a[1..], b);
      assert [a[0]] + (a[1..] + CleanName(b)) == a + CleanName(b) by {
        assert [a[0]] + a[1..] == a;
      }
    } else {
      assert a + b == b;
    }
  }

  lemma {:induction false} SkipWholeRun(d: string, b: string)
    requires AllDisallowed(d)
    requires |b| == 0 || Allowed(b[0])
    ensures SkipRun(d + b) == b
    decreases |d|
  {
    if |d| > 0 {
      assert (d + b)[1..] == d[1..] + b;
      SkipWholeRun(d[1..], b);
    } else {
      assert d + b == b;
    }
  }

  /** A maximal run of disallowed characters becomes a single `_`. */
  lemma CleanRun(d: string, b: string)
    requires |d| > 0 && AllDisallowed(d)
    requires |b| == 0 || Allowed(b[0])
    ensures CleanName(d + b) == "_" + CleanName(b)
  {
    assert (d + b)[1..] == d[1..] + b;
    SkipWholeRun(d[1..], b);
  }

  /** `CleanPrefix` and `CleanRun` at a split point of one string. */
  lemma CleanPrefixAt(s: string, k: nat)
    requires k <= |s| && IsClean(s[..k])
    ensures CleanName(s) == s[..k] + CleanName(s[k..])
  {
    CleanPrefix(s[..k], s[k..]);
    assert s[..k] + s[k..] == s;
  }

  lemma CleanRunAt(s: string, k: nat)
    requires 0 < k <= |s| && AllDisallowed(s[..k])
    requires k == |s| || Allowed(s[k])
    ensures CleanName(s) == "_" + CleanName(s[k..])
  {
    CleanRun(s[..k], s[k..]);
    assert s[..k] + s[k..] == s;
  }

  /** A name made only of disallowed characters becomes a single `_`. */
  lemma CleanNameTrailingRun(s: string)
    requires |s| > 0 && AllDisallowed(s)
    ensures CleanName(s) == "_"
  {
    CleanRunAt(s, |s|);
    assert s[|s|..] == "";
  }

  /** The cleaned label of every column, in place. */
  function Cleaned(cols: seq<string>): (r: seq<string>)
    ensures |r| == |cols|
    ensures forall j :: 0 <= j < |cols| ==> r[j] == CleanName(cols[j])
  {
    if |cols| == 0 then [] else [CleanName(cols[0])] + Cleaned(cols[1..])
  }

  /** The metadata side of the rename loop: for each column in order whose
      label changes, `column_meta[to] = column_meta.pop(from)`. */
  function RekeyMeta(meta: MetaMap, cols: seq<string>): Result<MetaMap>
    decreases |cols|
  {
    if |cols| == 0 then Ok(meta)
    else
      var from := cols[0];
      var to := CleanName(from);
      if to == from then RekeyMeta(meta, cols[1..])
      else if from !in meta then Err(MissingMetadata(from))
      else RekeyMeta((meta - {from})[to := meta[from]], cols[1..])
  }

  /** On a map whose keys are some clean names plus the labels still to be
      visited, the rename loop succeeds, the visited labels are replaced by
      their cleaned names as keys, and no value appears that was not there
      (two labels cleaning to the same name leave one key). Which value
      lands under which key is `RekeyMetaPlaces`. */
  lemma {:induction false} RekeyMetaMoves(meta: MetaMap, cols: seq<string>, done: set<string>)
    requires Distinct(cols)
    requires forall k :: k in done ==> IsClean(k)
    requires meta.Keys == done + Elements(cols)
    ensures RekeyMeta(meta, cols).Ok?
    ensures RekeyMeta(meta, cols).value.Keys == done + Elements(Cleaned(cols))
    ensures RekeyMeta(meta, cols).value.Values <= meta.Values
    decreases |cols|
  {
    if |cols| > 0 {
      var next := RekeyStep(meta, cols, done);
      RekeyMetaMoves(next, cols[1..], done + {CleanName(cols[0])});
    }
  }

  /** When no two labels clean to the same name, the rename loop puts each
      label's own metadata entry under its cleaned name, and leaves every
      other key with its old value. */
  lemma {:induction false} RekeyMetaPlaces(meta: MetaMap, cols: seq<string>)
    requires forall j :: 0 <= j < |cols| ==> cols[j] in meta
    requires Distinct(Cleaned(cols))
    ensures RekeyMeta(meta, cols).Ok?
    ensures forall j :: 0 <= j < |cols| ==>
              CleanName(cols[j]) in RekeyMeta(meta, cols).value
              && RekeyMeta(meta, cols).value[CleanName(cols[j])] == meta[cols[j]]
    ensures forall k :: k in meta && Untouched(k, cols) ==>
              k in RekeyMeta(meta, cols).value && RekeyMeta(meta, cols).value[k] == meta[k]
    decreases |cols|
  {
    if |cols| > 0 {
      var next := RekeyPlaceStep(meta, cols);
      RekeyMetaPlaces(next, cols[1..]);
      var r := RekeyMeta(next, cols[1..]).value;
      assert Untouched(CleanName(cols[0]), cols[1..]);
      forall j | 0 <= j < |cols|
        ensures CleanName(cols[j]) in r && r[CleanName(cols[j])] == meta[cols[j]]
      {
        if j > 0 {
          assert cols[1..][j - 1] == cols[j];
        }
      }
    }
  }

  /** `k` is neither one of the labels nor one of their cleaned names. */
  predicate Untouched(k: string, cols: seq<string>) {
    forall i :: 0 <= i < |cols| ==> k != cols[i] && k != CleanName(cols[i])
  }

  /** The map after the first label, for `RekeyMetaPlaces`: the first
      entry now sits under its cleaned name, which no later label touches,
      and the later labels keep their entries. */
  lemma RekeyPlaceStep(meta: MetaMap, cols: seq<string>) returns (next: MetaMap)
    requires |cols| > 0
    requires forall j :: 0 <= j < |cols| ==> cols[j] in meta
    requires Distinct(Cleaned(cols))
    ensures RekeyMeta(meta, cols) == RekeyMeta(next, cols[1..])
    ensures forall j :: 0 <= j < |cols| - 1 ==> cols[1..][j] in next && next[cols[1..][j]] == meta[cols[1..][j]]
    ensures Distinct(Cleaned(cols[1..]))
    ensures CleanName(cols[0]) in next && next[CleanName(cols[0])] == meta[cols[0]]
    ensures Untouched(CleanName(cols[0]), cols[1..])
    ensures forall k :: k in meta && Untouched(k, cols) ==> k in next && next[k] == meta[k]
  {
    var from := cols[0];
    var to := CleanName(from);
    var cl := Cleaned(cols);
    forall i | 1 <= i < |cols|
      ensures cols[i] != from && cols[i] != to && CleanName(cols[i]) != to
    {
      assert cl[0] != cl[i];
      CleanNameIdempotent(from);
    }
    assert Cleaned(cols[1..]) == cl[1..];
    if to == from {
      next := meta;
    } else {
      next := (meta - {from})[to := meta[from]];
    }
  }

  /** The map after the first label of the rename loop, and what it keeps
      true for the labels after it. */
  lemma RekeyStep(meta: MetaMap, cols: seq<string>, done: set<string>) returns (next: MetaMap)
    requires |cols| > 0 && Distinct(cols)
    requires forall k :: k in done ==> IsClean(k)
    requires meta.Keys == done + Elements(cols)
    ensures RekeyMeta(meta, cols) == RekeyMeta(next, cols[1..])
    ensures Distinct(cols[1..])
    ensures forall k :: k in done + {CleanName(cols[0])} ==> IsClean(k)
    ensures next.Keys == (done + {CleanName(cols[0])}) + Elements(cols[1..])
    ensures next.Values <= meta.Values
    ensures Elements(Cleaned(cols)) == {CleanName(cols[0])} + Elements(Cleaned(cols[1..]))
  {
    DistinctTail(cols);
    CleanedCons(cols);
    if CleanName(cols[0]) == cols[0] {
      next := meta;
    } else {
      next := RekeyRename(meta, cols, done);
    }
  }

  lemma CleanedCons(cols: seq<string>)
    requires |cols| > 0
    ensures Elements(Cleaned(cols)) == {CleanName(cols[0])} + Elements(Cleaned(cols[1..]))
  {
    assert Cleaned(cols) == [CleanName(cols[0])] + Cleaned(cols[1..]);
    ElementsCons(CleanName(cols[0]), Cleaned(cols[1..]));
  }

  /** A label that changes is not among the clean names already placed, so
      its entry moves. */
  lemma RekeyRename(meta: MetaMap, cols: seq<string>, done: set<string>) returns (next: MetaMap)
    requires |cols| > 0 && cols[0] !in Elements(cols[1..])
    requires CleanName(cols[0]) != cols[0]
    requires forall k :: k in done ==> IsClean(k)
    requires meta.Keys == done + Elements(cols)
    ensures RekeyMeta(meta, cols) == RekeyMeta(next, cols[1..])
    ensures next.Keys == (done + {CleanName(cols[0])}) + Elements(cols[1..])
    ensures next.Values <= meta.Values
  {
    var from := cols[0];
    var to := CleanName(from);
    if IsClean(from) {
      CleanNameFixesClean(from);
    }
    assert from !in done;
    assert Elements(cols) == {from} + Elements(cols[1..]) by {
      assert cols == [from] + cols[1..];
    }
    next := (meta - {from})[to := meta[from]];
    MoveKey(meta, from, to, done, Elements(cols[1..]));
  }

  /** One step of the rename loop on the key set. */
  lemma MoveKey(meta: MetaMap, from: string, to: string, done: set<string>, later: set<string>)
    requires meta.Keys == done + ({from} + later)
    requires from !in done && from !in later
    ensures var m := (meta - {from})[to := meta[from]];
            m.Keys == (done + {to}) + later && m.Values <= meta.Values
  {
    var m := (meta - {from})[to := meta[from]];
    assert (meta - {from}).Keys == done + later;
    forall v | v in m.Values ensures v in meta.Values {
      var k :| k in m && m[k] == v;
      if k == to {
        assert meta[from] == v;
      } else {
        assert k in meta && meta[k] == v;
      }
    }
  }

  /** `clean_column_names`: the index name and every column label are
      cleaned, and the metadata follows the renames. */
  function CleanColumnNames(d: Dataset): (r: Result<Dataset>)
    ensures d.table.indexName.None? ==> r == Err(NoIndexName)
    ensures r.Ok? ==> r.value.table.indexName == Some(CleanName(d.table.indexName.value))
    ensures r.Ok? ==> r.value.table.columns == Cleaned(d.table.columns)
    ensures r.Ok? ==> r.value.table.ids == d.table.ids && r.value.table.rows == d.table.rows
    ensures r.Ok? ==> r.value.source == d.source
    ensures r.Ok? ==> forall j :: 0 <= j < |r.value.table.columns| ==> IsClean(r.value.table.columns[j])
  {
    match d.table.indexName
    case None => Err(NoIndexName)
    case Some(n) =>
      match RekeyMeta(d.meta, d.table.columns)
      case Err(e) => Err(e)
      case Ok(m) =>
        Ok(d.(table := d.table.(indexName := Some(CleanName(n)), columns := Cleaned(d.table.columns)),
              meta := m))
  }

  /** Cleaning a freshly read dataset never fails, keeps the metadata keys
      equal to the (cleaned) labels and adds no metadata value. */
  lemma CleanColumnNamesCovered(d: Dataset)
    requires Covered(d) && Distinct(d.table.columns) && d.table.indexName.Some?
    ensures CleanColumnNames(d).Ok?
    ensures Covered(CleanColumnNames(d).value)
    ensures CleanColumnNames(d).value.meta.Values <= d.meta.Values
  {
    RekeyMetaMoves(d.meta, d.table.columns, {});
  }

  /** When no two labels clean to the same name, each cleaned column keeps
      the metadata entry of the column it was renamed from. */
  lemma CleanColumnNamesKeepsEntries(d: Dataset)
    requires d.meta.Keys == Elements(d.table.columns) && d.table.indexName.Some?
    requires Distinct(Cleaned(d.table.columns))
    ensures CleanColumnNames(d).Ok?
    ensures forall j :: 0 <= j < |d.table.columns| ==>
              && d.table.columns[j] in d.meta
              && CleanName(d.table.columns[j]) in CleanColumnNames(d).value.meta
              && CleanColumnNames(d).value.meta[CleanName(d.table.columns[j])] == d.meta[d.table.columns[j]]
  {
    ColumnsHaveMeta(d.meta, d.table.columns);
    RekeyMetaPlaces(d.meta, d.table.columns);
    assert CleanColumnNames(d).value.meta == RekeyMeta(d.meta, d.table.columns).value;
  }

  lemma ColumnsHaveMeta(meta: MetaMap, cols: seq<string>)
    requires meta.Keys == Elements(cols)
    ensures forall j :: 0 <= j < |cols| ==> cols[j] in meta
  {
    forall j | 0 <= j < |cols| ensures cols[j] in meta {
      assert cols[j] in Elements(cols);
    }
  }

  // ---------------------------------------------------------------------
  // check_data_type

  predicate CastableCell(num: FloatParser, cell: Cell) {
    cell.None? || num(cell.value).Some?
  }

  /** `Series.astype("float64")` succeeds: every present cell casts. */
  predicate Castable(num: FloatParser, col: seq<Cell>) {
    forall i :: 0 <= i < |col| ==> CastableCell(num, col[i])
  }

  /** Column `j` gets through the type check: it has metadata, and when
      declared real every cell casts to float. */
  predicate ColumnPasses(t: Table, meta: MetaMap, num: FloatParser, j: nat) {
    && t.Rectangular() && j < |t.columns|
    && t.columns[j] in meta && (IsReal(meta[t.columns[j]].kind) ==> Castable(num, t.Column(j)))
  }

  /** The exception raised for a column that does not pass. */
  function FailureFor(t: Table, meta: MetaMap, j: nat): Error
    requires j < |t.columns|
  {
    if t.columns[j] in meta then CastFloat64(t.columns[j]) else MissingMetadata(t.columns[j])
  }

  /** The first column from `j` on that fails the type check. */
  function FirstBadColumn(t: Table, meta: MetaMap, num: FloatParser, j: nat): (r: Option<nat>)
    requires t.Rectangular() && j <= |t.columns|
    ensures r.None? <==> forall k :: j <= k < |t.columns| ==> ColumnPasses(t, meta, num, k)
    ensures r.Some? ==> j <= r.value < |t.columns| && !ColumnPasses(t, meta, num, r.value)
                        && forall l :: j <= l < r.value ==> ColumnPasses(t, meta, num, l)
    decreases |t.columns| - j
  {
    if j == |t.columns| then None
    else if !ColumnPasses(t, meta, num, j) then Some(j)
    else FirstBadColumn(t, meta, num, j + 1)
  }

  function CheckFrom(t: Table, meta: MetaMap, num: FloatParser, j: nat): (r: Option<Error>)
    requires t.Rectangular() && j <= |t.columns|
    ensures r.None? <==> forall k :: j <= k < |t.columns| ==> ColumnPasses(t, meta, num, k)
    ensures r.Some? ==> exists k :: j <= k < |t.columns| && !ColumnPasses(t, meta, num, k)
                                  && (forall l :: j <= l < k ==> ColumnPasses(t, meta, num, l))
                                  && r.value == FailureFor(t, meta, k)
  {
    match FirstBadColumn(t, meta, num, j)
    case None => None
    case Some(k) => Some(FailureFor(t, meta, k))
  }

  /** `check_data_type`: the columns are visited in order and the first one
      declared real with a cell that does not cast raises `CastFloat64Error`
      naming it; discrete and merged columns are never cast. */
  function CheckDataType(d: Dataset, num: FloatParser): (r: Option<Error>)
    requires d.table.Rectangular()
    ensures r.None? <==> forall j :: 0 <= j < |d.table.columns| ==> ColumnPasses(d.table, d.meta, num, j)
    ensures r.Some? ==> exists j :: 0 <= j < |d.table.columns| && !ColumnPasses(d.table, d.meta, num, j)
                                  && (forall l :: 0 <= l < j ==> ColumnPasses(d.table, d.meta, num, l))
                                  && r.value == FailureFor(d.table, d.meta, j)
  {
    CheckFrom(d.table, d.meta, num, 0)
  }

  /** On a covered dataset the check fails exactly when some real column
      holds a cell that does not cast, and the error names such a column. */
  lemma CheckDataTypeCovered(d: Dataset, num: FloatParser)
    requires Covered(d)
    ensures CheckDataType(d, num).None? <==>
              forall j :: 0 <= j < |d.table.columns| && IsReal(d.meta[d.table.columns[j]].kind) ==>
                            Castable(num, d.table.Column(j))
    ensures CheckDataType(d, num).Some? ==>
              exists j :: 0 <= j < |d.table.columns| && CheckDataType(d, num) == Some(CastFloat64(d.table.columns[j]))
                          && IsReal(d.meta[d.table.columns[j]].kind) && !Castable(num, d.table.Column(j))
  {
    var t := d.table;
    forall j | 0 <= j < |t.columns|
      ensures ColumnPasses(t, d.meta, num, j) <==> (IsReal(d.meta[t.columns[j]].kind) ==> Castable(num, t.Column(j)))
    {
      assert t.columns[j] in Elements(t.columns);
    }
  }

  /** A covered dataset declared discrete always passes. */
  lemma DiscreteNeverFails(d: Dataset, num: FloatParser)
    requires Covered(d)
    requires forall c :: c in d.meta ==> d.meta[c].kind == Discrete
    ensures CheckDataType(d, num).None?
  {
    CheckDataTypeCovered(d, num);
  }

  // ---------------------------------------------------------------------
  // search_missing_values

  function FlagFrom(t: Table, meta: MetaMap, j: nat): (r: (MetaMap, Option<Error>))
    requires t.Rectangular() && j <= |t.columns|
    ensures r.0.Keys == meta.Keys
    ensures forall c :: c in meta ==> r.0[c].kind == meta[c].kind && r.0[c].error == meta[c].error
    ensures r.1.None? <==> forall k :: j <= k < |t.columns| && HasNull(t.Column(k)) ==> t.columns[k] in meta
    ensures r.1.None? ==> forall c :: c in meta ==>
              (r.0[c].missing <==> (meta[c].missing ||
                 exists k :: j <= k < |t.columns| && t.columns[k] == c && HasNull(t.Column(k))))
    ensures forall c :: c in meta && meta[c].missing ==> r.0[c].missing
    decreases |t.columns| - j
  {
    if j == |t.columns| then (meta, None)
    else if !HasNull(t.Column(j)) then FlagFrom(t, meta, j + 1)
    else
      var c := t.columns[j];
      if c !in meta then (meta, Some(MissingMetadata(c)))
      else FlagFrom(t, meta[c := meta[c].(missing := true)], j + 1)
  }

  /** `search_missing_values`: every column holding a null gets
      `missing := True`; no flag is ever cleared and no other field or key
      changes. It raises only for a null column without metadata. */
  function SearchMissingValues(t: Table, meta: MetaMap): (r: (MetaMap, Option<Error>))
    requires t.Rectangular()
    ensures r.0.Keys == meta.Keys
    ensures forall c :: c in meta ==> r.0[c].kind == meta[c].kind && r.0[c].error == meta[c].error
    ensures forall c :: c in meta && meta[c].missing ==> r.0[c].missing
    ensures r.1.None? <==> forall j :: 0 <= j < |t.columns| && HasNull(t.Column(j)) ==> t.columns[j] in meta
    ensures r.1.None? ==> forall c :: c in meta ==>
              (r.0[c].missing <==> (meta[c].missing ||
                 exists j :: 0 <= j < |t.columns| && t.columns[j] == c && HasNull(t.Column(j))))
  {
    FlagFrom(t, meta, 0)
  }
}

/** Column renames the source's test suite expects from `clean_column_names`. */
module CleanNameExamples {
  import opened Datasets

  /** The renames the source's tests expect, each built from one split
      point at a time: `gene(name)` becomes `gene_name_`, and `col`
      followed by brackets or by accented letters becomes `col_`. */
  lemma ExampleParens()
    ensures CleanName("gene(name)") == "gene_name_"
  {
    calc {
      CleanName("gene(name)");
      { ParensHead(); }
      "gene" + CleanName("(name)");
      { ParensRun(); }
      "gene" + ("_" + CleanName("name)"));
      { ParensWord(); }
      "gene" + ("_" + ("name" + CleanName(")")));
      { ParensClose(); }
      "gene" + ("_" + ("name" + "_"));
      "gene_name_";
    }
  }

  lemma ParensClose()
    ensures CleanName(")") == "_"
  {
    CleanNameTrailingRun(")");
  }

  lemma ParensHead()
    ensures CleanName("gene(name)") == "gene" + CleanName("(name)")
  {
    var s := "gene(name)";
    assert s[..4] == "gene";
    assert s[4..] == "(name)";
    CleanPrefixAt(s, 4);
  }

  lemma ParensRun()
    ensures CleanName("(name)") == "_" + CleanName("name)")
  {
    var s := "(name)";
    assert s[..1] == "(";
    assert s[1..] == "name)";
    CleanRunAt(s, 1);
  }

  lemma ParensWord()
    ensures CleanName("name)") == "name" + CleanName(")")
  {
    var s := "name)";
    assert s[..4] == "name";
    assert s[4..] == ")";
    CleanPrefixAt(s, 4);
  }

  lemma ExampleAccents()
    ensures CleanName("col\U{e9}\U{e8}\U{e0}") == "col_"
  {
    calc {
      CleanName("col\U{e9}\U{e8}\U{e0}");
      { AccentsHead(); }
      "col" + CleanName("\U{e9}\U{e8}\U{e0}");
      { CleanNameTrailingRun("\U{e9}\U{e8}\U{e0}"); }
      "col" + "_";
    }
  }

  lemma AccentsHead()
    ensures CleanName("col\U{e9}\U{e8}\U{e0}") == "col" + CleanName("\U{e9}\U{e8}\U{e0}")
  {
    var s := "col\U{e9}\U{e8}\U{e0}";
    assert s[..3] == "col";
    assert s[3..] == "\U{e9}\U{e8}\U{e0}";
    CleanPrefixAt(s, 3);
  }

  lemma ExampleBrackets()
    ensures CleanName("col[]()/") == "col_"
  {
    BracketsHead();
    BracketsRun();
  }

  lemma BracketsRun()
    ensures CleanName("[]()/") == "_"
  {
    CleanNameTrailingRun("[]()/");
  }

  lemma BracketsHead()
    ensures CleanName("col[]()/") == "col" + CleanName("[]()/")
  {
    var s := "col[]()/";
    assert s[..3] == "col";
    assert s[3..] == "[]()/";
    CleanPrefixAt(s, 3);
  }
}

=== FILE: descriptors.dfy ===
/** The AutoClass C input files `Input` writes from the full dataset: the
    `.db2` data, its `.tsv` copy, the `.hd2` attribute descriptions, the
    `.model` groups, the `.s-params` search parameters and the `.r-params`
    report parameters. Each file is its list of lines, without the line
    terminators. */
module Descriptors {
  import opened Basics
  import opened Text
  import opened Tables
  import opened Datasets

  // ---------------------------------------------------------------------
  // .db2 and .tsv: DataFrame.to_csv

  function Render(c: Cell, na: string): string {
    match c
    case None => na
    case Some(v) => v
  }

  /** The fields of one written row: its identifier, then each cell, a
      missing cell written as the marker. */
  function Fields(id: string, row: seq<Cell>, na: string): (r: seq<string>)
    ensures |r| == |row| + 1 && r[0] == id
    ensures forall j :: 0 <= j < |row| ==> r[j + 1] == Render(row[j], na)
  {
    [id] + seq(|row|, j requires 0 <= j < |row| => Render(row[j], na))
  }

  /** One line of `to_csv(header=False, sep=sep, na_rep=na)`. */
  function DataLine(id: string, row: seq<Cell>, sep: char, na: string): string {
    Join(Fields(id, row, na), [sep])
  }

  /** `create_db2_file`, the `.db2` part: one line per row, no header. */
  function Db2Lines(t: Table, sep: char, na: string): (r: seq<string>)
    requires t.Rectangular()
    ensures |r| == |t.ids|
  {
    seq(|t.ids|, i requires 0 <= i < |t.ids| => DataLine(t.ids[i], t.rows[i], sep, na))
  }

  /** Reading a data line back: split on the separator, the marker meaning
      a missing cell. */
  function ReadDataLine(line: string, sep: char, na: string): (string, seq<Cell>) {
    var f := SplitOn(line, sep);
    (f[0], seq(|f| - 1, j requires 0 <= j < |f| - 1 => if f[j + 1] == na then None else Some(f[j + 1])))
  }

  /** A row can be written unambiguously: neither its identifier, nor a
      present cell, nor the marker holds the separator, and no present cell
      reads as the marker. */
  predicate Writable(id: string, row: seq<Cell>, sep: char, na: string) {
    && sep !in id && sep !in na
    && forall j :: 0 <= j < |row| && row[j].Some? ==> sep !in row[j].value && row[j].value != na
  }

  /** Reading a written line gives the row back. */
  lemma DataLineRoundTrip(id: string, row: seq<Cell>, sep: char, na: string)
    requires Writable(id, row, sep, na)
    ensures ReadDataLine(DataLine(id, row, sep, na), sep, na) == (id, row)
  {
    var f := Fields(id, row, na);
    forall i | 0 <= i < |f| ensures sep !in f[i] {
      if i > 0 {
        assert f[i] == Render(row[i - 1], na);
      }
    }
    SplitJoin(f, sep);
    assert SplitOn(DataLine(id, row, sep, na), sep) == f;
    var back := ReadDataLine(DataLine(id, row, sep, na), sep, na).1;
    assert |back| == |row|;
    forall j | 0 <= j < |row| ensures back[j] == row[j] {
      assert f[j + 1] == Render(row[j], na);
    }
    assert back == row;
  }

  /** Every line of the `.db2` file reads back as its row. */
  lemma Db2RoundTrip(t: Table, sep: char, na: string, i: nat)
    requires t.Rectangular() && i < |t.ids|
    requires Writable(t.ids[i], t.rows[i], sep, na)
    ensures ReadDataLine(Db2Lines(t, sep, na)[i], sep, na) == (t.ids[i], t.rows[i])
  {
    DataLineRoundTrip(t.ids[i], t.rows[i], sep, na);
  }

  /** The label pandas writes above the index: its name, or nothing. */
  function IndexLabel(t: Table): string {
    match t.indexName
    case None => ""
    case Some(n) => n
  }

  /** `create_db2_file`, the `.tsv` part: a tab-separated header naming the
      index and the columns, then the rows with missing cells left empty. */
  function TsvLines(t: Table): (r: seq<string>)
    requires t.Rectangular()
    ensures |r| == |t.ids| + 1
    ensures r[1..] == Db2Lines(t, '\t', "")
  {
    [Join([IndexLabel(t)] + t.columns, "\t")] + Db2Lines(t, '\t', "")
  }

  /** The `.tsv` header reads back as the index label and the columns when
      no label holds a tab. */
  lemma TsvHeaderRoundTrip(t: Table)
    requires t.Rectangular()
    requires '\t' !in IndexLabel(t) && forall j :: 0 <= j < |t.columns| ==> '\t' !in t.columns[j]
    ensures SplitOn(TsvLines(t)[0], '\t') == [IndexLabel(t)] + t.columns
  {
    var h := [IndexLabel(t)] + t.columns;
    assert forall j :: 0 < j < |h| ==> h[j] == t.columns[j - 1];
    SplitJoin(h, '\t');
  }

  // ---------------------------------------------------------------------
  // column selections

  /** The positions from `j` on whose column has metadata the selector
      accepts, in column order. */
  function Where(cols: seq<string>, meta: MetaMap, sel: Meta -> bool, j: nat): (ps: seq<nat>)
    requires j <= |cols|
    ensures forall m :: 0 <= m < |ps| ==> j <= ps[m] < |cols| && cols[ps[m]] in meta && sel(meta[cols[ps[m]]])
    ensures forall m, n :: 0 <= m < n < |ps| ==> ps[m] < ps[n]
    ensures forall p :: j <= p < |cols| && cols[p] in meta && sel(meta[cols[p]]) ==> p in ps
    decreases |cols| - j
  {
    if j == |cols| then []
    else
      var rest := Where(cols, meta, sel, j + 1);
      if cols[j] in meta && sel(meta[cols[j]]) then [j] + rest else rest
  }

  /** The first column, from `j` on, without metadata: where the loops over
      the columns raise `KeyError`. */
  function FirstUnknown(cols: seq<string>, meta: MetaMap, j: nat): (r: Option<nat>)
    requires j <= |cols|
    ensures r.None? <==> forall p :: j <= p < |cols| ==> cols[p] in meta
    ensures r.Some? ==> j <= r.value < |cols| && cols[r.value] !in meta
                        && forall p :: j <= p < r.value ==> cols[p] in meta
    decreases |cols| - j
  {
    if j == |cols| then None
    else if cols[j] !in meta then Some(j)
    else FirstUnknown(cols, meta, j + 1)
  }

  /** 1-based attribute numbers, as text. */
  function Numbers(ps: seq<nat>): (r: seq<string>)
    ensures |r| == |ps|
    ensures forall m :: 0 <= m < |ps| ==> r[m] == IntToString(ps[m] + 1)
  {
    seq(|ps|, m requires 0 <= m < |ps| => IntToString(ps[m] + 1))
  }

  // ---------------------------------------------------------------------
  // .hd2

  function Quote(s: string): string {
    "\"" + s + "\""
  }

  /** Python's `f"{name}"` on the index name, `None` included. */
  function IndexText(n: Option<string>): string {
    match n
    case None => "None"
    case Some(v) => v
  }

  /** The six lines before the attribute records. */
  function Hd2Header(columnCount: nat, sep: char, indexName: Option<string>): (r: seq<string>)
    ensures |r| == 6
  {
    [ "num_db2_format_defs 2",
      "",
      Join(["number_of_attributes", IntToString(columnCount + 1)], " "),
      "separator_char '" + [sep] + "'",
      "",
      Join(["0", "dummy", "nil", Quote(IndexText(indexName))], " ") ]
  }

  /** The assertion on a real scalar column: its minimum exists and is at
      least zero (a column with no value has a NaN minimum, which fails). */
  predicate MinimumOk(num: FloatParser, col: seq<Cell>) {
    && (exists i :: 0 <= i < |col| && col[i].Some?)
    && forall i :: 0 <= i < |col| && col[i].Some? ==> num(col[i].value).Some? && num(col[i].value).value >= 0.0
  }

  /** The words of the record for column `j` of the given declared type,
      or none for a merged column. */
  function RecordWords(j: nat, name: string, m: Meta, col: seq<Cell>): seq<string> {
    match m.kind
    case RealScalar => [IntToString(j + 1), "real", "scalar", Quote(name), "zero_point", "0.0", "rel_error", m.error]
    case RealLocation => [IntToString(j + 1), "real", "location", Quote(name), "error", m.error]
    case Discrete => [IntToString(j + 1), "discrete", "nominal", Quote(name), "range", IntToString(CountDistinct(col))]
    case Merged => []
  }

  /** Column `j`'s record, or `None` for a merged column; a real scalar
      column with a negative or missing minimum raises. */
  function Hd2Record(j: nat, name: string, m: Meta, col: seq<Cell>, num: FloatParser): (r: Result<Option<string>>)
    ensures r.Err? <==> m.kind == RealScalar && !MinimumOk(num, col)
    ensures r.Err? ==> r.error == MinimumBelowZero(name)
    ensures r.Ok? ==> (r.value.None? <==> m.kind == Merged)
    ensures r.Ok? && r.value.Some? ==> r.value.value == Join(RecordWords(j, name, m, col), " ")
  {
    match m.kind
    case Merged => Ok(None)
    case RealScalar =>
      if MinimumOk(num, col) then Ok(Some(Join(RecordWords(j, name, m, col), " ")))
      else Err(MinimumBelowZero(name))
    case _ => Ok(Some(Join(RecordWords(j, name, m, col), " ")))
  }

  /** Column `j` gets through the `.hd2` loop. */
  predicate Hd2Passes(t: Table, meta: MetaMap, num: FloatParser, j: nat)
    requires t.Rectangular() && j < |t.columns|
  {
    t.columns[j] in meta && (meta[t.columns[j]].kind == RealScalar ==> MinimumOk(num, t.Column(j)))
  }

  /** The first column from `j` on that stops the `.hd2` loop. */
  function FirstHd2Failure(t: Table, meta: MetaMap, num: FloatParser, j: nat): (r: Option<nat>)
    requires t.Rectangular() && j <= |t.columns|
    ensures r.None? <==> forall p :: j <= p < |t.columns| ==> Hd2Passes(t, meta, num, p)
    ensures r.Some? ==> j <= r.value < |t.columns| && !Hd2Passes(t, meta, num, r.value)
                        && forall q :: j <= q < r.value ==> Hd2Passes(t, meta, num, q)
    decreases |t.columns| - j
  {
    if j == |t.columns| then None
    else if !Hd2Passes(t, meta, num, j) then Some(j)
    else FirstHd2Failure(t, meta, num, j + 1)
  }

  predicate NotMerged(m: Meta) {
    m.kind != Merged
  }

  /** The records of the given columns, in order. */
  function Records(t: Table, meta: MetaMap, ps: seq<nat>): (r: seq<string>)
    requires t.Rectangular()
    requires forall m :: 0 <= m < |ps| ==> ps[m] < |t.columns| && t.columns[ps[m]] in meta
    ensures |r| == |ps|
    ensures forall m :: 0 <= m < |ps| ==>
              r[m] == Join(RecordWords(ps[m], t.columns[ps[m]], meta[t.columns[ps[m]]], t.Column(ps[m])), " ")
  {
    seq(|ps|, m requires 0 <= m < |ps| =>
      Join(RecordWords(ps[m], t.columns[ps[m]], meta[t.columns[ps[m]]], t.Column(ps[m])), " "))
  }

  /** The loop of `create_hd2_file` from column `j` on: each column's
      metadata is looked up and its record written in turn, until a column
      without metadata or a record that raises stops the loop. */
  function Hd2Loop(t: Table, meta: MetaMap, num: FloatParser, j: nat): (r: (seq<string>, Option<Error>))
    requires t.Rectangular() && j <= |t.columns|
    decreases |t.columns| - j
  {
    if j == |t.columns| then ([], None)
    else
      var name := t.columns[j];
      if name !in meta then ([], Some(MissingMetadata(name)))
      else
        match Hd2Record(j, name, meta[name], t.Column(j), num)
        case Err(e) => ([], Some(e))
        case Ok(rec) =>
          var rest := Hd2Loop(t, meta, num, j + 1);
          ((if rec.Some? then [rec.value] else []) + rest.0, rest.1)
  }

  /** The error of a column that stops the `.hd2` loop. */
  function Hd2Error(name: string, meta: MetaMap): Error {
    if name in meta then MinimumBelowZero(name) else MissingMetadata(name)
  }

  /** Column `j` gets through the loop exactly when it has metadata and its
      record does not raise. */
  lemma Hd2PassesIffRecordOk(t: Table, meta: MetaMap, num: FloatParser, j: nat)
    requires t.Rectangular() && j < |t.columns|
    ensures Hd2Passes(t, meta, num, j) <==>
            t.columns[j] in meta && Hd2Record(j, t.columns[j], meta[t.columns[j]], t.Column(j), num).Ok?
  {
  }

  /** The loop from `j` up to the column `k` that stops it (or the end)
      writes the records of the non-merged columns in `j..k-1`, in order,
      and raises the error of column `k`. */
  lemma {:induction false} Hd2LoopRecords(t: Table, meta: MetaMap, num: FloatParser, j: nat, k: nat)
    requires t.Rectangular() && j <= k <= |t.columns|
    requires FirstHd2Failure(t, meta, num, j) == if k == |t.columns| then None else Some(k)
    ensures Hd2Loop(t, meta, num, j).0 == Records(t, meta, Where(t.columns[..k], meta, NotMerged, j))
    ensures Hd2Loop(t, meta, num, j).1 == (if k == |t.columns| then None else Some(Hd2Error(t.columns[k], meta)))
    decreases k - j
  {
    if j == k {
      Hd2LoopStops(t, meta, num, k);
    } else {
      assert Hd2Passes(t, meta, num, j);
      Hd2LoopRecords(t, meta, num, j + 1, k);
      Hd2LoopCons(t, meta, num, j, k);
    }
  }

  /** One column of the induction: the records from `j` are column `j`'s,
      if any, before those from `j + 1`. */
  lemma Hd2LoopCons(t: Table, meta: MetaMap, num: FloatParser, j: nat, k: nat)
    requires t.Rectangular() && j < k <= |t.columns| && Hd2Passes(t, meta, num, j)
    requires Hd2Loop(t, meta, num, j + 1).0 == Records(t, meta, Where(t.columns[..k], meta, NotMerged, j + 1))
    ensures Hd2Loop(t, meta, num, j).0 == Records(t, meta, Where(t.columns[..k], meta, NotMerged, j))
    ensures Hd2Loop(t, meta, num, j).1 == Hd2Loop(t, meta, num, j + 1).1
  {
    Hd2LoopStep(t, meta, num, j);
    var cols := t.columns[..k];
    var rest := Where(cols, meta, NotMerged, j + 1);
    assert cols[j] == t.columns[j];
    if NotMerged(meta[t.columns[j]]) {
      assert Where(cols, meta, NotMerged, j) == [j] + rest;
      RecordsCons(t, meta, j, rest);
    } else {
      assert Where(cols, meta, NotMerged, j) == rest;
    }
  }

  /** The loop started at the column that stops it, or at the end, writes
      nothing more. */
  lemma Hd2LoopStops(t: Table, meta: MetaMap, num: FloatParser, k: nat)
    requires t.Rectangular() && k <= |t.columns|
    requires k < |t.columns| ==> !Hd2Passes(t, meta, num, k)
    ensures Hd2Loop(t, meta, num, k) == ([], if k == |t.columns| then None else Some(Hd2Error(t.columns[k], meta)))
  {
    if k < |t.columns| {
      Hd2PassesIffRecordOk(t, meta, num, k);
    }
  }

  /** A column that passes adds its record, if it is not merged, and the
      loop goes on with the next column. */
  lemma Hd2LoopStep(t: Table, meta: MetaMap, num: FloatParser, j: nat)
    requires t.Rectangular() && j < |t.columns| && Hd2Passes(t, meta, num, j)
    ensures var name := t.columns[j];
            && Hd2Loop(t, meta, num, j).1 == Hd2Loop(t, meta, num, j + 1).1
            && Hd2Loop(t, meta, num, j).0 ==
               (if NotMerged(meta[name]) then [Join(RecordWords(j, name, meta[name], t.Column(j)), " ")] else [])
               + Hd2Loop(t, meta, num, j + 1).0
  {
    var name := t.columns[j];
    if NotMerged(meta[name]) {
      PassingRecord(j, name, meta[name], t.Column(j), num);
    }
  }

  lemma RecordsCons(t: Table, meta: MetaMap, p: nat, ps: seq<nat>)
    requires t.Rectangular() && p < |t.columns| && t.columns[p] in meta
    requires forall m :: 0 <= m < |ps| ==> ps[m] < |t.columns| && t.columns[ps[m]] in meta
    ensures Records(t, meta, [p] + ps) ==
            [Join(RecordWords(p, t.columns[p], meta[t.columns[p]], t.Column(p)), " ")] + Records(t, meta, ps)
  {
    var l := Records(t, meta, [p] + ps);
    var r := [Join(RecordWords(p, t.columns[p], meta[t.columns[p]], t.Column(p)), " ")] + Records(t, meta, ps);
    forall m | 0 <= m < |l| ensures l[m] == r[m] {
      if m > 0 {
        assert ([p] + ps)[m] == ps[m - 1];
      }
    }
    assert l == r;
  }

  /** `create_hd2_file`: the header, then one record per non-merged column
      numbered by its position plus one. A column without metadata, or a
      real scalar column whose minimum is not at least zero, stops the loop;
      the records of the columns before it stay in the file. */
  function Hd2File(t: Table, meta: MetaMap, sep: char, num: FloatParser): (r: (seq<string>, Option<Error>))
    requires t.Rectangular()
    ensures |r.0| >= 6 && r.0[..6] == Hd2Header(|t.columns|, sep, t.indexName)
    ensures r.1.None? <==> forall j :: 0 <= j < |t.columns| ==> Hd2Passes(t, meta, num, j)
    ensures r.1.None? ==> |r.0| == 6 + |Where(t.columns, meta, NotMerged, 0)|
    ensures r.1.Some? ==> exists j :: 0 <= j < |t.columns| && !Hd2Passes(t, meta, num, j)
                                   && (forall q :: 0 <= q < j ==> Hd2Passes(t, meta, num, q))
                                   && r.1.value == Hd2Error(t.columns[j], meta)
                                   && |r.0| == 6 + |Where(t.columns[..j], meta, NotMerged, 0)|
  {
    var header := Hd2Header(|t.columns|, sep, t.indexName);
    var loop := Hd2Loop(t, meta, num, 0);
    var r := (header + loop.0, loop.1);
    assert r.0[..6] == header;
    match FirstHd2Failure(t, meta, num, 0)
    case None =>
      Hd2LoopRecords(t, meta, num, 0, |t.columns|);
      assert t.columns[..|t.columns|] == t.columns;
      r
    case Some(j) =>
      Hd2LoopRecords(t, meta, num, 0, j);
      r
  }

  /** The third header line counts the columns plus the index. */
  lemma Hd2AttributeCount(t: Table, meta: MetaMap, sep: char, num: FloatParser)
    requires t.Rectangular()
    ensures var w := Words(Hd2File(t, meta, sep, num).0[2]);
            |w| == 2 && ParseInt(w[1]) == Some(|t.columns| + 1)
  {
    Hd2AttributeLine(t, meta, sep, num);
    AttributeLineParses(|t.columns| + 1);
  }

  lemma Hd2AttributeLine(t: Table, meta: MetaMap, sep: char, num: FloatParser)
    requires t.Rectangular()
    ensures Hd2File(t, meta, sep, num).0[2] == Join(["number_of_attributes", IntToString(|t.columns| + 1)], " ")
  {
    var lines := Hd2File(t, meta, sep, num).0;
    assert lines[2] == lines[..6][2];
  }

  lemma AttributeLineParses(n: nat)
    ensures var w := Words(Join(["number_of_attributes", IntToString(n)], " "));
            |w| == 2 && ParseInt(w[1]) == Some(n)
  {
    WordIsWord("number_of_attributes");
    NatToStringIsWord(n);
    WordsUnwords(["number_of_attributes", IntToString(n)]);
    IntToStringRoundTrip(n);
  }

  lemma WordIsWord(w: string)
    requires |w| > 0 && forall i :: 0 <= i < |w| ==> 'a' <= w[i] <= 'z' || w[i] == '_'
    ensures IsWord(w)
  {
  }

  /** A record reads back as its words when the name and the error text
      are single words: the attribute number first, the quoted name fourth. */
  lemma RecordParses(line: string, j: nat, name: string, m: Meta, col: seq<Cell>)
    requires line == Join(RecordWords(j, name, m, col), " ")
    requires IsWord(name) && IsWord(m.error) && m.kind != Merged
    ensures var w := Words(line);
            |w| >= 4 && ParseInt(w[0]) == Some(j + 1) && w[3] == Quote(name)
  {
    var ws := RecordWords(j, name, m, col);
    RecordWordsAreWords(j, name, m, col);
    WordsUnwords(ws);
    IntToStringRoundTrip(j + 1);
  }

  lemma RecordWordsAreWords(j: nat, name: string, m: Meta, col: seq<Cell>)
    requires IsWord(name) && IsWord(m.error) && m.kind != Merged
    ensures var ws := RecordWords(j, name, m, col);
            && |ws| >= 4 && ws[0] == IntToString(j + 1) && ws[3] == Quote(name)
            && forall i :: 0 <= i < |ws| ==> IsWord(ws[i])
  {
    NatToStringIsWord(j + 1);
    NatToStringIsWord(CountDistinct(col));
    QuoteIsWord(name);
    RecordLiteralWords();
  }

  lemma RecordLiteralWords()
    ensures IsWord("real") && IsWord("scalar") && IsWord("location") && IsWord("discrete")
    ensures IsWord("nominal") && IsWord("zero_point") && IsWord("0.0") && IsWord("rel_error")
    ensures IsWord("error") && IsWord("range")
  {
  }

  /** The attribute numbering the `.hd2` file promises: the `m`-th record
      names the `m`-th non-merged column and carries its position plus one,
      so the numbers rise with the column order. Column names and error
      texts are single words, as cleaned names are. */
  lemma Hd2Numbering(t: Table, meta: MetaMap, sep: char, num: FloatParser, m: nat)
    requires t.Rectangular()
    requires Hd2File(t, meta, sep, num).1.None?
    requires forall j :: 0 <= j < |t.columns| ==>
               IsWord(t.columns[j]) && t.columns[j] in meta && IsWord(meta[t.columns[j]].error)
    requires m < |Where(t.columns, meta, NotMerged, 0)|
    ensures var p := Where(t.columns, meta, NotMerged, 0)[m];
            var w := Words(Hd2File(t, meta, sep, num).0[6 + m]);
            |w| >= 4 && ParseInt(w[0]) == Some(p + 1) && w[3] == Quote(t.columns[p])
            && meta[t.columns[p]].kind != Merged
  {
    var p := Where(t.columns, meta, NotMerged, 0)[m];
    Hd2FileLine(t, meta, sep, num, m);
    var name := t.columns[p];
    assert IsWord(name) && IsWord(meta[name].error);
    RecordParses(Hd2File(t, meta, sep, num).0[6 + m], p, name, meta[name], t.Column(p));
  }

  /** Line `6 + m` of a complete `.hd2` file is the record `Hd2Record`
      writes for the `m`-th column that is not merged. */
  lemma Hd2FileLine(t: Table, meta: MetaMap, sep: char, num: FloatParser, m: nat)
    requires t.Rectangular()
    requires Hd2File(t, meta, sep, num).1.None?
    requires m < |Where(t.columns, meta, NotMerged, 0)|
    ensures var ps := Where(t.columns, meta, NotMerged, 0);
            var p := ps[m];
            && p < |t.columns| && t.columns[p] in meta && meta[t.columns[p]].kind != Merged
            && 6 + m < |Hd2File(t, meta, sep, num).0|
            && Hd2File(t, meta, sep, num).0[6 + m] ==
               Join(RecordWords(p, t.columns[p], meta[t.columns[p]], t.Column(p)), " ")
            && Hd2Record(p, t.columns[p], meta[t.columns[p]], t.Column(p), num) ==
               Ok(Some(Hd2File(t, meta, sep, num).0[6 + m]))
  {
    var ps := Where(t.columns, meta, NotMerged, 0);
    var header := Hd2Header(|t.columns|, sep, t.indexName);
    var recs := Records(t, meta, ps);
    CompleteHd2File(t, meta, sep, num);
    assert (header + recs)[6 + m] == recs[m];
    var p := ps[m];
    assert Hd2Passes(t, meta, num, p);
    PassingRecord(p, t.columns[p], meta[t.columns[p]], t.Column(p), num);
  }

  /** A complete `.hd2` file is the header followed by the records of the
      non-merged columns. */
  lemma CompleteHd2File(t: Table, meta: MetaMap, sep: char, num: FloatParser)
    requires t.Rectangular()
    requires Hd2File(t, meta, sep, num).1.None?
    ensures Hd2File(t, meta, sep, num).0 ==
            Hd2Header(|t.columns|, sep, t.indexName) + Records(t, meta, Where(t.columns, meta, NotMerged, 0))
  {
    assert FirstHd2Failure(t, meta, num, 0).None?;
    Hd2LoopRecords(t, meta, num, 0, |t.columns|);
    assert t.columns[..|t.columns|] == t.columns;
  }

  /** A column that passes the loop and is not merged gets its record. */
  lemma PassingRecord(j: nat, name: string, m: Meta, col: seq<Cell>, num: FloatParser)
    requires m.kind != Merged && (m.kind == RealScalar ==> MinimumOk(num, col))
    ensures Hd2Record(j, name, m, col, num) == Ok(Some(Join(RecordWords(j, name, m, col), " ")))
  {
  }

  lemma NatToStringIsWord(n: nat)
    ensures IsWord(IntToString(n))
  {
    var s := NatToString(n);
    assert forall i :: 0 <= i < |s| ==> IsDigit(s[i]);
  }

  lemma QuoteIsWord(name: string)
    requires IsWord(name)
    ensures IsWord(Quote(name))
  {
    var q := Quote(name);
    assert forall i :: 1 <= i < |q| - 1 ==> q[i] == name[i - 1];
  }

  // ---------------------------------------------------------------------
  // .model

  predicate IsNormal(m: Meta) {
    IsReal(m.kind) && !m.missing
  }

  predicate IsNormalMissing(m: Meta) {
    IsReal(m.kind) && m.missing
  }

  predicate IsMultinomial(m: Meta) {
    m.kind == Discrete
  }

  /** The three model groups, in the order the file lists them. */
  datatype Groups = Groups(normals: seq<nat>, missing: seq<nat>, multinomial: seq<nat>)

  function GroupsOf(cols: seq<string>, meta: MetaMap): Groups {
    Groups(Where(cols, meta, IsNormal, 0), Where(cols, meta, IsNormalMissing, 0), Where(cols, meta, IsMultinomial, 0))
  }

  function GroupLine(model: string, ps: seq<nat>): seq<string> {
    if |ps| == 0 then [] else [Join([model] + Numbers(ps), " ")]
  }

  /** `N` in `model_index 0 N`: the identifier model and one per group in
      use. */
  function ModelCount(g: Groups): nat {
    1 + (if |g.normals| > 0 then 1 else 0) + (if |g.missing| > 0 then 1 else 0)
      + (if |g.multinomial| > 0 then 1 else 0)
  }

  /** `create_model_file`: real columns go to `single_normal_cn` or, when
      they hold a missing value, to `single_normal_cm`; discrete columns to
      `single_multinomial`; merged columns nowhere. Only groups in use get a
      line. A column without metadata raises before anything is written. */
  function ModelFile(cols: seq<string>, meta: MetaMap): (r: Result<seq<string>>)
    ensures r.Err? <==> exists j :: 0 <= j < |cols| && cols[j] !in meta
    ensures r.Err? ==> exists j :: 0 <= j < |cols| && cols[j] !in meta && r.error == MissingMetadata(cols[j])
                                   && forall q :: 0 <= q < j ==> cols[q] in meta
    ensures r.Ok? ==> |r.value| >= 2 && r.value[1] == "ignore 0"
  {
    match FirstUnknown(cols, meta, 0)
    case Some(j) => Err(MissingMetadata(cols[j]))
    case None =>
      var g := GroupsOf(cols, meta);
      Ok([Join(["model_index", "0", IntToString(ModelCount(g))], " "), "ignore 0"]
         + GroupLine("single_normal_cn", g.normals)
         + GroupLine("single_normal_cm", g.missing)
         + GroupLine("single_multinomial", g.multinomial))
  }

  /** Every column lands in exactly one group by its declared type and
      missing flag, except merged columns, which land in none; each group
      lists positions in rising order. */
  lemma ModelPartition(cols: seq<string>, meta: MetaMap, j: nat)
    requires j < |cols| && cols[j] in meta
    ensures var g := GroupsOf(cols, meta);
            var m := meta[cols[j]];
            && (j in g.normals <==> IsReal(m.kind) && !m.missing)
            && (j in g.missing <==> IsReal(m.kind) && m.missing)
            && (j in g.multinomial <==> m.kind == Discrete)
            && (m.kind == Merged ==> j !in g.normals && j !in g.missing && j !in g.multinomial)
  {
    var g := GroupsOf(cols, meta);
    if j in g.normals {
      var k :| 0 <= k < |g.normals| && g.normals[k] == j;
    }
    if j in g.missing {
      var k :| 0 <= k < |g.missing| && g.missing[k] == j;
    }
    if j in g.multinomial {
      var k :| 0 <= k < |g.multinomial| && g.multinomial[k] == j;
    }
  }

  /** The first line announces exactly as many models as the file then
      declares: the `ignore` model plus one line per group in use. */
  lemma ModelCountMatchesLines(cols: seq<string>, meta: MetaMap)
    requires ModelFile(cols, meta).Ok?
    ensures var lines := ModelFile(cols, meta).value;
            var w := Words(lines[0]);
            |w| == 3 && ParseInt(w[2]) == Some(|lines| - 1)
  {
    var g := GroupsOf(cols, meta);
    var header := ["model_index", "0", IntToString(ModelCount(g))];
    var lines := ModelFile(cols, meta).value;
    assert lines[0] == Join(header, " ") && |lines| - 1 == ModelCount(g) by {
      ModelFileLines(cols, meta);
    }
    assert Words(lines[0]) == header by {
      NatToStringIsWord(ModelCount(g));
      assert IsWord(header[0]) && IsWord(header[1]);
      WordsUnwords(header);
    }
    IntToStringRoundTrip(ModelCount(g));
  }

  /** The `.model` file: its header, the `ignore` line and one line per
      group in use. */
  lemma ModelFileLines(cols: seq<string>, meta: MetaMap)
    requires ModelFile(cols, meta).Ok?
    ensures var g := GroupsOf(cols, meta);
            var lines := ModelFile(cols, meta).value;
            lines[0] == Join(["model_index", "0", IntToString(ModelCount(g))], " ")
            && |lines| == 1 + ModelCount(g)
  {
    var g := GroupsOf(cols, meta);
    assert FirstUnknown(cols, meta, 0).None?;
    assert |GroupLine("single_normal_cn", g.normals)| == (if |g.normals| > 0 then 1 else 0);
    assert |GroupLine("single_normal_cm", g.missing)| == (if |g.missing| > 0 then 1 else 0);
    assert |GroupLine("single_multinomial", g.multinomial)| == (if |g.multinomial| > 0 then 1 else 0);
  }

  /** A group line reads back as its model name and the 1-based numbers of
      its columns. */
  lemma GroupLineRoundTrip(model: string, ps: seq<nat>)
    requires IsWord(model) && |ps| > 0
    ensures var w := Words(GroupLine(model, ps)[0]);
            |w| == |ps| + 1 && w[0] == model
            && forall m :: 0 <= m < |ps| ==> ParseInt(w[m + 1]) == Some(ps[m] + 1)
  {
    var ws := [model] + Numbers(ps);
    forall i | 0 <= i < |ws| ensures IsWord(ws[i]) {
      if i > 0 {
        NatToStringIsWord(ps[i - 1] + 1);
      }
    }
    WordsUnwords(ws);
    forall m | 0 <= m < |ps| ensures ParseInt(ws[m + 1]) == Some(ps[m] + 1) {
      IntToStringRoundTrip(ps[m] + 1);
    }
  }

  /** A `.model` line, split into words, that declares `model` and lists
      attribute number `n`. */
  predicate InGroupLine(w: seq<string>, model: string, n: int) {
    |w| > 0 && w[0] == model && exists k :: 1 <= k < |w| && ParseInt(w[k]) == Some(n)
  }

  /** Some line of `lines` lists attribute number `n` under `model`. */
  predicate ListedUnder(lines: seq<string>, model: string, n: int) {
    exists i :: 0 <= i < |lines| && InGroupLine(Words(lines[i]), model, n)
  }

  /** Read back, the `.model` file lists a column under exactly the model
      its declared type and missing flag select: `single_normal_cn` for a
      real column without missing values, `single_normal_cm` for one with,
      `single_multinomial` for a discrete one; a merged column under none. */
  lemma ModelFileGroups(cols: seq<string>, meta: MetaMap, j: nat)
    requires ModelFile(cols, meta).Ok? && j < |cols|
    ensures cols[j] in meta
    ensures var lines := ModelFile(cols, meta).value;
            var m := meta[cols[j]];
            && (ListedUnder(lines, "single_normal_cn", j + 1) <==> IsNormal(m))
            && (ListedUnder(lines, "single_normal_cm", j + 1) <==> IsNormalMissing(m))
            && (ListedUnder(lines, "single_multinomial", j + 1) <==> IsMultinomial(m))
  {
    assert FirstUnknown(cols, meta, 0).None?;
    ModelPartition(cols, meta, j);
    ModelFileListed(cols, meta, "single_normal_cn", j);
    ModelFileListed(cols, meta, "single_normal_cm", j);
    ModelFileListed(cols, meta, "single_multinomial", j);
  }

  /** Which group lines list column `j` under a given model name other than
      the two words that open the first two lines. */
  lemma ModelFileListed(cols: seq<string>, meta: MetaMap, model: string, j: nat)
    requires ModelFile(cols, meta).Ok?
    requires model != "model_index" && model != "ignore"
    ensures var g := GroupsOf(cols, meta);
            ListedUnder(ModelFile(cols, meta).value, model, j + 1)
            <==> (model == "single_normal_cn" && j in g.normals)
                 || (model == "single_normal_cm" && j in g.missing)
                 || (model == "single_multinomial" && j in g.multinomial)
  {
    var g := GroupsOf(cols, meta);
    var head := [Join(["model_index", "0", IntToString(ModelCount(g))], " "), "ignore 0"];
    var a := GroupLine("single_normal_cn", g.normals);
    var b := GroupLine("single_normal_cm", g.missing);
    var c := GroupLine("single_multinomial", g.multinomial);
    ModelFileParts(cols, meta);
    HeadNotListed(ModelCount(g), model, j + 1);
    ListedUnderConcat(head + a + b, c, model, j + 1);
    ListedUnderConcat(head + a, b, model, j + 1);
    ListedUnderConcat(head, a, model, j + 1);
    ModelNamesAreWords();
    GroupLineLists("single_normal_cn", g.normals, model, j);
    GroupLineLists("single_normal_cm", g.missing, model, j);
    GroupLineLists("single_multinomial", g.multinomial, model, j);
  }

  lemma ModelNamesAreWords()
    ensures IsWord("single_normal_cn") && IsWord("single_normal_cm") && IsWord("single_multinomial")
  {
    WordIsWord("single_normal_cn");
    WordIsWord("single_normal_cm");
    WordIsWord("single_multinomial");
  }

  /** The `.model` file as its two opening lines and the three group lines. */
  lemma ModelFileParts(cols: seq<string>, meta: MetaMap)
    requires ModelFile(cols, meta).Ok?
    ensures var g := GroupsOf(cols, meta);
            ModelFile(cols, meta).value
            == [Join(["model_index", "0", IntToString(ModelCount(g))], " "), "ignore 0"]
               + GroupLine("single_normal_cn", g.normals)
               + GroupLine("single_normal_cm", g.missing)
               + GroupLine("single_multinomial", g.multinomial)
  {
    assert FirstUnknown(cols, meta, 0).None?;
  }

  /** The `model_index` line and the `ignore` line list nothing under any
      other model name. */
  lemma HeadNotListed(count: nat, model: string, n: int)
    requires model != "model_index" && model != "ignore"
    ensures !ListedUnder([Join(["model_index", "0", IntToString(count)], " "), "ignore 0"], model, n)
  {
    var head := [Join(["model_index", "0", IntToString(count)], " "), "ignore 0"];
    HeaderOpens(count);
    IgnoreOpens();
    assert Words(head[0])[0] == "model_index" && Words(head[1])[0] == "ignore";
  }

  lemma HeaderOpens(count: nat)
    ensures var w := Words(Join(["model_index", "0", IntToString(count)], " "));
            |w| > 0 && w[0] == "model_index"
  {
    NatToStringIsWord(count);
    WordIsWord("model_index");
    assert IsWord("0");
    WordsUnwords(["model_index", "0", IntToString(count)]);
  }

  lemma IgnoreOpens()
    ensures Words("ignore 0") == ["ignore", "0"]
  {
    WordIsWord("ignore");
    assert IsWord("0");
    WordsUnwords(["ignore", "0"]);
    assert Join(["ignore", "0"], " ") == "ignore 0";
  }

  /** A group line lists column `j` under `model` exactly when it declares
      that model and holds the column. */
  lemma GroupLineLists(x: string, ps: seq<nat>, model: string, j: nat)
    requires IsWord(x)
    ensures ListedUnder(GroupLine(x, ps), model, j + 1) <==> model == x && j in ps
  {
    if |ps| > 0 {
      GroupLineRoundTrip(x, ps);
      var line := GroupLine(x, ps)[0];
      WordsListNumbers(Words(line), x, ps, model, j);
      assert GroupLine(x, ps) == [line];
    }
  }

  /** The words of a group line, as `GroupLineRoundTrip` reads them back,
      list exactly the numbers of its columns. */
  lemma WordsListNumbers(w: seq<string>, x: string, ps: seq<nat>, model: string, j: nat)
    requires |w| == |ps| + 1 && w[0] == x
    requires forall m :: 0 <= m < |ps| ==> ParseInt(w[m + 1]) == Some(ps[m] + 1)
    ensures InGroupLine(w, model, j + 1) <==> model == x && j in ps
  {
    if InGroupLine(w, model, j + 1) {
      var k :| 1 <= k < |w| && ParseInt(w[k]) == Some(j + 1);
      assert ParseInt(w[(k - 1) + 1]) == Some(ps[k - 1] + 1);
    }
    if model == x && j in ps {
      var m :| 0 <= m < |ps| && ps[m] == j;
      assert ParseInt(w[m + 1]) == Some(j + 1);
    }
  }

  lemma ListedUnderConcat(a: seq<string>, b: seq<string>, model: string, n: int)
    ensures ListedUnder(a + b, model, n) <==> ListedUnder(a, model, n) || ListedUnder(b, model, n)
  {
    if ListedUnder(a + b, model, n) {
      var i :| 0 <= i < |a + b| && InGroupLine(Words((a + b)[i]), model, n);
      if i >= |a| {
        assert (a + b)[i] == b[i - |a|];
      } else {
        assert (a + b)[i] == a[i];
      }
    }
    if ListedUnder(a, model, n) {
      var i :| 0 <= i < |a| && InGroupLine(Words(a[i]), model, n);
      assert (a + b)[i] == a[i];
    }
    if ListedUnder(b, model, n) {
      var i :| 0 <= i < |b| && InGroupLine(Words(b[i]), model, n);
      assert (a + b)[|a| + i] == b[i];
    }
  }

  // ---------------------------------------------------------------------
  // .s-params and .r-params

  /** `key = value`, the AutoClass C parameter-file syntax. */
  function Setting(key: string, value: string): string {
    key + " = " + value
  }

  /** A parameter line read back: the stripped text on either side of the
      first `=`. */
  function ReadSetting(line: string): Option<(string, string)> {
    if '=' in line then
      var i := FirstEquals(line);
      Some((Strip(line[..i]), Strip(line[i + 1..])))
    else None
  }

  function FirstEquals(s: string): (i: nat)
    requires '=' in s
    ensures i < |s| && s[i] == '=' && '=' !in s[..i]
  {
    if s[0] == '=' then 0
    else
      var i := 1 + FirstEquals(s[1..]);
      assert s[..i] == [s[0]] + s[1..][..i - 1];
      i
  }

  /** A value as the reader sees it: no `=`, and stripped of surrounding
      whitespace. */
  predicate PlainValue(v: string) {
    '=' !in v && (|v| > 0 ==> !IsSpace(v[0]) && !IsSpace(v[|v| - 1]))
  }

  lemma FirstEqualsAt(a: string, b: string)
    requires '=' !in a
    ensures '=' in a + "=" + b && FirstEquals(a + "=" + b) == |a|
  {
    var s := a + "=" + b;
    assert s[|a|] == '=';
    assert s[..|a|] == a;
  }

  lemma ReadSettingAt(a: string, b: string)
    requires '=' !in a
    ensures ReadSetting(a + "=" + b) == Some((Strip(a), Strip(b)))
  {
    var line := a + "=" + b;
    FirstEqualsAt(a, b);
    assert line[..|a|] == a;
    assert line[|a| + 1..] == b;
  }

  /** A setting reads back as its key and its value, whatever trailing
      whitespace the writer put after the value. */
  lemma SettingRoundTrip(key: string, value: string, trail: string)
    requires IsWord(key) && '=' !in key && PlainValue(value) && AllSpace(trail)
    ensures ReadSetting(Setting(key, value + trail)) == Some((key, value))
  {
    ReadSettingOf(key, value + trail);
    StripKey(key);
    StripValue(value, trail);
  }

  lemma ReadSettingOf(key: string, value: string)
    requires '=' !in key
    ensures ReadSetting(Setting(key, value)) == Some((Strip(key + " "), Strip(" " + value)))
  {
    assert Setting(key, value) == (key + " ") + "=" + (" " + value);
    ReadSettingAt(key + " ", " " + value);
  }

  lemma StripKey(key: string)
    requires IsWord(key)
    ensures Strip(key + " ") == key
  {
    StripExact("", key, " ");
    assert "" + key + " " == key + " ";
  }

  lemma StripValue(value: string, trail: string)
    requires PlainValue(value) && AllSpace(trail)
    ensures Strip(" " + (value + trail)) == value
  {
    assert AllSpace(" ");
    StripExact(" ", value, trail);
  }

  /** The `create_sparams_file` arguments. */
  datatype SearchParams = SearchParams(maxDuration: int, maxTries: int, maxCycles: int, startJ: seq<int>,
                                       reproducible: bool)

  function DefaultSearch(): SearchParams {
    SearchParams(3600, 200, 1000, [2, 3, 5, 7, 10, 15, 25, 35, 45, 55, 65, 75, 85, 95, 105], false)
  }

  function IntStrings(xs: seq<int>): (r: seq<string>)
    ensures |r| == |xs|
    ensures forall i :: 0 <= i < |xs| ==> r[i] == IntToString(xs[i])
  {
    seq(|xs|, i requires 0 <= i < |xs| => IntToString(xs[i]))
  }

  /** `create_sparams_file`: the fixed switches (written with a trailing
      blank), the three limits, the comma-separated start list, and for a
      reproducible run the three extra settings, the report period being
      twice the duration. */
  function SparamsFile(p: SearchParams): (r: seq<string>)
    ensures |r| == if p.reproducible then 10 else 7
  {
    [ Setting("screen_output_p", "false "),
      Setting("break_on_warnings_p", "false "),
      Setting("force_new_search_p", "true "),
      Setting("max_duration", IntToString(p.maxDuration)),
      Setting("max_n_tries", IntToString(p.maxTries)),
      Setting("max_cycles", IntToString(p.maxCycles)),
      Setting("start_j_list", Join(IntStrings(p.startJ), ", ")) ]
    + (if p.reproducible then
         [ Setting("randomize_random_p", "false"),
           Setting("start_fn_type", "\"block\""),
           Setting("min_report_period", IntToString(p.maxDuration * 2)) ]
       else [])
  }

  /** A comma-separated list of integers read back. */
  function ReadIntList(s: string): Option<seq<int>> {
    if Strip(s) == "" then Some([]) else ReadInts(SplitOn(s, ','))
  }

  function ReadInts(fields: seq<string>): (r: Option<seq<int>>)
    ensures r.Some? ==> |r.value| == |fields|
  {
    if |fields| == 0 then Some([])
    else match (ParseInt(Strip(fields[0])), ReadInts(fields[1..]))
      case (Some(x), Some(rest)) => Some([x] + rest)
      case _ => None
  }

  /** The integer value of a setting, when its text is an integer. */
  function IntValue(line: string): Option<int> {
    match ReadSetting(line)
    case Some((_, v)) => ParseInt(v)
    case None => None
  }

  /** Reading the search parameters back from an `.s-params` file: the
      limits and start list from their lines, reproducibility from the
      presence of the extra lines. */
  function ReadSparams(lines: seq<string>): Option<SearchParams> {
    if |lines| < 7 then None
    else
      var d, n, c, js := IntValue(lines[3]), IntValue(lines[4]), IntValue(lines[5]), ReadSetting(lines[6]);
      if d.None? || n.None? || c.None? || js.None? then None
      else match ReadIntList(js.value.1)
        case Some(starts) => Some(SearchParams(d.value, n.value, c.value, starts, |lines| > 7))
        case None => None
  }

  lemma IntToStringPlain(i: int)
    ensures PlainValue(IntToString(i)) && IsWord(IntToString(i))
  {
    if i < 0 {
      NatToStringIsWord(-i);
      var s := IntToString(i);
      assert forall k :: 1 <= k < |s| ==> s[k] == NatToString(-i)[k - 1];
    } else {
      NatToStringIsWord(i);
    }
  }

  /** The start list reads back from its comma-separated text. */
  lemma IntListRoundTrip(xs: seq<int>)
    ensures ReadIntList(Join(IntStrings(xs), ", ")) == Some(xs)
  {
    if |xs| > 0 {
      var strs := IntStrings(xs);
      var fields := Padded(strs, " ");
      CommaSpaceJoin(strs);
      PaddedFieldsParse(xs);
      SplitJoin(fields, ',');
      ReadIntsAll(fields, xs);
      JoinedListNotBlank(xs);
    }
  }

  lemma CommaSpaceJoin(strs: seq<string>)
    ensures Join(strs, ", ") == Join(Padded(strs, " "), [','])
  {
    JoinPadded(strs, ',', " ");
    assert [','] + " " == ", ";
  }

  lemma PaddedFieldsParse(xs: seq<int>)
    ensures var fields := Padded(IntStrings(xs), " ");
            forall i :: 0 <= i < |fields| ==> ',' !in fields[i] && ParseInt(Strip(fields[i])) == Some(xs[i])
  {
    var strs := IntStrings(xs);
    var fields := Padded(strs, " ");
    forall i | 0 <= i < |fields| ensures ',' !in fields[i] && ParseInt(Strip(fields[i])) == Some(xs[i]) {
      if i == 0 {
        FieldParses(xs[0], "");
        assert "" + strs[0] == fields[0];
      } else {
        FieldParses(xs[i], " ");
      }
    }
  }

  lemma FieldParses(x: int, pad: string)
    requires pad == "" || pad == " "
    ensures ',' !in pad + IntToString(x) && ParseInt(Strip(pad + IntToString(x))) == Some(x)
  {
    NoCommaInField(x, pad);
    StripPad(x, pad);
    IntToStringRoundTrip(x);
  }

  lemma NoCommaInField(x: int, pad: string)
    requires pad == "" || pad == " "
    ensures ',' !in pad + IntToString(x)
  {
    var w := IntToString(x);
    IntToStringChars(x);
    assert forall k :: 0 <= k < |pad + w| ==> (pad + w)[k] == ' ' || (pad + w)[k] == '-' || IsDigit((pad + w)[k]);
  }

  lemma StripPad(x: int, pad: string)
    requires pad == "" || pad == " "
    ensures Strip(pad + IntToString(x)) == IntToString(x)
  {
    var w := IntToString(x);
    IntToStringPlain(x);
    assert AllSpace(pad) && AllSpace("");
    assert w + "" == w;
    StripExact(pad, w, "");
  }

  lemma IntToStringChars(x: int)
    ensures forall k :: 0 <= k < |IntToString(x)| ==> IntToString(x)[k] == '-' || IsDigit(IntToString(x)[k])
  {
    if x < 0 {
      var d := NatToString(-x);
      assert forall k :: 1 <= k < |IntToString(x)| ==> IntToString(x)[k] == d[k - 1];
    }
  }

  lemma JoinedListNotBlank(xs: seq<int>)
    requires |xs| > 0
    ensures Strip(Join(IntStrings(xs), ", ")) != ""
  {
    var s := Join(IntStrings(xs), ", ");
    StartListPlain(xs);
    IntToStringPlain(xs[0]);
    JoinPlainHead(IntStrings(xs));
    var lo :| IsStripOf(s, lo, Strip(s));
  }

  lemma {:induction false} ReadIntsAll(fields: seq<string>, xs: seq<int>)
    requires |fields| == |xs|
    requires forall i :: 0 <= i < |fields| ==> ParseInt(Strip(fields[i])) == Some(xs[i])
    ensures ReadInts(fields) == Some(xs)
    decreases |fields|
  {
    if |fields| > 0 {
      assert ParseInt(Strip(fields[0])) == Some(xs[0]);
      forall i | 0 <= i < |fields[1..]| ensures ParseInt(Strip(fields[1..][i])) == Some(xs[1..][i]) {
        assert fields[1..][i] == fields[i + 1] && xs[1..][i] == xs[i + 1];
      }
      ReadIntsAll(fields[1..], xs[1..]);
      assert [xs[0]] + xs[1..] == xs;
    }
  }

  lemma JoinPlainHead(strs: seq<string>)
    requires forall i :: 0 <= i < |strs| ==> PlainValue(strs[i]) && |strs[i]| > 0
    requires |strs| > 0
    ensures |Join(strs, ", ")| > 0 && Join(strs, ", ")[0] == strs[0][0]
  {
    JoinPlain(strs);
  }

  /** Reading back a written `.s-params` file gives the arguments back. */
  lemma SparamsRoundTrip(p: SearchParams)
    ensures ReadSparams(SparamsFile(p)) == Some(p)
  {
    var lines := SparamsFile(p);
    KeyWords();
    IntSettingReads("max_duration", p.maxDuration);
    IntSettingReads("max_n_tries", p.maxTries);
    IntSettingReads("max_cycles", p.maxCycles);
    ListSettingReads("start_j_list", p.startJ);
    SparamsLines(p);
  }

  lemma SparamsLines(p: SearchParams)
    ensures var lines := SparamsFile(p);
            && lines[3] == Setting("max_duration", IntToString(p.maxDuration))
            && lines[4] == Setting("max_n_tries", IntToString(p.maxTries))
            && lines[5] == Setting("max_cycles", IntToString(p.maxCycles))
            && lines[6] == Setting("start_j_list", Join(IntStrings(p.startJ), ", "))
  {
  }

  lemma IntSettingReads(key: string, i: int)
    requires IsWord(key) && '=' !in key
    ensures IntValue(Setting(key, IntToString(i))) == Some(i)
  {
    IntToStringPlain(i);
    SettingRoundTrip(key, IntToString(i), "");
    assert IntToString(i) + "" == IntToString(i);
    IntToStringRoundTrip(i);
  }

  lemma ListSettingReads(key: string, xs: seq<int>)
    requires IsWord(key) && '=' !in key
    ensures var v := ReadSetting(Setting(key, Join(IntStrings(xs), ", ")));
            v.Some? && ReadIntList(v.value.1) == Some(xs)
  {
    var js := Join(IntStrings(xs), ", ");
    StartListPlain(xs);
    SettingRoundTrip(key, js, "");
    assert js + "" == js;
    IntListRoundTrip(xs);
  }

  lemma KeyWords()
    ensures IsWord("max_duration") && '=' !in "max_duration"
    ensures IsWord("max_n_tries") && '=' !in "max_n_tries"
    ensures IsWord("max_cycles") && '=' !in "max_cycles"
    ensures IsWord("start_j_list") && '=' !in "start_j_list"
  {
  }

  /** The written start list is a plain value: digits, signs, commas and
      inner blanks only. */
  lemma StartListPlain(xs: seq<int>)
    ensures PlainValue(Join(IntStrings(xs), ", "))
  {
    var strs := IntStrings(xs);
    forall i | 0 <= i < |strs| ensures PlainValue(strs[i]) && |strs[i]| > 0 {
      IntToStringPlain(xs[i]);
    }
    JoinPlain(strs);
  }

  lemma {:induction false} JoinPlain(strs: seq<string>)
    requires forall i :: 0 <= i < |strs| ==> PlainValue(strs[i]) && |strs[i]| > 0
    ensures PlainValue(Join(strs, ", "))
    ensures |strs| > 0 ==> |Join(strs, ", ")| > 0 && Join(strs, ", ")[0] == strs[0][0]
    ensures |strs| > 0 ==> Join(strs, ", ")[|Join(strs, ", ")| - 1] == strs[|strs| - 1][|strs[|strs| - 1]| - 1]
    decreases |strs|
  {
    if |strs| > 1 {
      JoinPlain(strs[1..]);
      var rest := Join(strs[1..], ", ");
      var s := strs[0] + ", " + rest;
      assert Join(strs, ", ") == s;
      assert s[|s| - 1] == rest[|rest| - 1];
      assert strs[1..][|strs[1..]| - 1] == strs[|strs| - 1];
      assert '=' !in s;
    }
  }

  /** `create_rparams_file`: the cross-reference report covers attributes
      0 to 2, in data mode, with commented headers. */
  function RparamsFile(): (r: seq<string>)
    ensures |r| == 3
  {
    [ Setting("xref_class_report_att_list", "0, 1, 2 "),
      Setting("report_mode", "\"data\" "),
      Setting("comment_data_headers_p", "true ") ]
  }

  /** The report parameters read back: the cross-reference list names the
      identifier attribute and the first two columns. */
  lemma RparamsReadBack()
    ensures ReadSetting(RparamsFile()[0]) == Some(("xref_class_report_att_list", "0, 1, 2"))
    ensures ReadIntList("0, 1, 2") == Some([0, 1, 2])
  {
    XrefSetting();
    XrefList();
  }

  lemma XrefSetting()
    ensures ReadSetting(Setting("xref_class_report_att_list", "0, 1, 2 ")) == Some(("xref_class_report_att_list", "0, 1, 2"))
  {
    XrefKey();
    XrefValue();
    SettingRoundTrip("xref_class_report_att_list", "0, 1, 2", " ");
  }

  lemma XrefKey()
    ensures IsWord("xref_class_report_att_list") && '=' !in "xref_class_report_att_list"
  {
    WordIsWord("xref_class_report_att_list");
  }

  lemma XrefValue()
    ensures PlainValue("0, 1, 2") && AllSpace(" ") && "0, 1, 2" + " " == "0, 1, 2 "
  {
    XrefListText();
    StartListPlain([0, 1, 2]);
  }

  lemma XrefListText()
    ensures Join(IntStrings([0, 1, 2]), ", ") == "0, 1, 2"
  {
    assert IntToString(0) == "0" && IntToString(1) == "1" && IntToString(2) == "2";
    assert IntStrings([0, 1, 2]) == ["0", "1", "2"];
  }

  lemma XrefList()
    ensures ReadIntList("0, 1, 2") == Some([0, 1, 2])
  {
    XrefListText();
    IntListRoundTrip([0, 1, 2]);
  }
}

=== FILE: inputsession.dfy ===
/** The `Input` object: the datasets added so far, the full dataset, and
    the files its stages write. Every public stage runs through the error
    controller; a stage that raises leaves the object as it stood at the
    raise, files already written included. */
module InputSession {
  import opened Basics
  import opened Tables
  import opened Controller
  import opened Datasets
  import opened Merge
  import opened Descriptors

  /** A file as pandas hands it over: rectangular, labels unique. */
  type ParsedFile = f: LoadedFile | WellParsed(f) witness LoadedFile("", None, [], [], [])

  /** The constructor arguments kept on the object: the root of the file
      names, the `.db2` separator and missing-value marker. */
  datatype Settings = Settings(root: string, separator: char, missing: string)

  datatype InputState = InputState(settings: Settings, datasets: seq<Dataset>, full: Full, files: map<string, seq<string>>)

  /** What every stage keeps true: each added dataset is covered, and the
      full dataset's frame, once it exists, is rectangular. */
  predicate Good(s: InputState) {
    && (forall k :: 0 <= k < |s.datasets| ==> Covered(s.datasets[k]))
    && AllRead(s.datasets)
    && (s.full.table.Some? ==> s.full.table.value.Rectangular())
  }

  type Session = s: InputState | Good(s) witness InputState(Settings("autoclass", '\t', "?"), [], EmptyFull(), map[])

  /** `Input.__init__`. */
  function NewInput(root: string, separator: char, missing: string, tolerateError: bool): (r: (Controller, Session))
    ensures r.0 == Controller(tolerateError, false)
    ensures r.1.datasets == [] && r.1.full == EmptyFull() && r.1.files == map[]
  {
    (Controller(tolerateError, false), InputState(Settings(root, separator, missing), [], EmptyFull(), map[]))
  }

  // ---------------------------------------------------------------------
  // add_input_data

  /** The dataset `add_input_data` would append, or the exception that
      stops it: the type check of the constructor, the header check and
      stamping of `read_datafile`, the renames, the castability check. */
  function LoadDataset(file: string, typeName: string, error: string, separator: char,
                       f: ParsedFile, num: FloatParser): (r: Result<Dataset>)
    ensures NewDataset(file, typeName, error, separator).Err? ==> r == Err(InvalidDataType(file))
    ensures r.Ok? ==> Covered(r.value) && r.value.source == NewDataset(file, typeName, error, separator).value
    ensures r.Ok? ==> r.value.table.columns == Cleaned(f.columns) && r.value.table.ids == f.ids
    ensures r.Ok? ==> forall c :: c in r.value.meta ==> r.value.meta[c] == Stamp(r.value.source)
    ensures r.Ok? ==> CheckDataType(r.value, num).None?
    ensures r.Ok? ==> f.indexName.Some? && r.value.table.indexName == Some(CleanName(f.indexName.value))
    ensures (f.indexName.None? && NewDataset(file, typeName, error, separator).Ok?
             && Distinct(HeaderFields(f.firstLine, separator))) ==> r == Err(NoIndexName)
  {
    match NewDataset(file, typeName, error, separator)
    case Err(e) => Err(e)
    case Ok(src) =>
      match ReadDatafile(src, f)
      case Err(e) => Err(e)
      case Ok(d) =>
        match CleanColumnNames(d)
        case Err(e) => Err(e)
        case Ok(c) =>
          assert d.table.columns == f.columns;
          CleanColumnNamesCovered(d);
          ValuesStamped(c.meta, d.meta, Stamp(src));
          match CheckDataType(c, num)
          case Some(e) => Err(e)
          case None => Ok(c)
  }

  lemma ValuesStamped(m: MetaMap, before: MetaMap, v: Meta)
    requires m.Values <= before.Values && forall c :: c in before ==> before[c] == v
    ensures forall c :: c in m ==> m[c] == v
  {
    forall c | c in m ensures m[c] == v {
      assert m[c] in m.Values;
      var b :| b in before && before[b] == m[c];
    }
  }

  /** `add_input_data`: append the dataset, or raise leaving the list
      unchanged. */
  function AddInputData(s: Session, file: string, typeName: string, error: string, separator: char,
                        f: ParsedFile, num: FloatParser): (r: Outcome<Session, ()>)
    ensures r.Raised? ==> r.state == s
    ensures f.indexName.None? ==> r.Raised?
    ensures r.Done? <==> LoadDataset(file, typeName, error, separator, f, num).Ok?
    ensures r.Done? ==> r.state == s.(datasets := s.datasets + [LoadDataset(file, typeName, error, separator, f, num).value])
  {
    match LoadDataset(file, typeName, error, separator, f, num)
    case Err(e) => Raised(s, e)
    case Ok(d) =>
      assert f.indexName.Some?;
      AppendKeepsGood(s, d);
      var t: Session := s.(datasets := s.datasets + [d]);
      Done(t, ())
  }

  /** Appending a covered dataset keeps the object's invariant. */
  lemma AppendKeepsGood(s: Session, d: Dataset)
    requires Covered(d)
    ensures Good(s.(datasets := s.datasets + [d]))
  {
    var t0 := s.(datasets := s.datasets + [d]);
    forall k | 0 <= k < |t0.datasets| ensures Covered(t0.datasets[k]) && t0.datasets[k].table.Rectangular() {
      if k < |s.datasets| {
        assert t0.datasets[k] == s.datasets[k];
      }
    }
  }

  // ---------------------------------------------------------------------
  // prepare_input_data

  /** `prepare_input_data` on the object: the full dataset becomes the
      prepared one, even when the preparation raises part-way. */
  function Prepare(s: Session): (r: Outcome<Session, ()>)
    ensures r.state == s.(full := PrepareInputData(s.full, s.datasets).0)
    ensures r.Raised? <==> PrepareInputData(s.full, s.datasets).1.Some?
  {
    var p := PrepareInputData(s.full, s.datasets);
    var g := Gather(s.full, s.datasets);
    assert p.0.table.Some? ==> p.0.table.value.Rectangular() by {
      if g.1.Some? && |s.datasets| == 1 {
        assert false;
      }
    }
    var t: Session := s.(full := p.0);
    match p.1
    case Some(e) => Raised(t, e)
    case None => Done(t, ())
  }

  // ---------------------------------------------------------------------
  // the file writers

  function Db2Name(s: InputState): string { s.settings.root + ".db2" }
  function TsvName(s: InputState): string { s.settings.root + ".tsv" }
  function Hd2Name(s: InputState): string { s.settings.root + ".hd2" }
  function ModelName(s: InputState): string { s.settings.root + ".model" }
  function SparamsName(s: InputState): string { s.settings.root + ".s-params" }
  function RparamsName(s: InputState): string { s.settings.root + ".r-params" }

  /** `create_db2_file`: the `.db2` rows with the object's separator and
      marker, and the `.tsv` copy with a header. Without a frame it
      raises and writes nothing. */
  function CreateDb2File(s: Session): (r: Outcome<Session, ()>)
    ensures s.full.table.None? ==> r == Raised(s, UnsetAttribute("df"))
    ensures s.full.table.Some? ==> r.Done? && r.state.datasets == s.datasets && r.state.full == s.full
    ensures s.full.table.Some? ==>
              r.state.files == s.files[Db2Name(s) := Db2Lines(s.full.table.value, s.settings.separator, s.settings.missing)]
                                      [TsvName(s) := TsvLines(s.full.table.value)]
  {
    match s.full.table
    case None => Raised(s, UnsetAttribute("df"))
    case Some(t) =>
      var u: Session := s.(files := s.files[Db2Name(s) := Db2Lines(t, s.settings.separator, s.settings.missing)]
                                             [TsvName(s) := TsvLines(t)]);
      Done(u, ())
  }

  /** `create_hd2_file`: the file is opened before the per-column loop, so
      a column that fails leaves the lines written before it. */
  function CreateHd2File(s: Session, num: FloatParser): (r: Outcome<Session, ()>)
    ensures s.full.table.None? ==> r == Raised(s, UnsetAttribute("df"))
    ensures s.full.table.Some? ==>
              var h := Hd2File(s.full.table.value, s.full.meta, s.settings.separator, num);
              && r.state == s.(files := s.files[Hd2Name(s) := h.0])
              && (r.Raised? <==> h.1.Some?)
  {
    match s.full.table
    case None => Raised(s, UnsetAttribute("df"))
    case Some(t) =>
      var h := Hd2File(t, s.full.meta, s.settings.separator, num);
      var u: Session := s.(files := s.files[Hd2Name(s) := h.0]);
      if h.1.Some? then Raised(u, h.1.value) else Done(u, ())
  }

  /** `create_model_file`: the groups are built before the file is opened,
      so a column without metadata leaves no file. */
  function CreateModelFile(s: Session): (r: Outcome<Session, ()>)
    ensures s.full.table.None? ==> r == Raised(s, UnsetAttribute("df"))
    ensures s.full.table.Some? ==>
              var m := ModelFile(s.full.table.value.columns, s.full.meta);
              && (m.Err? ==> r == Raised(s, m.error))
              && (m.Ok? ==> r.Done? && r.state == s.(files := s.files[ModelName(s) := m.value]))
  {
    match s.full.table
    case None => Raised(s, UnsetAttribute("df"))
    case Some(t) =>
      match ModelFile(t.columns, s.full.meta)
      case Err(e) => Raised(s, e)
      case Ok(lines) =>
        var u: Session := s.(files := s.files[ModelName(s) := lines]);
        Done(u, ())
  }

  /** `create_sparams_file` never raises. */
  function CreateSparamsFile(s: Session, p: SearchParams): (r: Outcome<Session, ()>)
    ensures r.Done? && r.state == s.(files := s.files[SparamsName(s) := SparamsFile(p)])
  {
    var u: Session := s.(files := s.files[SparamsName(s) := SparamsFile(p)]);
    Done(u, ())
  }

  /** `create_rparams_file` never raises. */
  function CreateRparamsFile(s: Session): (r: Outcome<Session, ()>)
    ensures r.Done? && r.state == s.(files := s.files[RparamsName(s) := RparamsFile()])
  {
    var u: Session := s.(files := s.files[RparamsName(s) := RparamsFile()]);
    Done(u, ())
  }

  // ---------------------------------------------------------------------
  // the pipeline

  /** The usual sequence after the datasets are added: prepare, then the
      five descriptor files. */
  function Pipeline(num: FloatParser, p: SearchParams): seq<Session -> Outcome<Session, ()>> {
    [ s => Prepare(s),
      s => CreateDb2File(s),
      s => CreateHd2File(s, num),
      s => CreateModelFile(s),
      s => CreateSparamsFile(s, p),
      s => CreateRparamsFile(s) ]
  }

  /** In fail-fast mode, a preparation that raises means no descriptor
      file is written: the object keeps only the partial full dataset. */
  lemma FailedPreparationWritesNothing(c: Controller, s: Session, num: FloatParser, p: SearchParams)
    requires !c.tolerateError && !c.hadError
    requires Prepare(s).Raised?
    ensures RunAll(c, s, Pipeline(num, p)).1 == Prepare(s).state
    ensures RunAll(c, s, Pipeline(num, p)).1.files == s.files
    ensures RunAll(c, s, Pipeline(num, p)).0.hadError
  {
    var stages := Pipeline(num, p);
    FailFastStopsAtFirstError(c, s, stages);
    assert stages[0](s) == Prepare(s);
  }

  /** In tolerant mode the writers still run after a failed preparation; a
      new `Input` whose preparation fails has no frame, so the three
      writers that need one raise too and only the two parameter files
      are written. */
  lemma TolerantWritesParameters(s: Session, num: FloatParser, p: SearchParams)
    requires s.full == EmptyFull() && s.datasets == []
    ensures var r := RunAll(Controller(true, false), s, Pipeline(num, p));
            && r.0.hadError
            && r.1.files == s.files[SparamsName(s) := SparamsFile(p)][RparamsName(s) := RparamsFile()]
  {
    var stages := Pipeline(num, p);
    var c := Controller(true, false);
    TolerantRunsEvery(c, s, stages);
    var s1 := Prepare(s).state;
    assert s1 == s;
    assert stages[0](s) == Prepare(s) && Prepare(s).Raised?;
    var r1 := Invoke(c, s, stages[0]);
    ErrorIsSticky(r1.controller, r1.state, stages[1..]);
    assert stages[1..][1..][1..][1..] == stages[4..];
  }
}

=== FILE: merge.dfy ===
/** `Input.prepare_input_data`: the datasets' frames are concatenated side
    by side with an outer join on their row identifiers, their metadata maps
    are unioned with the later dataset winning, the final header is checked
    for duplicates and the missing-value flags are set. */
module Merge {
  import opened Basics
  import opened Tables
  import opened Datasets

  // ---------------------------------------------------------------------
  // flattening

  /** The lists one after the other. */
  function Flatten<T>(xss: seq<seq<T>>): (r: seq<T>)
    decreases |xss|
  {
    if |xss| == 0 then [] else xss[0] + Flatten(xss[1..])
  }

  /** Element `j` of list `k` sits in the flattened list right after the
      elements of the lists before it. */
  lemma {:induction false} FlattenAt<T>(xss: seq<seq<T>>, k: nat, j: nat)
    requires k < |xss| && j < |xss[k]|
    ensures |Flatten(xss[..k])| + j < |Flatten(xss)|
    ensures Flatten(xss)[|Flatten(xss[..k])| + j] == xss[k][j]
    decreases k
  {
    if k == 0 {
      assert xss[..0] == [];
    } else {
      FlattenAt(xss[1..], k - 1, j);
      assert xss[..k] == [xss[0]] + xss[1..][..k - 1];
      assert xss[..k][1..] == xss[1..][..k - 1];
    }
  }

  lemma {:induction false} FlattenAppend<T>(a: seq<seq<T>>, b: seq<seq<T>>)
    ensures Flatten(a + b) == Flatten(a) + Flatten(b)
    decreases |a|
  {
    if |a| == 0 {
      assert a + b == b;
    } else {
      assert (a + b)[1..] == a[1..] + b;
      FlattenAppend(a[1..], b);
    }
  }

  /** The flattened prefix up to list `l` covers the lists before `k` and
      all of list `k`, for `k < l`. */
  lemma PrefixCovers<T>(xss: seq<seq<T>>, k: nat, l: nat)
    requires k < l <= |xss|
    ensures |Flatten(xss[..k])| + |xss[k]| <= |Flatten(xss[..l])|
  {
    assert xss[..l] == xss[..k] + [xss[k]] + xss[k + 1..l];
    FlattenAppend(xss[..k] + [xss[k]], xss[k + 1..l]);
    FlattenAppend(xss[..k], [xss[k]]);
    assert Flatten([xss[k]]) == xss[k] + Flatten([xss[k]][1..]);
  }

  /** Lists of the same lengths flatten to lists of the same length. */
  lemma {:induction false} FlattenSameLength<T, U>(xss: seq<seq<T>>, yss: seq<seq<U>>)
    requires |xss| == |yss|
    requires forall k :: 0 <= k < |xss| ==> |xss[k]| == |yss[k]|
    ensures |Flatten(xss)| == |Flatten(yss)|
    decreases |xss|
  {
    if |xss| > 0 {
      FlattenSameLength(xss[1..], yss[1..]);
    }
  }

  /** Something is in the flattened list exactly when it is in one of the
      lists. */
  lemma {:induction false} FlattenElements<T>(xss: seq<seq<T>>, x: T)
    ensures x in Flatten(xss) <==> exists k :: 0 <= k < |xss| && x in xss[k]
    decreases |xss|
  {
    if |xss| > 0 {
      FlattenElements(xss[1..], x);
      if x in Flatten(xss[1..]) {
        var k :| 0 <= k < |xss[1..]| && x in xss[1..][k];
        assert x in xss[k + 1];
      }
      if exists k :: 0 <= k < |xss| && x in xss[k] {
        var k :| 0 <= k < |xss| && x in xss[k];
        if k > 0 {
          assert x in xss[1..][k - 1];
        }
      }
    }
  }

  // ---------------------------------------------------------------------
  // pd.concat(axis=1, join="outer")

  function ColumnLists(ts: seq<Table>): seq<seq<string>> {
    seq(|ts|, k requires 0 <= k < |ts| => ts[k].columns)
  }

  /** Where the columns of input `k` start in the concatenated header. */
  function Offset(ts: seq<Table>, k: nat): nat
    requires k <= |ts|
  {
    |Flatten(ColumnLists(ts)[..k])|
  }

  predicate AllRectangular(ts: seq<Table>) {
    forall k :: 0 <= k < |ts| ==> ts[k].Rectangular()
  }

  /** Every input has the first input's identifiers, in the same order. */
  predicate Aligned(ts: seq<Table>) {
    forall k :: 0 <= k < |ts| ==> ts[k].ids == ts[0].ids
  }

  /** The index name pandas keeps: the common one, or none when the inputs
      disagree. */
  function IndexName(ts: seq<Table>): (r: Option<string>)
    requires |ts| > 0
    ensures (forall k :: 0 <= k < |ts| ==> ts[k].indexName == ts[0].indexName) ==> r == ts[0].indexName
    ensures (exists k :: 0 <= k < |ts| && ts[k].indexName != ts[0].indexName) ==> r.None?
  {
    if forall k :: 0 <= k < |ts| ==> ts[k].indexName == ts[0].indexName then ts[0].indexName else None
  }

  /** Row `i` of every input, side by side. */
  function RowsAt(ts: seq<Table>, i: nat): seq<seq<Cell>>
    requires AllRectangular(ts) && Aligned(ts) && |ts| > 0 && i < |ts[0].ids|
  {
    seq(|ts|, k requires 0 <= k < |ts| => ts[k].rows[i])
  }

  function Nulls(n: nat): (r: seq<Cell>)
    ensures |r| == n && forall j :: 0 <= j < n ==> r[j].None?
  {
    seq(n, _ => None)
  }

  function FirstIndex(xs: seq<string>, x: string): (i: nat)
    requires x in xs
    ensures i < |xs| && xs[i] == x
    ensures forall j :: 0 <= j < i ==> xs[j] != x
  {
    if xs[0] == x then 0 else 1 + FirstIndex(xs[1..], x)
  }

  /** The row an outer join takes from one input for an identifier: the
      input's row for it, or all NaN when the input lacks it. */
  function Lookup(t: Table, x: string): (r: seq<Cell>)
    requires t.Rectangular()
    ensures |r| == |t.columns|
    ensures x !in t.ids ==> r == Nulls(|t.columns|)
    ensures x in t.ids ==> exists i :: 0 <= i < |t.ids| && t.ids[i] == x && r == t.rows[i]
  {
    if x in t.ids then t.rows[FirstIndex(t.ids, x)] else Nulls(|t.columns|)
  }

  function LookupAll(ts: seq<Table>, x: string): seq<seq<Cell>>
    requires AllRectangular(ts)
  {
    seq(|ts|, k requires 0 <= k < |ts| => Lookup(ts[k], x))
  }

  /** `xs` appended to `acc`, leaving out what is already there. */
  function AppendNew(acc: seq<string>, xs: seq<string>): (r: seq<string>)
    ensures |acc| <= |r| && r[..|acc|] == acc
    ensures Distinct(acc) ==> Distinct(r)
    ensures forall x :: x in r <==> x in acc || x in xs
    decreases |xs|
  {
    if |xs| == 0 then acc
    else if xs[0] in acc then AppendNew(acc, xs[1..])
    else
      var r := AppendNew(acc + [xs[0]], xs[1..]);
      assert (acc + [xs[0]])[..|acc|] == acc;
      assert r[..|acc|] == r[..|acc| + 1][..|acc|];
      r
  }

  /** The identifiers of all inputs, each once, in order of first
      appearance. */
  function UnionIds(ts: seq<Table>): (r: seq<string>)
    ensures Distinct(r)
    ensures forall x :: x in r <==> exists k :: 0 <= k < |ts| && x in ts[k].ids
    decreases |ts|
  {
    if |ts| == 0 then []
    else
      var front := ts[..|ts| - 1];
      var r := AppendNew(UnionIds(front), ts[|ts| - 1].ids);
      assert forall k :: 0 <= k < |front| ==> front[k] == ts[k];
      r
  }

  /** `pd.concat(tables, axis=1, join="outer")`. With no input pandas has
      nothing to concatenate. When every input carries the same identifiers
      in the same order the rows are put side by side; otherwise every index
      must be unique and the rows are the union of the identifiers, each
      input contributing its row for the identifier or NaN. */
  function Concat(ts: seq<Table>): (r: Result<Table>)
    requires AllRectangular(ts)
    ensures |ts| == 0 ==> r == Err(NothingToConcatenate)
    ensures r.Err? ==> r.error in {NothingToConcatenate, NonUniqueIndex}
    ensures (r == Err(NonUniqueIndex)) <==>
              (|ts| > 0 && !Aligned(ts) && exists k :: 0 <= k < |ts| && !Distinct(ts[k].ids))
    ensures r.Ok? ==> r.value.Rectangular()
    ensures r.Ok? ==> r.value.columns == Flatten(ColumnLists(ts))
    ensures r.Ok? ==> r.value.indexName == IndexName(ts)
    ensures r.Ok? && Aligned(ts) ==> r.value.ids == ts[0].ids
    ensures r.Ok? && Aligned(ts) ==>
              forall i :: 0 <= i < |r.value.ids| ==> r.value.rows[i] == Flatten(RowsAt(ts, i))
    ensures r.Ok? && !Aligned(ts) ==> Distinct(r.value.ids)
    ensures r.Ok? && !Aligned(ts) ==>
              forall x :: x in r.value.ids <==> exists k :: 0 <= k < |ts| && x in ts[k].ids
    ensures r.Ok? && !Aligned(ts) ==>
              forall i :: 0 <= i < |r.value.ids| ==> r.value.rows[i] == Flatten(LookupAll(ts, r.value.ids[i]))
  {
    if |ts| == 0 then Err(NothingToConcatenate)
    else
      var columns := Flatten(ColumnLists(ts));
      if Aligned(ts) then
        var ids := ts[0].ids;
        var rows := seq(|ids|, i requires 0 <= i < |ids| => Flatten(RowsAt(ts, i)));
        forall i | 0 <= i < |ids| ensures |rows[i]| == |columns| {
          FlattenSameLength(RowsAt(ts, i), ColumnLists(ts));
        }
        Ok(Table(IndexName(ts), columns, ids, rows))
      else if exists k :: 0 <= k < |ts| && !Distinct(ts[k].ids) then Err(NonUniqueIndex)
      else
        var ids := UnionIds(ts);
        var rows := seq(|ids|, i requires 0 <= i < |ids| => Flatten(LookupAll(ts, ids[i])));
        forall i | 0 <= i < |ids| ensures |rows[i]| == |columns| {
          FlattenSameLength(LookupAll(ts, ids[i]), ColumnLists(ts));
        }
        Ok(Table(IndexName(ts), columns, ids, rows))
  }

  /** The concatenated header is the inputs' headers in input order: column
      `j` of input `k` lands at `Offset(ts, k) + j`, and in every row that
      cell comes from input `k`'s row for the row's identifier -- NaN when
      input `k` lacks that identifier. */
  lemma ConcatColumnAt(ts: seq<Table>, k: nat, j: nat)
    requires AllRectangular(ts) && Concat(ts).Ok?
    requires k < |ts| && j < |ts[k].columns|
    ensures Offset(ts, k) + j < |Concat(ts).value.columns|
    ensures Concat(ts).value.columns[Offset(ts, k) + j] == ts[k].columns[j]
  {
    FlattenAt(ColumnLists(ts), k, j);
  }

  lemma ConcatCellProvenance(ts: seq<Table>, k: nat, j: nat, i: nat)
    requires AllRectangular(ts) && Concat(ts).Ok?
    requires k < |ts| && j < |ts[k].columns| && i < |Concat(ts).value.ids|
    ensures Offset(ts, k) + j < |Concat(ts).value.columns|
    ensures Aligned(ts) ==> Concat(ts).value.rows[i][Offset(ts, k) + j] == ts[k].rows[i][j]
    ensures !Aligned(ts) ==>
              Concat(ts).value.rows[i][Offset(ts, k) + j] == Lookup(ts[k], Concat(ts).value.ids[i])[j]
  {
    var r := Concat(ts).value;
    var cols := ColumnLists(ts);
    ConcatColumnAt(ts, k, j);
    if Aligned(ts) {
      var rowsAt := RowsAt(ts, i);
      FlattenSameLength(rowsAt[..k], cols[..k]);
      FlattenAt(rowsAt, k, j);
    } else {
      var looked := LookupAll(ts, r.ids[i]);
      FlattenSameLength(looked[..k], cols[..k]);
      FlattenAt(looked, k, j);
    }
  }

  /** The number of columns of all inputs together. */
  function TotalWidth(ts: seq<Table>): nat
    decreases |ts|
  {
    if |ts| == 0 then 0 else |ts[0].columns| + TotalWidth(ts[1..])
  }

  lemma {:induction false} FlattenColumnsWidth(ts: seq<Table>)
    ensures |Flatten(ColumnLists(ts))| == TotalWidth(ts)
    decreases |ts|
  {
    if |ts| > 0 {
      assert ColumnLists(ts)[1..] == ColumnLists(ts[1..]);
      FlattenColumnsWidth(ts[1..]);
    }
  }

  /** Inputs over the same identifiers always concatenate: one row per
      identifier, as many columns as the inputs have together. */
  lemma ConcatSameIds(ts: seq<Table>)
    requires AllRectangular(ts) && |ts| > 0 && Aligned(ts)
    ensures Concat(ts).Ok?
    ensures Concat(ts).value.ids == ts[0].ids
    ensures |Concat(ts).value.columns| == TotalWidth(ts)
  {
    FlattenColumnsWidth(ts);
  }

  // ---------------------------------------------------------------------
  // {**full.column_meta, **dataset.column_meta}

  /** The metadata maps merged left to right over `base`: a key the later
      map holds takes the later map's entry. */
  function MergeMeta(base: MetaMap, ms: seq<MetaMap>): (r: MetaMap)
    ensures forall c :: c in r <==> c in base || exists k :: 0 <= k < |ms| && c in ms[k]
    decreases |ms|
  {
    if |ms| == 0 then base
    else
      var front := ms[..|ms| - 1];
      assert forall k :: 0 <= k < |front| ==> front[k] == ms[k];
      MergeMeta(base, front) + ms[|ms| - 1]
  }

  /** The entry a key ends up with is the one from the last map holding
      it. */
  lemma {:induction false} LastWriteWins(base: MetaMap, ms: seq<MetaMap>, k: nat, c: string)
    requires k < |ms| && c in ms[k]
    requires forall l :: k < l < |ms| ==> c !in ms[l]
    ensures c in MergeMeta(base, ms) && MergeMeta(base, ms)[c] == ms[k][c]
    decreases |ms|
  {
    if k < |ms| - 1 {
      var front := ms[..|ms| - 1];
      LastWriteWins(base, front, k, c);
    }
  }

  /** A key no map holds keeps the base entry. */
  lemma {:induction false} MergeMetaKeepsBase(base: MetaMap, ms: seq<MetaMap>, c: string)
    requires c in base
    requires forall l :: 0 <= l < |ms| ==> c !in ms[l]
    ensures c in MergeMeta(base, ms) && MergeMeta(base, ms)[c] == base[c]
    decreases |ms|
  {
    if |ms| > 0 {
      MergeMetaKeepsBase(base, ms[..|ms| - 1], c);
    }
  }

  // ---------------------------------------------------------------------
  // prepare_input_data

  /** `Input.full_dataset`: a dataset whose frame may not exist yet. */
  datatype Full = Full(source: Source, table: Option<Table>, meta: MetaMap)

  /** The full dataset a new `Input` starts with: declared `merged`, no
      frame, no metadata. */
  function EmptyFull(): (f: Full)
    ensures f.table.None? && f.meta == map[] && f.source.kind == Merged
  {
    Full(Source("", Merged, "None", '\t'), None, map[])
  }

  function Frames(ds: seq<Dataset>): seq<Table> {
    seq(|ds|, k requires 0 <= k < |ds| => ds[k].table)
  }

  function Metas(ds: seq<Dataset>): seq<MetaMap> {
    seq(|ds|, k requires 0 <= k < |ds| => ds[k].meta)
  }

  predicate AllRead(ds: seq<Dataset>) {
    forall k :: 0 <= k < |ds| ==> ds[k].table.Rectangular()
  }

  /** The full dataset before the duplicate check: the only dataset itself,
      or the metadata union with the concatenated frame. When the
      concatenation raises, the metadata union has already been stored. */
  function Gather(full: Full, ds: seq<Dataset>): (r: (Full, Option<Error>))
    requires AllRead(ds)
    ensures |ds| == 1 ==> r == (Full(ds[0].source, Some(ds[0].table), ds[0].meta), None)
    ensures |ds| != 1 ==> r.0.source == full.source && r.0.meta == MergeMeta(full.meta, Metas(ds))
    ensures |ds| != 1 && Concat(Frames(ds)).Err? ==> r == (r.0, Some(Concat(Frames(ds)).error)) && r.0.table == full.table
    ensures |ds| != 1 && Concat(Frames(ds)).Ok? ==> r.1.None? && r.0.table == Some(Concat(Frames(ds)).value)
    ensures r.1.None? ==> r.0.table.Some? && r.0.table.value.Rectangular()
  {
    if |ds| == 1 then (Full(ds[0].source, Some(ds[0].table), ds[0].meta), None)
    else
      var meta := MergeMeta(full.meta, Metas(ds));
      match Concat(Frames(ds))
      case Err(e) => (full.(meta := meta), Some(e))
      case Ok(t) => (full.(table := Some(t), meta := meta), None)
  }

  /** `prepare_input_data`: gather, reject a header with a repeated name,
      then flag the columns holding NaN. The full dataset is returned as it
      stands when the stage ends or raises. */
  function PrepareInputData(full: Full, ds: seq<Dataset>): (r: (Full, Option<Error>))
    requires AllRead(ds)
    ensures |ds| == 0 ==> r == (full, Some(NothingToConcatenate))
    ensures Gather(full, ds).1.Some? ==> r == Gather(full, ds)
    ensures Gather(full, ds).1.None? ==> r.0.table == Gather(full, ds).0.table && r.0.source == Gather(full, ds).0.source
    ensures Gather(full, ds).1.None? && !Distinct(r.0.table.value.columns) ==>
              r == (Gather(full, ds).0, Some(DuplicateColumnName(r.0.table.value.columns)))
    ensures r.1.None? ==> r.0.table.Some? && Distinct(r.0.table.value.columns)
    ensures r.1.None? ==> r.0.meta.Keys == Gather(full, ds).0.meta.Keys
    ensures r.1.None? ==> forall c :: c in r.0.meta ==>
              (r.0.meta[c].missing <==> (Gather(full, ds).0.meta[c].missing ||
                 exists j :: 0 <= j < |r.0.table.value.columns| && r.0.table.value.columns[j] == c
                             && HasNull(r.0.table.value.Column(j))))
  {
    var g := Gather(full, ds);
    if g.1.Some? then g
    else
      var f := g.0;
      var t := f.table.value;
      match RaiseOnDuplicates(t.columns)
      case Some(e) => (f, Some(e))
      case None =>
        var s := SearchMissingValues(t, f.meta);
        (f.(meta := s.0), s.1)
  }

  /** With one dataset the full dataset is that dataset: its frame, its
      source, its metadata with the NaN columns flagged. A covered dataset
      with a repeat-free header gets through. */
  lemma SingleDatasetIsItself(full: Full, d: Dataset)
    requires Covered(d) && Distinct(d.table.columns)
    ensures PrepareInputData(full, [d]).1.None?
    ensures PrepareInputData(full, [d]).0.table == Some(d.table)
    ensures PrepareInputData(full, [d]).0.source == d.source
    ensures PrepareInputData(full, [d]).0.meta.Keys == d.meta.Keys
  {
    var t := d.table;
    forall j | 0 <= j < |t.columns| ensures t.columns[j] in d.meta {
      assert t.columns[j] in Elements(t.columns);
    }
  }

  /** The metadata invariant across the merge: starting from a new `Input`,
      merging covered datasets leaves metadata keys equal to the merged
      header's names, whether or not the concatenation succeeded. */
  lemma MergedMetaCoversHeader(ds: seq<Dataset>)
    requires |ds| >= 2
    requires forall k :: 0 <= k < |ds| ==> Covered(ds[k])
    ensures MergeMeta(EmptyFull().meta, Metas(ds)).Keys == Elements(Flatten(ColumnLists(Frames(ds))))
  {
    var m := MergeMeta(map[], Metas(ds));
    var cols := ColumnLists(Frames(ds));
    forall c ensures c in m <==> c in Flatten(cols) {
      FlattenElements(cols, c);
      if c in m {
        var k :| 0 <= k < |ds| && c in Metas(ds)[k];
        assert c in Elements(ds[k].table.columns);
        assert c in cols[k];
      }
      if c in Flatten(cols) {
        var k :| 0 <= k < |cols| && c in cols[k];
        assert c in Elements(ds[k].table.columns);
        assert c in Metas(ds)[k];
      }
    }
  }

  /** After a successful preparation from a new `Input` over covered
      datasets the full dataset is covered too. */
  lemma PreparedIsCovered(ds: seq<Dataset>)
    requires |ds| >= 1
    requires forall k :: 0 <= k < |ds| ==> Covered(ds[k])
    requires AllRead(ds) && PrepareInputData(EmptyFull(), ds).1.None?
    ensures PrepareInputData(EmptyFull(), ds).0.meta.Keys == Elements(PrepareInputData(EmptyFull(), ds).0.table.value.columns)
    ensures PrepareInputData(EmptyFull(), ds).0.table.value.Rectangular()
  {
    if |ds| >= 2 {
      MergedMetaCoversHeader(ds);
    }
  }

  /** A header made repeat-free per input can still repeat after the merge:
      two inputs sharing a column name make the preparation raise. */
  lemma SharedNameRaises(ds: seq<Dataset>, k: nat, l: nat, c: string)
    requires AllRead(ds) && k < l < |ds|
    requires c in ds[k].table.columns && c in ds[l].table.columns
    requires Concat(Frames(ds)).Ok?
    ensures PrepareInputData(EmptyFull(), ds).1.Some?
    ensures PrepareInputData(EmptyFull(), ds).1.value.DuplicateColumnName?
  {
    var ts := Frames(ds);
    var cols := ColumnLists(ts);
    var i :| 0 <= i < |ts[k].columns| && ts[k].columns[i] == c;
    var j :| 0 <= j < |ts[l].columns| && ts[l].columns[j] == c;
    ConcatColumnAt(ts, k, i);
    ConcatColumnAt(ts, l, j);
    PrefixCovers(cols, k, l);
    var header := Concat(ts).value.columns;
    assert header[Offset(ts, k) + i] == header[Offset(ts, l) + j];
    assert !Distinct(header);
  }
}

=== FILE: outputsession.dfy ===
/** The `Output` object: the counts and the matrix `extract_results`
    leaves, the table `aggregate_input_data` builds, and the files the
    writers produce. Every public stage runs through the error controller;
    a stage that raises leaves the object as it stood at the raise. */
module OutputSession {
  import opened Basics
  import opened Tables
  import opened Controller
  import opened Datasets
  import opened CaseData
  import opened Report

  /** `Output.df`: the table as read from the `.tsv` file, or joined with
      the matrix; the experiment names are the read table's columns. */
  datatype Frame = Raw(table: Table) | Joined(experiments: seq<string>, rows: seq<Row>)

  datatype OutputState = OutputState(caseNumber: Option<nat>, classNumber: Option<nat>, stats: Option<Stats>,
                                     df: Option<Frame>, files: map<string, seq<string>>)

  /** `Output.__init__`: nothing computed yet. */
  function NewOutput(tolerateError: bool): (r: (Controller, OutputState))
    ensures r.0 == Controller(tolerateError, false)
    ensures r.1.stats.None? && r.1.df.None? && r.1.files == map[]
  {
    (Controller(tolerateError, false), OutputState(None, None, None, None, map[]))
  }

  // ---------------------------------------------------------------------
  // extract_results

  /** `extract_results` on the object, reading the report's lines. */
  function Extract(s: OutputState, lines: seq<string>, num: FloatParser): (r: Outcome<OutputState, ()>)
    ensures var e := ExtractResults(s.stats, lines, num);
            && r.state == s.(caseNumber := Some(e.caseNumber), classNumber := Some(e.classNumber), stats := e.stats)
            && (r.Raised? <==> e.error.Some?)
    ensures r.Done? ==> r.state.caseNumber == Some(|RecordLines(lines)|) && r.state.stats.Some?
    ensures r.state.df == s.df && r.state.files == s.files
  {
    var e := ExtractResults(s.stats, lines, num);
    var t := s.(caseNumber := Some(e.caseNumber), classNumber := Some(e.classNumber), stats := e.stats);
    if e.error.Some? then Raised(t, e.error.value) else Done(t, ())
  }

  // ---------------------------------------------------------------------
  // aggregate_input_data

  /** `aggregate_input_data` with the `.tsv` table already read: the read
      table and its experiment names are stored first, so when the matrix
      is missing or its case count differs, the object keeps the bare
      table. */
  function AggregateInput(s: OutputState, data: Table): (r: Outcome<OutputState, ()>)
    ensures s.stats.None? ==> r == Raised(s.(df := Some(Raw(data))), UnsetAttribute("stats"))
    ensures s.stats.Some? && Aggregate(s.stats.value, data).Err? ==>
              r == Raised(s.(df := Some(Raw(data))), CaseCountMismatch(|s.stats.value.cases|, |data.rows|))
    ensures r.Done? <==> s.stats.Some? && |s.stats.value.cases| == |data.rows|
    ensures r.Done? ==> r.state == s.(df := Some(Joined(data.columns, Aggregate(s.stats.value, data).value)))
  {
    var t := s.(df := Some(Raw(data)));
    match s.stats
    case None => Raised(t, UnsetAttribute("stats"))
    case Some(st) =>
      match Aggregate(st, data)
      case Err(e) => Raised(t, e)
      case Ok(rows) => Done(s.(df := Some(Joined(data.columns, rows))), ())
  }

  /** A report whose records stay inside the initial frame, aggregated
      with a table of as many rows as it has records, gives every row the
      class of the record for its position. */
  lemma ExtractThenAggregate(s: OutputState, lines: seq<string>, num: FloatParser, data: Table)
    requires s.stats.None?
    requires ExtractResults(None, lines, num).error.None?
    requires InFrame(FullLog(RecordLines(lines), num), |RecordLines(lines)|, |HeadClasses(RecordLines(lines))|)
    requires |data.rows| == |RecordLines(lines)|
    ensures Extract(s, lines, num).Done?
    ensures AggregateInput(Extract(s, lines, num).state, data).Done?
  {
    DenseShape(lines, num);
  }

  // ---------------------------------------------------------------------
  // write_cdt

  function CdtName(withProba: bool): string {
    if withProba then "clust_withprobs.cdt" else "clust.cdt"
  }

  /** A row whose identifier and experiment cells are all numbers. */
  predicate NumericRow(num: FloatParser, row: Row) {
    num(row.id).Some? && Castable(num, row.values)
  }

  /** `read_table` gives the index and every experiment column a numeric
      dtype exactly when each row is numeric; the helper and matrix columns
      are numeric anyway. */
  predicate NumericFrame(num: FloatParser, rows: seq<Row>) {
    forall i :: 0 <= i < |rows| ==> NumericRow(num, rows[i])
  }

  /** The gid lambda fails: on an all-numeric frame `apply(axis=1)` hands
      it float64 rows, and `{:04d}` rejects the float row number. */
  predicate GidFails(num: FloatParser, rows: seq<Row>) {
    |rows| > 0 && NumericFrame(num, rows)
  }

  /** `write_cdt`: the gids are built and the table sorted in place before
      the file is opened; without a class count the file stops after its
      first two lines (or is left empty when the header needs the count).
      A table without the matrix columns, or one whose gids cannot be
      formatted, raises before anything is sorted or written. */
  function WriteCdt(s: OutputState, withProba: bool, fmt: real -> string, num: FloatParser): (r: Outcome<OutputState, ()>)
    ensures s.df.None? ==> r == Raised(s, UnsetAttribute("df"))
    ensures s.df.Some? && s.df.value.Raw? ==> r == Raised(s, MissingColumn("main-class"))
    ensures s.df.Some? && s.df.value.Joined? && GidFails(num, s.df.value.rows) ==>
              r == Raised(s, FloatFormattedAsInteger)
    ensures s.df.Some? && s.df.value.Joined? && !GidFails(num, s.df.value.rows) ==>
              var es := SortRows(s.df.value.rows);
              && r.state.df == Some(Joined(s.df.value.experiments, Rows(es)))
              && (r.Done? <==> s.classNumber.Some?)
              && (r.Done? ==> r.state.files == s.files[CdtName(withProba) :=
                                CdtLines(es, s.df.value.experiments, s.classNumber.value, withProba, fmt)])
    ensures r.state.stats == s.stats && r.state.classNumber == s.classNumber
  {
    match s.df
    case None => Raised(s, UnsetAttribute("df"))
    case Some(Raw(_)) => Raised(s, MissingColumn("main-class"))
    case Some(Joined(exps, rows)) =>
      if GidFails(num, rows) then Raised(s, FloatFormattedAsInteger)
      else
        var es := SortRows(rows);
        var t := s.(df := Some(Joined(exps, Rows(es))));
        match s.classNumber
        case None =>
          var partial := if withProba then [] else [CdtHeader(exps, 0, false), Eweight(exps, 0, false)];
          Raised(t.(files := s.files[CdtName(withProba) := partial]), UnsetAttribute("class_number"))
        case Some(k) =>
          Done(t.(files := s.files[CdtName(withProba) := CdtLines(es, exps, k, withProba, fmt)]), ())
  }

  /** Sorting moves rows without changing them, so whether the gids can be
      formatted does not depend on the order. */
  lemma NumericFrameSorted(num: FloatParser, rows: seq<Row>)
    ensures NumericFrame(num, Rows(SortRows(rows))) <==> NumericFrame(num, rows)
  {
    var es := SortRows(rows);
    var ns := Number(rows);
    assert forall e :: e in es <==> e in ns by {
      forall e ensures e in es <==> e in ns {
        assert e in es <==> e in multiset(es);
        assert e in ns <==> e in multiset(ns);
      }
    }
    if NumericFrame(num, rows) {
      forall i | 0 <= i < |es| ensures NumericRow(num, Rows(es)[i]) {
        assert es[i] in ns;
      }
    }
    if NumericFrame(num, Rows(es)) {
      forall i | 0 <= i < |rows| ensures NumericRow(num, rows[i]) {
        assert ns[i] in es;
        var j :| 0 <= j < |es| && es[j] == ns[i];
        assert Rows(es)[j] == rows[i];
      }
    }
  }

  /** A second `write_cdt` finds the table sorted: it keeps the order and
      numbers the gids by position in the sorted table. */
  lemma WriteCdtTwice(s: OutputState, withProba: bool, fmt: real -> string, num: FloatParser)
    requires s.df.Some? && s.df.value.Joined? && s.classNumber.Some?
    requires !GidFails(num, s.df.value.rows)
    ensures var once := WriteCdt(s, withProba, fmt, num).state;
            var twice := WriteCdt(once, withProba, fmt, num).state;
            && twice.df == once.df
            && twice.files[CdtName(withProba)] ==
               CdtLines(Number(once.df.value.rows), s.df.value.experiments, s.classNumber.value, withProba, fmt)
  {
    var exps := s.df.value.experiments;
    var rows := Rows(SortRows(s.df.value.rows));
    SecondSortIsIdentity(s.df.value.rows);
    NumericFrameSorted(num, s.df.value.rows);
    assert Rows(Number(rows)) == rows;
    var once := WriteCdt(s, withProba, fmt, num).state;
    assert once.df == Some(Joined(exps, rows));
    assert !GidFails(num, rows);
    assert WriteCdt(once, withProba, fmt, num).state.df == Some(Joined(exps, Rows(SortRows(rows))));
  }

  // ---------------------------------------------------------------------
  // write_cluster_stats

  const StatName := "clust_stat.tsv"

  /** `write_cluster_stats`: the class count is taken before the file is
      opened, so a table without the matrix columns leaves no file. */
  function WriteClusterStats(s: OutputState, mean: Summary, std: Summary): (r: Outcome<OutputState, ()>)
    ensures s.df.None? ==> r == Raised(s, UnsetAttribute("df"))
    ensures s.df.Some? && s.df.value.Raw? ==> r == Raised(s, MissingColumn("main-class"))
    ensures s.df.Some? && s.df.value.Joined? ==>
              && r.Done?
              && r.state == s.(files := s.files[StatName := ClusterStatsLines(s.df.value.rows, s.df.value.experiments, mean, std)])
              && |r.state.files[StatName]| == 1 + 2 * ClassMax(s.df.value.rows)
  {
    match s.df
    case None => Raised(s, UnsetAttribute("df"))
    case Some(Raw(_)) => Raised(s, MissingColumn("main-class"))
    case Some(Joined(exps, rows)) =>
      Done(s.(files := s.files[StatName := ClusterStatsLines(rows, exps, mean, std)]), ())
  }

  // ---------------------------------------------------------------------
  // the pipeline

  /** The usual sequence: extract, aggregate, both `.cdt` files, the
      statistics. */
  function Pipeline(lines: seq<string>, num: FloatParser, data: Table, fmt: real -> string,
                    mean: Summary, std: Summary): seq<OutputState -> Outcome<OutputState, ()>> {
    [ s => Extract(s, lines, num),
      s => AggregateInput(s, data),
      s => WriteCdt(s, false, fmt, num),
      s => WriteCdt(s, true, fmt, num),
      s => WriteClusterStats(s, mean, std) ]
  }

  /** In fail-fast mode, a report that does not parse means no result file
      is written. */
  lemma FailedExtractionWritesNothing(c: Controller, s: OutputState, lines: seq<string>, num: FloatParser,
                                      data: Table, fmt: real -> string, mean: Summary, std: Summary)
    requires !c.tolerateError && !c.hadError
    requires ExtractResults(s.stats, lines, num).error.Some?
    ensures RunAll(c, s, Pipeline(lines, num, data, fmt, mean, std)).1.files == s.files
    ensures RunAll(c, s, Pipeline(lines, num, data, fmt, mean, std)).0.hadError
  {
    var stages := Pipeline(lines, num, data, fmt, mean, std);
    FailFastStopsAtFirstError(c, s, stages);
    assert stages[0](s) == Extract(s, lines, num);
  }

  /** In tolerant mode the writers still run after a failed extraction on
      a new `Output`; with no matrix the aggregation keeps the bare table,
      so both `.cdt` writers and the statistics writer raise and no file is
      written. */
  lemma TolerantWithoutMatrix(lines: seq<string>, num: FloatParser, data: Table, fmt: real -> string,
                              mean: Summary, std: Summary)
    requires FirstPass(RecordLines(lines)).error.Some?
    ensures var r := RunAll(Controller(true, false), NewOutput(true).1, Pipeline(lines, num, data, fmt, mean, std));
            r.0.hadError && r.1.files == map[] && r.1.df == Some(Raw(data))
  {
    var s := NewOutput(true).1;
    var c := Controller(true, false);
    var stages := Pipeline(lines, num, data, fmt, mean, std);
    TolerantRunsEvery(c, s, stages);
    assert stages[0](s) == Extract(s, lines, num);
    var s1 := Extract(s, lines, num).state;
    assert s1.stats.None?;
    var r1 := Invoke(c, s, stages[0]);
    ErrorIsSticky(r1.controller, r1.state, stages[1..]);
    assert stages[1..][1..][1..][1..] == stages[4..];
  }
}

=== FILE: report.dfy ===
/** The result files `Output` writes from the joined table: the `.cdt`
    visualisation file (`write_cdt`) and the per-class statistics file
    (`write_cluster_stats`). The joined table is `aggregate_input_data`'s
    positional join of the input data with the case-data matrix. */
module Report {
  import opened Basics
  import opened Text
  import opened Tables
  import opened CaseData

  /** One row of the joined table: its identifier, its data cells in
      experiment order, and the matrix columns (`main-class`, `main-prob`,
      and the `prob-class-k` cells that are set). */
  datatype Row = Row(id: string, values: seq<Cell>, mainClass: Option<int>, mainProb: Option<real>, probs: map<int, real>)

  function Lookup<K, V>(m: map<K, V>, k: K): Option<V> {
    if k in m then Some(m[k]) else None
  }

  /** The class columns of one matrix row. */
  function ProbRow(s: Stats, c: int): (r: map<int, real>)
    ensures forall k :: k in r <==> (c, k) in s.prob
    ensures forall k :: k in r ==> r[k] == s.prob[(c, k)]
  {
    map k | k in (set key | key in s.prob && key.0 == c :: key.1) :: s.prob[(c, k)]
  }

  // ---------------------------------------------------------------------
  // aggregate_input_data

  /** The data table's rows take the matrix rows in order: the matrix's
      case labels are replaced by the table's identifiers, whatever they
      were, so row `i` of the table meets row `i` of the matrix. The row
      counts must agree. */
  function Aggregate(stats: Stats, data: Table): (r: Result<seq<Row>>)
    ensures r.Err? <==> |stats.cases| != |data.rows|
    ensures r.Err? ==> r.error == CaseCountMismatch(|stats.cases|, |data.rows|)
    ensures r.Ok? ==> |r.value| == |data.rows| && forall i :: 0 <= i < |r.value| ==>
              && r.value[i].values == data.rows[i]
              && (i < |data.ids| ==> r.value[i].id == data.ids[i])
              && r.value[i].mainClass == Lookup(stats.mainClass, stats.cases[i])
              && r.value[i].mainProb == Lookup(stats.mainProb, stats.cases[i])
              && (forall k :: k in r.value[i].probs <==> (stats.cases[i], k) in stats.prob)
  {
    if |stats.cases| != |data.rows| then Err(CaseCountMismatch(|stats.cases|, |data.rows|))
    else
      Ok(seq(|data.rows|, i requires 0 <= i < |data.rows| =>
        var c := stats.cases[i];
        Row(if i < |data.ids| then data.ids[i] else "", data.rows[i],
            Lookup(stats.mainClass, c), Lookup(stats.mainProb, c), ProbRow(stats, c))))
  }

  /** With one matrix row per case `1..N` in order (the frame
      `extract_results` builds when no record enlarges it), row `i` of the
      data gets the class, probability and class columns of case `i + 1`. */
  lemma AggregateCaseOrder(stats: Stats, data: Table, i: nat)
    requires stats.cases == Range(1, |data.rows| + 1) && i < |data.rows|
    ensures Aggregate(stats, data).Ok?
    ensures Aggregate(stats, data).value[i].mainClass == Lookup(stats.mainClass, i + 1)
    ensures forall k :: k in Aggregate(stats, data).value[i].probs <==> (i + 1, k) in stats.prob
  {
  }

  // ---------------------------------------------------------------------
  // the sort of write_cdt

  /** A row with its 1-based position in the table before sorting (the
      `idx` column). */
  datatype Entry = Entry(pos: nat, row: Row)

  function Number(rows: seq<Row>): (es: seq<Entry>)
    ensures |es| == |rows|
    ensures forall i :: 0 <= i < |es| ==> es[i] == Entry(i + 1, rows[i])
  {
    seq(|rows|, i requires 0 <= i < |rows| => Entry(i + 1, rows[i]))
  }

  function Rows(es: seq<Entry>): (rows: seq<Row>)
    ensures |rows| == |es|
    ensures forall i :: 0 <= i < |es| ==> rows[i] == es[i].row
  {
    seq(|es|, i requires 0 <= i < |es| => es[i].row)
  }

  /** Ascending with NaN last. */
  predicate ClassFirst(a: Option<int>, b: Option<int>) {
    a.Some? && (b.None? || a.value < b.value)
  }

  /** Descending with NaN last. */
  predicate ProbFirst(a: Option<real>, b: Option<real>) {
    a.Some? && (b.None? || a.value > b.value)
  }

  /** `sort_values(by=["main-class", "main-prob"], ascending=[True,
      False])`: by class, then by decreasing probability, NaN last in both;
      pandas' multi-key sort is stable, so rows that tie keep their order. */
  predicate Before(x: Entry, y: Entry) {
    || ClassFirst(x.row.mainClass, y.row.mainClass)
    || (x.row.mainClass == y.row.mainClass
        && (ProbFirst(x.row.mainProb, y.row.mainProb)
            || (x.row.mainProb == y.row.mainProb && x.pos < y.pos)))
  }

  lemma BeforeIsOrder()
    ensures forall x: Entry, y: Entry, z: Entry :: Before(x, y) && Before(y, z) ==> Before(x, z)
    ensures forall x: Entry :: !Before(x, x)
    ensures forall x: Entry, y: Entry :: x.pos != y.pos ==> Before(x, y) || Before(y, x)
  {
  }

  predicate Sorted(es: seq<Entry>) {
    forall i, j :: 0 <= i < j < |es| ==> Before(es[i], es[j])
  }

  predicate DistinctPositions(es: seq<Entry>) {
    forall i, j :: 0 <= i < j < |es| ==> es[i].pos != es[j].pos
  }

  /** `x` placed before the first entry it sorts before. */
  function Insert(x: Entry, es: seq<Entry>): (r: seq<Entry>)
    ensures |r| == |es| + 1
    ensures multiset(r) == multiset(es) + multiset{x}
  {
    if |es| == 0 then [x]
    else if Before(x, es[0]) then [x] + es
    else
      assert es == [es[0]] + es[1..];
      [es[0]] + Insert(x, es[1..])
  }

  function SortEntries(es: seq<Entry>): (r: seq<Entry>)
    ensures |r| == |es|
    ensures multiset(r) == multiset(es)
  {
    if |es| == 0 then []
    else
      assert es == [es[0]] + es[1..];
      Insert(es[0], SortEntries(es[1..]))
  }

  lemma {:induction false} InsertSorted(x: Entry, es: seq<Entry>)
    requires Sorted(es) && forall i :: 0 <= i < |es| ==> es[i].pos != x.pos
    ensures Sorted(Insert(x, es))
    decreases |es|
  {
    BeforeIsOrder();
    if |es| > 0 && !Before(x, es[0]) {
      var tail := Insert(x, es[1..]);
      InsertSorted(x, es[1..]);
      forall j | 0 <= j < |tail| ensures Before(es[0], tail[j]) {
        assert tail[j] in multiset(tail);
        if tail[j] != x {
          assert tail[j] in multiset(es[1..]);
          var k :| 0 <= k < |es[1..]| && es[1..][k] == tail[j];
          assert es[k + 1] == tail[j];
        }
      }
    }
  }

  lemma {:induction false} SortSorted(es: seq<Entry>)
    requires DistinctPositions(es)
    ensures Sorted(SortEntries(es))
    decreases |es|
  {
    if |es| > 0 {
      var rest := SortEntries(es[1..]);
      SortSorted(es[1..]);
      forall i | 0 <= i < |rest| ensures rest[i].pos != es[0].pos {
        assert rest[i] in multiset(es[1..]);
        var k :| 0 <= k < |es[1..]| && es[1..][k] == rest[i];
        assert es[k + 1] == rest[i];
      }
      InsertSorted(es[0], rest);
    }
  }

  /** The sort of `write_cdt`: the numbered rows rearranged, each row once,
      into `Before` order. */
  function SortRows(rows: seq<Row>): (es: seq<Entry>)
    ensures multiset(es) == multiset(Number(rows))
    ensures Sorted(es)
  {
    SortSorted(Number(rows));
    SortEntries(Number(rows))
  }

  /** Sorting entries that are already in order changes nothing. */
  lemma {:induction false} SortKeepsSorted(es: seq<Entry>)
    requires Sorted(es)
    ensures SortEntries(es) == es
    decreases |es|
  {
    if |es| > 0 {
      SortKeepsSorted(es[1..]);
      if |es| > 1 {
        assert Before(es[0], es[1]);
        assert [es[0]] + es[1..] == es;
      }
    }
  }

  /** `write_cdt` sorts the table in place, so a second call numbers the
      rows from the sorted order and finds them already sorted: the table
      keeps its order and a row's `idx` is then its position in it. */
  lemma SecondSortIsIdentity(rows: seq<Row>)
    ensures var once := Rows(SortRows(rows));
            SortRows(once) == Number(once)
  {
    var sorted := SortRows(rows);
    var once := Rows(sorted);
    var again := Number(once);
    forall i, j | 0 <= i < j < |again| ensures Before(again[i], again[j]) {
      assert Before(sorted[i], sorted[j]);
    }
    SortKeepsSorted(again);
  }

  // ---------------------------------------------------------------------
  // gene ids and spacers

  /** `"{:03.0f}".format(main_class + 1)`: `nan` for an unset class. */
  function ClassText(c: Option<int>): string {
    if c.None? then "nan" else ZeroPad(c.value + 1, 3)
  }

  /** The `gid` column: `GENE`, the 4-digit position before sorting,
      `-CL`, the 1-based class, `X`. */
  function Gid(e: Entry): string {
    "GENE" + ZeroPad(e.pos, 4) + "-CL" + ClassText(e.row.mainClass) + "X"
  }

  /** The 5 lines written after each class block. */
  function Spacers(c: nat): (r: seq<string>)
    ensures |r| == 5
    ensures forall d :: 0 <= d < 5 ==> r[d] == "GENE" + ZeroPad(d + 1, 4) + "-" + ZeroPad(c, 3) + "S"
  {
    seq(5, d requires 0 <= d < 5 => "GENE" + ZeroPad(d + 1, 4) + "-" + ZeroPad(c, 3) + "S")
  }

  /** The digits a string starts with. */
  function LeadingDigits(s: string): (r: string)
    ensures AllDigits(r) && |r| <= |s| && r == s[..|r|]
  {
    if |s| == 0 || !IsDigit(s[0]) then "" else [s[0]] + LeadingDigits(s[1..])
  }

  lemma {:induction false} LeadingDigitsOf(d: string, rest: string)
    requires AllDigits(d) && (|rest| == 0 || !IsDigit(rest[0]))
    ensures LeadingDigits(d + rest) == d
    decreases |d|
  {
    if |d| > 0 {
      assert (d + rest)[1..] == d[1..] + rest;
      LeadingDigitsOf(d[1..], rest);
    } else {
      assert d + rest == rest;
    }
  }

  lemma {:induction false} ZerosValue(k: nat, d: string)
    requires AllDigits(d)
    ensures AllDigits(Zeros(k) + d) && DigitsValue(Zeros(k) + d) == DigitsValue(d)
    decreases |d|, k
  {
    ZerosAreDigits(k);
    var s := Zeros(k) + d;
    if |d| > 0 {
      assert s[..|s| - 1] == Zeros(k) + d[..|d| - 1];
      ZerosValue(k, d[..|d| - 1]);
    } else if k > 0 {
      assert s == Zeros(k);
      assert s[..|s| - 1] == Zeros(k - 1) + d by {
        ZerosAreDigits(k - 1);
        forall i | 0 <= i < k - 1 ensures s[i] == Zeros(k - 1)[i] {
          ZerosAreZero(k, i);
          ZerosAreZero(k - 1, i);
        }
      }
      ZerosAreZero(k, k - 1);
      ZerosValue(k - 1, d);
    }
  }

  lemma {:induction false} ZerosAreZero(k: nat, i: nat)
    requires i < k
    ensures Zeros(k)[i] == '0'
    decreases k
  {
    if i > 0 {
      ZerosAreZero(k - 1, i - 1);
    }
  }

  lemma ZerosAreDigits(k: nat)
    ensures AllDigits(Zeros(k))
  {
    forall i | 0 <= i < k ensures IsDigit(Zeros(k)[i]) {
      ZerosAreZero(k, i);
    }
  }

  /** A zero-padded natural number is all digits and reads back as the
      number. */
  lemma ZeroPadValue(n: nat, width: nat)
    ensures AllDigits(ZeroPad(n, width)) && DigitsValue(ZeroPad(n, width)) == n
  {
    var d := NatToString(n);
    var k: nat := if width > |d| then width - |d| else 0;
    assert Zeros(width - |d|) == Zeros(k);
    ZerosValue(k, d);
    NatToStringValue(n);
  }

  /** The position a gid names: the digits after `GENE`. */
  function GidPosition(g: string): nat {
    if StartsWith(g, "GENE") then DigitsValue(LeadingDigits(g[4..])) else 0
  }

  /** A gid names its row's position before sorting, whatever the class;
      so distinct positions give distinct gids. */
  lemma GidNamesPosition(e: Entry)
    ensures GidPosition(Gid(e)) == e.pos
  {
    var g := Gid(e);
    var digits := ZeroPad(e.pos, 4);
    var rest := "-CL" + ClassText(e.row.mainClass) + "X";
    assert g == "GENE" + (digits + rest);
    assert g[4..] == digits + rest;
    ZeroPadValue(e.pos, 4);
    LeadingDigitsOf(digits, rest);
  }

  // ---------------------------------------------------------------------
  // the .cdt file

  /** A data cell as `to_csv(na_rep="")` writes it. */
  function CellText(c: Cell): string {
    if c.None? then "" else c.value
  }

  /** The `prob-class-0 .. prob-class-(k-1)` cells of a row, empty when
      unset; `fmt` is the float rendering. */
  function ProbTexts(probs: map<int, real>, k: nat, fmt: real -> string): (r: seq<string>)
    ensures |r| == k
    ensures forall i :: 0 <= i < k ==> r[i] == if i in probs then fmt(probs[i]) else ""
  {
    seq(k, i requires 0 <= i < k => if i in probs then fmt(probs[i]) else "")
  }

  /** A data line: gid, the identifier twice, the weight 1, the data cells
      and, with probabilities, the class columns. */
  function RowLine(e: Entry, k: nat, withProba: bool, fmt: real -> string): string {
    Join([Gid(e), e.row.id, e.row.id, "1"]
         + seq(|e.row.values|, j requires 0 <= j < |e.row.values| => CellText(e.row.values[j]))
         + (if withProba then ProbTexts(e.row.probs, k, fmt) else []), "\t")
  }

  /** The header labels of the class columns, numbered from 1. */
  function ProbLabels(k: nat): (r: seq<string>)
    ensures |r| == k
    ensures forall i :: 0 <= i < k ==> r[i] == "prob-class-" + IntToString(i + 1)
  {
    seq(k, i requires 0 <= i < k => "prob-class-" + IntToString(i + 1))
  }

  /** The header line. */
  function CdtHeader(experiments: seq<string>, k: nat, withProba: bool): string {
    Join(["GID", "UNIQID", "NAME", "GWEIGHT"] + experiments + (if withProba then ProbLabels(k) else []), "\t")
  }

  function Repeat(s: string, n: nat): (r: string)
    ensures |r| == n * |s|
  {
    if n == 0 then "" else s + Repeat(s, n - 1)
  }

  /** The `EWEIGHT` line: three empty fields, then a 1 per experiment and,
      with probabilities, per class. */
  function Eweight(experiments: seq<string>, k: nat, withProba: bool): string {
    "EWEIGHT\t\t\t" + Repeat("\t1", |experiments|) + (if withProba then Repeat("\t1", k) else "")
  }

  /** The rows of class `c`, in the sorted order. */
  function Block(es: seq<Entry>, c: int): (r: seq<Entry>)
    ensures forall e :: e in r <==> e in es && e.row.mainClass == Some(c)
    ensures |r| <= |es|
  {
    if |es| == 0 then []
    else
      var rest := Block(es[1..], c);
      assert forall e :: e in es <==> e == es[0] || e in es[1..];
      if es[0].row.mainClass == Some(c) then [es[0]] + rest else rest
  }

  /** A single entry is in the block exactly when it has the class. */
  lemma BlockOne(e: Entry, c: int)
    ensures Block([e], c) == if e.row.mainClass == Some(c) then [e] else []
  {
  }

  /** The block of a list in two parts is the two parts' blocks, in order. */
  lemma {:induction false} BlockAppend(a: seq<Entry>, b: seq<Entry>, c: int)
    ensures Block(a + b, c) == Block(a, c) + Block(b, c)
    decreases |a|
  {
    if |a| > 0 {
      assert (a + b)[1..] == a[1..] + b;
      BlockAppend(a[1..], b, c);
    } else {
      assert a + b == b;
    }
  }

  /** The lines of one class block, in the block's order. */
  function RowLines(b: seq<Entry>, k: nat, withProba: bool, fmt: real -> string): (r: seq<string>)
    ensures |r| == |b|
    ensures forall i {:trigger r[i]} :: 0 <= i < |b| ==> r[i] == RowLine(b[i], k, withProba, fmt)
  {
    if |b| == 0 then [] else [RowLine(b[0], k, withProba, fmt)] + RowLines(b[1..], k, withProba, fmt)
  }

  /** The lines of class `c`: its block, then its spacers. */
  function Piece(es: seq<Entry>, c: nat, k: nat, withProba: bool, fmt: real -> string): seq<string> {
    RowLines(Block(es, c), k, withProba, fmt) + Spacers(c)
  }

  /** `Piece` for every class, as one function of the class. */
  function Pieces(es: seq<Entry>, k: nat, withProba: bool, fmt: real -> string): nat -> seq<string> {
    (c: nat) => Piece(es, c, k, withProba, fmt)
  }

  /** The pieces `piece(0)`, ..., `piece(n-1)` one after the other. */
  function Stacked<T>(piece: nat -> seq<T>, n: nat): seq<T> {
    if n == 0 then [] else Stacked(piece, n - 1) + piece(n - 1)
  }

  /** The class blocks for classes `0 .. n-1`, each followed by its
      spacers; every row line carries the `k` class columns of the table. */
  function Body(es: seq<Entry>, n: nat, k: nat, withProba: bool, fmt: real -> string): seq<string> {
    Stacked(Pieces(es, k, withProba, fmt), n)
  }

  /** The body for one more class adds that class's block and spacers. */
  lemma BodyStep(es: seq<Entry>, n: nat, k: nat, withProba: bool, fmt: real -> string)
    requires n > 0
    ensures Body(es, n, k, withProba, fmt)
            == Body(es, n - 1, k, withProba, fmt) + (RowLines(Block(es, n - 1), k, withProba, fmt) + Spacers(n - 1))
  {
  }

  /** The whole `.cdt` text for `k` classes. The rows keep the table's
      order: `SortRows` has put them in `Before` order. */
  function CdtLines(es: seq<Entry>, experiments: seq<string>, k: nat, withProba: bool, fmt: real -> string): seq<string> {
    [CdtHeader(experiments, k, withProba), Eweight(experiments, k, withProba)] + Body(es, k, k, withProba, fmt)
  }

  // ---------------------------------------------------------------------
  // properties of the .cdt layout

  /** The rows whose class is one of `0 .. k-1`. */
  function Listed(es: seq<Entry>, k: nat): (n: nat) {
    if |es| == 0 then 0
    else (if es[0].row.mainClass.Some? && 0 <= es[0].row.mainClass.value < k then 1 else 0) + Listed(es[1..], k)
  }

  lemma {:induction false} ListedStep(es: seq<Entry>, k: nat)
    ensures Listed(es, k + 1) == Listed(es, k) + |Block(es, k)|
    decreases |es|
  {
    if |es| > 0 {
      ListedStep(es[1..], k);
    }
  }

  /** The file has the header, the `EWEIGHT` line, one line per row of a
      class in `0 .. k-1` and 5 spacers per class: rows of any other class,
      or with no class, are not written. */
  lemma {:induction false} CdtLineCount(es: seq<Entry>, experiments: seq<string>, k: nat, withProba: bool, fmt: real -> string)
    ensures |CdtLines(es, experiments, k, withProba, fmt)| == 2 + 5 * k + Listed(es, k)
  {
    BodyCount(es, k, k, withProba, fmt);
  }

  lemma {:induction false} BodyCount(es: seq<Entry>, n: nat, k: nat, withProba: bool, fmt: real -> string)
    ensures |Body(es, n, k, withProba, fmt)| == 5 * n + Listed(es, n)
    decreases n
  {
    if n == 0 {
      ListedNone(es);
    } else {
      BodyStep(es, n, k, withProba, fmt);
      BodyCount(es, n - 1, k, withProba, fmt);
      ListedStep(es, n - 1);
    }
  }

  /** In the body for `n` classes, the piece of class `c < n` starts after
      the `c` earlier pieces, at line `5c + Listed(es, c)`: it lists the
      rows of class `c` in the sorted order, then the 5 spacers of class `c`. */
  lemma BlockAt(es: seq<Entry>, n: nat, k: nat, withProba: bool, fmt: real -> string, c: nat)
    requires c < n
    ensures var body := Body(es, n, k, withProba, fmt);
            var off := |Body(es, c, k, withProba, fmt)|;
            var piece := Pieces(es, k, withProba, fmt)(c);
            && off == 5 * c + Listed(es, c)
            && piece == RowLines(Block(es, c), k, withProba, fmt) + Spacers(c)
            && |piece| == |Block(es, c)| + 5
            && off + |piece| <= |body|
            && body[off..off + |piece|] == piece
  {
    BodyCount(es, c, k, withProba, fmt);
    PieceOf(es, c, k, withProba, fmt);
    PieceSlice(es, n, k, withProba, fmt, c);
  }

  /** The piece of class `c` sits right after the pieces of the earlier classes. */
  lemma PieceSlice(es: seq<Entry>, n: nat, k: nat, withProba: bool, fmt: real -> string, c: nat)
    requires c < n
    ensures var off := |Body(es, c, k, withProba, fmt)|;
            var piece := Pieces(es, k, withProba, fmt)(c);
            && off + |piece| <= |Body(es, n, k, withProba, fmt)|
            && Body(es, n, k, withProba, fmt)[off..off + |piece|] == piece
  {
    BodyStacks(es, c, k, withProba, fmt);
    BodyStacks(es, n, k, withProba, fmt);
    StackedAt(Pieces(es, k, withProba, fmt), n, c);
  }

  lemma BodyStacks(es: seq<Entry>, n: nat, k: nat, withProba: bool, fmt: real -> string)
    ensures Body(es, n, k, withProba, fmt) == Stacked(Pieces(es, k, withProba, fmt), n)
  {
  }

  lemma PieceOf(es: seq<Entry>, c: nat, k: nat, withProba: bool, fmt: real -> string)
    ensures Pieces(es, k, withProba, fmt)(c) == RowLines(Block(es, c), k, withProba, fmt) + Spacers(c)
  {
  }

  /** Piece `c` sits right after the pieces before it. */
  lemma {:induction false} StackedAt<T>(piece: nat -> seq<T>, n: nat, c: nat)
    requires c < n
    ensures |Stacked(piece, c)| + |piece(c)| <= |Stacked(piece, n)|
    ensures Stacked(piece, n)[|Stacked(piece, c)|..|Stacked(piece, c)| + |piece(c)|] == piece(c)
    decreases n
  {
    var prev := Stacked(piece, n - 1);
    assert Stacked(piece, n) == prev + piece(n - 1);
    if c < n - 1 {
      StackedAt(piece, n - 1, c);
    }
  }

  /** A spacer of some class in `0 .. n-1`, or the line of a row of such
      a class written with `k` class columns. */
  predicate BodyLine(l: string, es: seq<Entry>, n: nat, k: nat, withProba: bool, fmt: real -> string) {
    || (exists c :: 0 <= c < n && l in Spacers(c))
    || (exists e :: e in es && e.row.mainClass.Some? && 0 <= e.row.mainClass.value < n
                            && l == RowLine(e, k, withProba, fmt))
  }

  /** Every line after the first two is a spacer of some class in
      `0 .. n-1` or the line of a row of such a class, written with all
      `k` class columns whichever block it is in. */
  lemma {:induction false} BodyLines(es: seq<Entry>, n: nat, k: nat, withProba: bool, fmt: real -> string)
    ensures forall l :: l in Body(es, n, k, withProba, fmt) ==> BodyLine(l, es, n, k, withProba, fmt)
    decreases n
  {
    if n > 0 {
      BodyLines(es, n - 1, k, withProba, fmt);
      forall l | l in Body(es, n, k, withProba, fmt) ensures BodyLine(l, es, n, k, withProba, fmt) {
        BodyLineStep(l, es, n, k, withProba, fmt);
      }
    }
  }

  /** A line of the first `n` blocks is one of the first `n - 1`, a row of
      block `n - 1`, or a spacer of class `n - 1`. */
  lemma BodyLineStep(l: string, es: seq<Entry>, n: nat, k: nat, withProba: bool, fmt: real -> string)
    requires n > 0 && l in Body(es, n, k, withProba, fmt)
    requires l in Body(es, n - 1, k, withProba, fmt) ==> BodyLine(l, es, n - 1, k, withProba, fmt)
    ensures BodyLine(l, es, n, k, withProba, fmt)
  {
    var prev := Body(es, n - 1, k, withProba, fmt);
    var b := Block(es, n - 1);
    var lines := RowLines(b, k, withProba, fmt);
    BodyStep(es, n, k, withProba, fmt);
    if l in prev {
      BodyLineWiden(l, es, n - 1, k, withProba, fmt);
    } else if l in lines {
      var i :| 0 <= i < |b| && lines[i] == l;
      assert b[i] in b;
      assert b[i] in es && b[i].row.mainClass == Some(n - 1);
    } else {
      assert l in Spacers(n - 1);
    }
  }

  lemma BodyLineWiden(l: string, es: seq<Entry>, n: nat, k: nat, withProba: bool, fmt: real -> string)
    requires BodyLine(l, es, n, k, withProba, fmt)
    ensures BodyLine(l, es, n + 1, k, withProba, fmt)
  {
    if exists c :: 0 <= c < n && l in Spacers(c) {
      var c :| 0 <= c < n && l in Spacers(c);
      assert 0 <= c < n + 1;
    } else {
      var e :| e in es && e.row.mainClass.Some? && 0 <= e.row.mainClass.value < n
               && l == RowLine(e, k, withProba, fmt);
      assert 0 <= e.row.mainClass.value < n + 1;
    }
  }

  lemma {:induction false} ListedNone(es: seq<Entry>)
    ensures Listed(es, 0) == 0
    decreases |es|
  {
    if |es| > 0 {
      ListedNone(es[1..]);
    }
  }

  /** When every row's class is one of `0 .. k-1`, every row is written. */
  lemma {:induction false} ListedAll(es: seq<Entry>, k: nat)
    requires forall i :: 0 <= i < |es| ==> es[i].row.mainClass.Some? && 0 <= es[i].row.mainClass.value < k
    ensures Listed(es, k) == |es|
    decreases |es|
  {
    if |es| > 0 {
      ListedAll(es[1..], k);
    }
  }

  /** Decreasing probability, unset last, ties in their original order. */
  predicate ProbOrder(x: Entry, y: Entry) {
    ProbFirst(x.row.mainProb, y.row.mainProb) || (x.row.mainProb == y.row.mainProb && x.pos < y.pos)
  }

  predicate ProbSorted(b: seq<Entry>) {
    forall i, j :: 0 <= i < j < |b| ==> ProbOrder(b[i], b[j])
  }

  /** Within a class block, rows come by decreasing probability, unset
      last, and rows that tie in their original order. */
  lemma {:induction false} BlockOrdered(es: seq<Entry>, c: int)
    requires Sorted(es)
    ensures ProbSorted(Block(es, c))
    decreases |es|
  {
    if |es| > 0 {
      var rest := Block(es[1..], c);
      assert Sorted(es[1..]);
      BlockOrdered(es[1..], c);
      var b := Block(es, c);
      if es[0].row.mainClass == Some(c) {
        assert b == [es[0]] + rest;
        HeadBeforeBlock(es, c);
        ConsProbSorted(es[0], rest);
      } else {
        assert b == rest;
      }
    }
  }

  /** The first entry of a sorted list comes before, within its class,
      every later entry of that class. */
  lemma HeadBeforeBlock(es: seq<Entry>, c: int)
    requires Sorted(es) && |es| > 0 && es[0].row.mainClass == Some(c)
    ensures forall j :: 0 <= j < |Block(es[1..], c)| ==> ProbOrder(es[0], Block(es[1..], c)[j])
  {
    var rest := Block(es[1..], c);
    forall j | 0 <= j < |rest| ensures ProbOrder(es[0], rest[j]) {
      assert rest[j] in rest;
      assert rest[j] in es[1..] && rest[j].row.mainClass == Some(c);
      var m :| 0 <= m < |es[1..]| && es[1..][m] == rest[j];
      assert es[m + 1] == rest[j];
      assert Before(es[0], es[m + 1]);
    }
  }

  lemma ConsProbSorted(x: Entry, rest: seq<Entry>)
    requires ProbSorted(rest)
    requires forall j :: 0 <= j < |rest| ==> ProbOrder(x, rest[j])
    ensures ProbSorted([x] + rest)
  {
    var b := [x] + rest;
    forall i, j | 0 <= i < j < |b| ensures ProbOrder(b[i], b[j]) {
      if i > 0 {
        assert b[i] == rest[i - 1] && b[j] == rest[j - 1];
      } else {
        assert b[j] == rest[j - 1];
      }
    }
  }

  /** The header line and the `EWEIGHT` line have the same number of
      tab-separated fields: the four fixed ones, one per experiment and,
      with probabilities, one per class. */
  lemma CdtHeaderWidth(experiments: seq<string>, k: nat, withProba: bool)
    requires forall i :: 0 <= i < |experiments| ==> '\t' !in experiments[i]
    ensures |SplitOn(CdtHeader(experiments, k, withProba), '\t')| == 4 + |experiments| + (if withProba then k else 0)
    ensures |SplitOn(Eweight(experiments, k, withProba), '\t')| == 4 + |experiments| + (if withProba then k else 0)
  {
    CdtHeaderFields(experiments, k, withProba);
    EweightWidth(experiments, k, withProba);
  }

  lemma CdtHeaderFields(experiments: seq<string>, k: nat, withProba: bool)
    requires forall i :: 0 <= i < |experiments| ==> '\t' !in experiments[i]
    ensures |SplitOn(CdtHeader(experiments, k, withProba), '\t')| == 4 + |experiments| + (if withProba then k else 0)
  {
    var fields := ["GID", "UNIQID", "NAME", "GWEIGHT"] + experiments + (if withProba then ProbLabels(k) else []);
    forall i | 0 <= i < |fields| ensures '\t' !in fields[i] {
      if i >= 4 + |experiments| {
        NoTabInLabel(i - 4 - |experiments| + 1);
      } else if i >= 4 {
        assert fields[i] == experiments[i - 4];
      }
    }
    SplitJoin(fields, '\t');
  }

  lemma EweightWidth(experiments: seq<string>, k: nat, withProba: bool)
    ensures |SplitOn(Eweight(experiments, k, withProba), '\t')| == 4 + |experiments| + (if withProba then k else 0)
  {
    var n := |experiments| + (if withProba then k else 0);
    EweightFields(n);
    assert Eweight(experiments, k, withProba) == "EWEIGHT\t\t\t" + Repeat("\t1", n) by {
      RepeatAdd("\t1", |experiments|, if withProba then k else 0);
    }
  }

  lemma NoTabInLabel(i: int)
    ensures '\t' !in "prob-class-" + IntToString(i)
  {
    var d := IntToString(i);
    assert forall j :: 0 <= j < |d| ==> d[j] == '-' || IsDigit(d[j]);
  }

  lemma {:induction false} RepeatAdd(s: string, a: nat, b: nat)
    ensures Repeat(s, a) + Repeat(s, b) == Repeat(s, a + b)
    decreases a
  {
    if a > 0 {
      RepeatAdd(s, a - 1, b);
      calc {
        Repeat(s, a) + Repeat(s, b);
        (s + Repeat(s, a - 1)) + Repeat(s, b);
        s + (Repeat(s, a - 1) + Repeat(s, b));
        s + Repeat(s, a - 1 + b);
        Repeat(s, a + b);
      }
    }
  }

  /** `"EWEIGHT\t\t\t" + "\t1" * n` splits into `4 + n` fields. */
  lemma EweightFields(n: nat)
    ensures |SplitOn("EWEIGHT\t\t\t" + Repeat("\t1", n), '\t')| == 4 + n
  {
    var fields := ["EWEIGHT", "", "", ""] + Ones(n);
    assert Join(fields, "\t") == "EWEIGHT\t\t\t" + Repeat("\t1", n) by {
      JoinHeadOnes(n);
    }
    SplitJoin(fields, '\t');
  }

  function Ones(n: nat): (r: seq<string>)
    ensures |r| == n && forall i :: 0 <= i < n ==> r[i] == "1"
  {
    seq(n, i requires 0 <= i < n => "1")
  }

  lemma {:induction false} JoinHeadOnes(n: nat)
    ensures Join(["EWEIGHT", "", "", ""] + Ones(n), "\t") == "EWEIGHT\t\t\t" + Repeat("\t1", n)
    decreases n
  {
    var ones := Ones(n);
    if n == 0 {
      assert ["EWEIGHT", "", "", ""] + ones == ["EWEIGHT", "", "", ""];
      assert Join([""], "\t") == "";
      assert Join(["", ""], "\t") == "\t";
      assert Join(["", "", ""], "\t") == "\t\t";
    } else {
      JoinHeadOnes(n - 1);
      var shorter := Ones(n - 1);
      assert ones == shorter + ["1"];
      JoinSnoc(["EWEIGHT", "", "", ""] + shorter, "1", "\t");
      assert ["EWEIGHT", "", "", ""] + ones == (["EWEIGHT", "", "", ""] + shorter) + ["1"];
      RepeatSnoc("\t1", n - 1);
    }
  }

  lemma {:induction false} JoinSnoc(xs: seq<string>, x: string, sep: string)
    requires |xs| > 0
    ensures Join(xs + [x], sep) == Join(xs, sep) + sep + x
    decreases |xs|
  {
    if |xs| == 1 {
      assert (xs + [x])[1..] == [x];
    } else {
      assert (xs + [x])[1..] == xs[1..] + [x];
      JoinSnoc(xs[1..], x, sep);
    }
  }

  lemma {:induction false} RepeatSnoc(s: string, n: nat)
    ensures Repeat(s, n + 1) == Repeat(s, n) + s
    decreases n
  {
    if n > 0 {
      RepeatSnoc(s, n - 1);
    }
  }

  // ---------------------------------------------------------------------
  // write_cluster_stats

  /** `df["main-class"].nunique()`. */
  function ClassMax(rows: seq<Row>): nat {
    |set i | 0 <= i < |rows| && rows[i].mainClass.Some? :: rows[i].mainClass.value|
  }

  /** The rows of class `c`. */
  function Cluster(rows: seq<Row>, c: int): (r: seq<Row>)
    ensures forall x :: x in r <==> x in rows && x.mainClass == Some(c)
  {
    if |rows| == 0 then []
    else
      var rest := Cluster(rows[1..], c);
      assert forall x :: x in rows <==> x == rows[0] || x in rows[1..];
      if rows[0].mainClass == Some(c) then [rows[0]] + rest else rest
  }

  /** A single row is in the cluster exactly when it has the class. */
  lemma ClusterOne(x: Row, c: int)
    ensures Cluster([x], c) == if x.mainClass == Some(c) then [x] else []
  {
  }

  /** The cluster of a table in two parts is the two parts' clusters, in
      order: with `ClusterOne`, each row of the class appears once per
      occurrence, in table order, as `df[df["main-class"] == c]` keeps it. */
  lemma {:induction false} ClusterAppend(a: seq<Row>, b: seq<Row>, c: int)
    ensures Cluster(a + b, c) == Cluster(a, c) + Cluster(b, c)
    decreases |a|
  {
    if |a| > 0 {
      assert (a + b)[1..] == a[1..] + b;
      ClusterAppend(a[1..], b, c);
    } else {
      assert a + b == b;
    }
  }

  /** A statistic of one experiment over one cluster, rendered; the mean
      and standard deviation themselves are not modelled. */
  type Summary = (seq<Row>, nat) -> string

  function StatLabel(c: nat, kind: string): string {
    "cluster" + ZeroPad(c, 3) + kind
  }

  function StatLine(rows: seq<Row>, n: nat, c: nat, kind: string, stat: Summary): string {
    Join([StatLabel(c, kind)] + seq(n, j requires 0 <= j < n => stat(Cluster(rows, c), j)), "\t")
  }

  function StatBody(rows: seq<Row>, n: nat, count: nat, mean: Summary, std: Summary): (r: seq<string>)
    ensures |r| == 2 * count
    ensures forall c :: 0 <= c < count ==>
              r[2 * c] == StatLine(rows, n, c, "mean", mean) && r[2 * c + 1] == StatLine(rows, n, c, "std", std)
  {
    if count == 0 then []
    else StatBody(rows, n, count - 1, mean, std)
         + [StatLine(rows, n, count - 1, "mean", mean), StatLine(rows, n, count - 1, "std", std)]
  }

  /** The statistics file: a `cluster` header over the experiments, then
      a `mean` and a `std` line for each class `0 .. nunique-1`. */
  function ClusterStatsLines(rows: seq<Row>, experiments: seq<string>, mean: Summary, std: Summary): (r: seq<string>)
    ensures |r| == 1 + 2 * ClassMax(rows)
    ensures r[0] == Join(["cluster"] + experiments, "\t")
    ensures forall c :: 0 <= c < ClassMax(rows) ==>
              r[1 + 2 * c] == StatLine(rows, |experiments|, c, "mean", mean)
              && r[2 + 2 * c] == StatLine(rows, |experiments|, c, "std", std)
  {
    [Join(["cluster"] + experiments, "\t")] + StatBody(rows, |experiments|, ClassMax(rows), mean, std)
  }

  /** The class a statistics row label names: the digits after
      `cluster`. */
  function LabelClass(tag: string): nat {
    if StartsWith(tag, "cluster") then DigitsValue(LeadingDigits(tag[7..])) else 0
  }

  /** Each statistics line's label names its class and its kind, so no two
      lines share a label. */
  lemma StatLabelNamesClass(c: nat, kind: string)
    requires kind == "mean" || kind == "std"
    ensures LabelClass(StatLabel(c, kind)) == c
    ensures StatLabel(c, kind)[|StatLabel(c, kind)| - |kind|..] == kind
  {
    assert !IsDigit(kind[0]);
    ZeroPadValue(c, 3);
    LabelClassOf(ZeroPad(c, 3), kind);
  }

  lemma LabelClassOf(digits: string, kind: string)
    requires AllDigits(digits) && |kind| > 0 && !IsDigit(kind[0])
    ensures LabelClass("cluster" + digits + kind) == DigitsValue(digits)
    ensures ("cluster" + digits + kind)[|"cluster" + digits + kind| - |kind|..] == kind
  {
    var tag := "cluster" + digits + kind;
    assert tag[..7] == "cluster";
    assert tag[7..] == digits + kind;
    LeadingDigitsOf(digits, kind);
  }

  /** When the classes present are exactly `0 .. k-1` (as AutoClass numbers
      them), the statistics cover every class. */
  lemma ClassMaxContiguous(rows: seq<Row>, k: nat)
    requires forall i :: 0 <= i < |rows| ==> rows[i].mainClass.Some? && 0 <= rows[i].mainClass.value < k
    requires forall c :: 0 <= c < k ==> exists i :: 0 <= i < |rows| && rows[i].mainClass == Some(c)
    ensures ClassMax(rows) == k
  {
    var present := set i | 0 <= i < |rows| && rows[i].mainClass.Some? :: rows[i].mainClass.value;
    var classes := Range(0, k);
    assert present == Elements(classes) by {
      forall c | c in Elements(classes) ensures c in present {
        var i :| 0 <= i < |rows| && rows[i].mainClass == Some(c);
      }
      forall c | c in present ensures c in Elements(classes) {
        assert classes[c] == c;
      }
    }
    RangeDistinct(0, k);
    DistinctIffNoCollapse(classes);
  }
}

=== FILE: tables.dfy ===
/** The table model both halves of the wrapper work on: a pandas dataframe
    with a named index, reduced to column labels, row identifiers and rows
    of optional text cells, plus the per-column metadata the input side
    keeps beside it. */
module Tables {
  import opened Basics

  /** A cell as pandas holds it: text, or NaN. */
  type Cell = Option<string>

  /** The declared semantic type of an input file's columns. */
  datatype DataType = RealScalar | RealLocation | Discrete | Merged

  predicate IsReal(k: DataType) {
    k == RealScalar || k == RealLocation
  }

  /** The name a caller passes for each type. */
  function TypeName(k: DataType): string {
    match k
    case RealScalar => "real scalar"
    case RealLocation => "real location"
    case Discrete => "discrete"
    case Merged => "merged"
  }

  /** Reading a type name back; `None` for every other string. */
  function ParseTypeName(name: string): (r: Option<DataType>)
    ensures r.Some? ==> TypeName(r.value) == name
    ensures forall k :: TypeName(k) == name ==> r == Some(k)
  {
    if name == "real scalar" then Some(RealScalar)
    else if name == "real location" then Some(RealLocation)
    else if name == "discrete" then Some(Discrete)
    else if name == "merged" then Some(Merged)
    else None
  }

  /** One column's metadata: `{"type", "error", "missing"}`. The error
      magnitude is only ever printed, so it is kept as the text Python
      prints for it. */
  datatype Meta = Meta(kind: DataType, error: string, missing: bool)

  type MetaMap = map<string, Meta>

  /** A dataframe: its index name (`None` when pandas could not agree on
      one), its column labels, its row identifiers and one row of cells per
      identifier. */
  datatype Table = Table(indexName: Option<string>, columns: seq<string>, ids: seq<string>, rows: seq<seq<Cell>>)
  {
    /** Every row has one cell per column. */
    predicate Rectangular() {
      |rows| == |ids| && forall i :: 0 <= i < |rows| ==> |rows[i]| == |columns|
    }

    /** The cells of column `j`, top to bottom. */
    function Column(j: nat): (col: seq<Cell>)
      requires Rectangular() && j < |columns|
      ensures |col| == |rows|
      ensures forall i :: 0 <= i < |rows| ==> col[i] == rows[i][j]
    {
      seq(|rows|, i requires 0 <= i < |rows| => rows[i][j])
    }
  }

  predicate Distinct<T(==)>(xs: seq<T>) {
    forall i, j :: 0 <= i < j < |xs| ==> xs[i] != xs[j]
  }

  function Elements<T(==)>(xs: seq<T>): set<T> {
    set x | x in xs
  }

  /** A list has as many distinct elements as entries exactly when no entry
      repeats; otherwise it has fewer. */
  lemma {:induction false} DistinctIffNoCollapse<T>(xs: seq<T>)
    ensures |Elements(xs)| <= |xs|
    ensures |Elements(xs)| == |xs| <==> Distinct(xs)
    decreases |xs|
  {
    if |xs| > 0 {
      var rest := xs[1..];
      DistinctIffNoCollapse(rest);
      assert Elements(xs) == {xs[0]} + Elements(rest);
      if xs[0] in rest {
        assert Elements(xs) == Elements(rest);
        var k :| 0 <= k < |rest| && rest[k] == xs[0];
        assert xs[0] == xs[k + 1];
      } else {
        assert xs[0] !in Elements(rest);
        assert |Elements(xs)| == 1 + |Elements(rest)|;
        if Distinct(rest) {
          forall i, j | 0 <= i < j < |xs| ensures xs[i] != xs[j] {
            if i > 0 {
              assert xs[i] == rest[i - 1] && xs[j] == rest[j - 1];
            } else {
              assert xs[j] == rest[j - 1];
            }
          }
        } else {
          var i, j :| 0 <= i < j < |rest| && rest[i] == rest[j];
          assert xs[i + 1] == xs[j + 1];
        }
      }
    }
  }

  lemma ElementsCons<T>(x: T, xs: seq<T>)
    ensures Elements([x] + xs) == {x} + Elements(xs)
  {
    forall y ensures y in Elements([x] + xs) <==> y in {x} + Elements(xs) {
      if y in Elements([x] + xs) && y != x {
        var k :| 0 <= k < |[x] + xs| && ([x] + xs)[k] == y;
        assert xs[k - 1] == y;
      }
    }
  }

  /** The head of a distinct list is not repeated in its tail, which is
      distinct too. */
  lemma DistinctTail<T>(xs: seq<T>)
    requires |xs| > 0 && Distinct(xs)
    ensures Elements(xs) == {xs[0]} + Elements(xs[1..])
    ensures xs[0] !in Elements(xs[1..]) && Distinct(xs[1..])
  {
    assert xs == [xs[0]] + xs[1..];
  }

  /** A cell counts as present for pandas' `isnull`/`nunique`. */
  function PresentValues(col: seq<Cell>): set<string> {
    set i | 0 <= i < |col| && col[i].Some? :: col[i].value
  }

  predicate HasNull(col: seq<Cell>) {
    exists i :: 0 <= i < |col| && col[i].None?
  }

  /** `Series.nunique()`: distinct present values, compared as text. */
  function CountDistinct(col: seq<Cell>): nat {
    |PresentValues(col)|
  }
}

=== FILE: text.dfy ===
/** The string primitives the wrapper relies on from Python: `str.strip`,
    `str.split(sep)`, argument-less `str.split`, `sep.join`, `str.startswith`,
    `int()` and decimal / zero-padded integer formatting. */
module Text {
  import opened Basics

  /** Python's whitespace for `str.strip()` and `str.split()`, ASCII part. */
  predicate IsSpace(c: char) {
    c == ' ' || c == '\t' || c == '\n' || c == '\r' || c == '\U{b}' || c == '\U{c}'
    || ('\U{1c}' <= c <= '\U{1f}')
  }

  predicate IsDigit(c: char) {
    '0' <= c <= '9'
  }

  predicate StartsWith(s: string, prefix: string) {
    |prefix| <= |s| && s[..|prefix|] == prefix
  }

  // ---------------------------------------------------------------------
  // strip

  function StripLeft(s: string): (r: string)
    ensures |r| <= |s| && r == s[|s| - |r|..]
    ensures |r| > 0 ==> !IsSpace(r[0])
    ensures forall i :: 0 <= i < |s| - |r| ==> IsSpace(s[i])
  {
    if |s| > 0 && IsSpace(s[0]) then StripLeft(s[1..]) else s
  }

  function StripRight(s: string): (r: string)
    ensures |r| <= |s| && r == s[..|r|]
    ensures |r| > 0 ==> !IsSpace(r[|r| - 1])
    ensures forall i :: |r| <= i < |s| ==> IsSpace(s[i])
  {
    if |s| > 0 && IsSpace(s[|s| - 1]) then StripRight(s[..|s| - 1]) else s
  }

  /** `r` is `s[lo..]` cut to its length, with only whitespace cut off on
      either side. */
  predicate IsStripOf(s: string, lo: int, r: string) {
    && 0 <= lo <= lo + |r| <= |s| && r == s[lo..lo + |r|]
    && (forall i :: 0 <= i < lo ==> IsSpace(s[i]))
    && (forall i :: lo + |r| <= i < |s| ==> IsSpace(s[i]))
  }

  /** `s.strip()`: the longest slice of `s` that neither starts nor ends with
      whitespace, everything cut off being whitespace. */
  function Strip(s: string): (r: string)
    ensures exists lo :: IsStripOf(s, lo, r)
    ensures |r| > 0 ==> !IsSpace(r[0]) && !IsSpace(r[|r| - 1])
  {
    var l := StripLeft(s);
    var r := StripRight(l);
    assert IsStripOf(s, |s| - |l|, r);
    r
  }

  predicate AllSpace(s: string) {
    forall i :: 0 <= i < |s| ==> IsSpace(s[i])
  }

  /** A core that neither starts nor ends with whitespace comes back out of
      `strip` whatever whitespace surrounds it. */
  lemma StripExact(pre: string, core: string, post: string)
    requires AllSpace(pre) && AllSpace(post)
    requires |core| > 0 ==> !IsSpace(core[0]) && !IsSpace(core[|core| - 1])
    ensures Strip(pre + core + post) == core
    ensures Strip(pre + (core + post)) == core
  {
    var s := pre + core + post;
    assert s == pre + (core + post);
    StripLeftSpaces(pre, core + post);
    if |core| > 0 {
      assert StripLeft(core + post) == core + post by {
        assert (core + post)[0] == core[0];
      }
      StripRightSpaces(core, post);
    } else {
      assert core + post == post;
      assert StripLeft(post) == "";
    }
    assert Strip(s) == StripRight(StripLeft(s));
  }

  lemma {:induction false} StripLeftSpaces(pre: string, rest: string)
    requires AllSpace(pre)
    requires |rest| > 0 ==> !IsSpace(rest[0]) || AllSpace(rest)
    ensures StripLeft(pre + rest) == StripLeft(rest)
    decreases |pre|
  {
    if |pre| > 0 {
      assert (pre + rest)[1..] == pre[1..] + rest;
      StripLeftSpaces(pre[1..], rest);
    } else {
      assert pre + rest == rest;
    }
  }

  lemma {:induction false} StripRightSpaces(core: string, post: string)
    requires AllSpace(post)
    requires |core| > 0 ==> !IsSpace(core[|core| - 1])
    ensures StripRight(core + post) == core
    decreases |post|
  {
    if |post| > 0 {
      assert (core + post)[..|core + post| - 1] == core + post[..|post| - 1];
      StripRightSpaces(core, post[..|post| - 1]);
    } else {
      assert core + post == core;
    }
  }

  // ---------------------------------------------------------------------
  // sep.join and str.split(sep)

  /** `sep.join(xs)`. */
  function Join(xs: seq<string>, sep: string): string {
    if |xs| == 0 then ""
    else if |xs| == 1 then xs[0]
    else xs[0] + sep + Join(xs[1..], sep)
  }

  lemma JoinConsHead(a: string, x: string, tail: seq<string>, sep: string)
    ensures Join([a + x] + tail, sep) == a + Join([x] + tail, sep)
  {
    if |tail| > 0 {
      assert ([a + x] + tail)[1..] == tail;
      assert ([x] + tail)[1..] == tail;
    }
  }

  /** `s.split(sep)` for a one-character separator: the fields between
      separators, empty ones included; there is always at least one. */
  function SplitOn(s: string, sep: char): (r: seq<string>)
    ensures |r| >= 1
    ensures forall i :: 0 <= i < |r| ==> sep !in r[i]
    ensures Join(r, [sep]) == s
  {
    if |s| == 0 then [""]
    else if s[0] == sep then
      var rest := SplitOn(s[1..], sep);
      assert ([""] + rest)[1..] == rest;
      assert s == [sep] + s[1..];
      [""] + rest
    else
      var rest := SplitOn(s[1..], sep);
      JoinConsHead([s[0]], rest[0], rest[1..], [sep]);
      assert [rest[0]] + rest[1..] == rest;
      assert s == [s[0]] + s[1..];
      [[s[0]] + rest[0]] + rest[1..]
  }

  lemma {:induction false} SplitOnFree(a: string, sep: char)
    requires sep !in a
    ensures SplitOn(a, sep) == [a]
    decreases |a|
  {
    if |a| > 0 {
      SplitOnFree(a[1..], sep);
      assert [a[0]] + a[1..] == a;
    }
  }

  lemma {:induction false} SplitOnField(a: string, sep: char, b: string)
    requires sep !in a
    ensures SplitOn(a + [sep] + b, sep) == [a] + SplitOn(b, sep)
    decreases |a|
  {
    var s := a + [sep] + b;
    if |a| == 0 {
      assert s[1..] == b;
    } else {
      assert s[1..] == a[1..] + [sep] + b;
      SplitOnField(a[1..], sep, b);
      assert [a[0]] + a[1..] == a;
    }
  }

  /** Splitting a joined list gives the list back when no field holds the
      separator: `str.split` inverts `str.join`. */
  lemma {:induction false} SplitJoin(xs: seq<string>, sep: char)
    requires |xs| >= 1
    requires forall i :: 0 <= i < |xs| ==> sep !in xs[i]
    ensures SplitOn(Join(xs, [sep]), sep) == xs
    decreases |xs|
  {
    if |xs| == 1 {
      SplitOnFree(xs[0], sep);
    } else {
      SplitJoin(xs[1..], sep);
      SplitOnField(xs[0], sep, Join(xs[1..], [sep]));
      assert xs[0] + [sep] + Join(xs[1..], [sep]) == Join(xs, [sep]);
      assert [xs[0]] + xs[1..] == xs;
    }
  }

  /** The list with `pad` put in front of every element but the first. */
  function Padded(xs: seq<string>, pad: string): (r: seq<string>)
    ensures |r| == |xs|
    ensures |xs| > 0 ==> r[0] == xs[0]
    ensures forall i :: 0 < i < |xs| ==> r[i] == pad + xs[i]
  {
    if |xs| == 0 then [] else [xs[0]] + seq(|xs| - 1, i requires 0 <= i < |xs| - 1 => pad + xs[i + 1])
  }

  /** Joining on a separator followed by padding is joining the padded
      elements on the bare separator. */
  lemma {:induction false} JoinPadded(xs: seq<string>, sep: char, pad: string)
    ensures Join(xs, [sep] + pad) == Join(Padded(xs, pad), [sep])
    decreases |xs|
  {
    if |xs| > 1 {
      var tail := xs[1..];
      JoinPadded(tail, sep, pad);
      var p := Padded(xs, pad);
      var q := Padded(tail, pad);
      assert p[1..] == [pad + tail[0]] + q[1..];
      assert q == [tail[0]] + q[1..];
      JoinConsHead(pad, tail[0], q[1..], [sep]);
      assert Join(p[1..], [sep]) == pad + Join(q, [sep]);
    }
  }

  // ---------------------------------------------------------------------
  // argument-less str.split

  /** Length of the leading run of non-whitespace characters. */
  function WordEnd(s: string): (n: nat)
    ensures n <= |s|
    ensures forall j :: 0 <= j < n ==> !IsSpace(s[j])
    ensures n < |s| ==> IsSpace(s[n])
  {
    if |s| == 0 || IsSpace(s[0]) then 0 else 1 + WordEnd(s[1..])
  }

  predicate IsWord(w: string) {
    |w| > 0 && forall j :: 0 <= j < |w| ==> !IsSpace(w[j])
  }

  /** `s.split()`: the maximal runs of non-whitespace characters. */
  function Words(s: string): (r: seq<string>)
    ensures forall i :: 0 <= i < |r| ==> IsWord(r[i])
    decreases |s|
  {
    if |s| == 0 then []
    else if IsSpace(s[0]) then Words(s[1..])
    else
      var n := WordEnd(s);
      [s[..n]] + Words(s[n..])
  }

  lemma WordEndOfWord(w: string, rest: string)
    requires IsWord(w)
    requires |rest| == 0 || IsSpace(rest[0])
    ensures WordEnd(w + rest) == |w|
    decreases |w|
  {
    if |w| > 1 {
      assert (w + rest)[1..] == w[1..] + rest;
      WordEndOfWord(w[1..], rest);
    } else {
      assert (w + rest)[1..] == rest;
    }
  }

  /** Splitting on whitespace inverts joining words with single spaces. */
  lemma {:induction false} WordsUnwords(ws: seq<string>)
    requires forall i :: 0 <= i < |ws| ==> IsWord(ws[i])
    ensures Words(Join(ws, " ")) == ws
    decreases |ws|
  {
    if |ws| == 1 {
      var w := ws[0];
      WordEndOfWord(w, "");
      assert w + "" == w;
      assert w[|w|..] == "";
    } else if |ws| > 1 {
      var w := ws[0];
      var rest := " " + Join(ws[1..], " ");
      var s := Join(ws, " ");
      assert s == w + rest;
      WordEndOfWord(w, rest);
      assert s[..|w|] == w;
      assert s[|w|..] == rest;
      assert rest[1..] == Join(ws[1..], " ");
      WordsUnwords(ws[1..]);
      assert [ws[0]] + ws[1..] == ws;
    }
  }

  // ---------------------------------------------------------------------
  // integers

  function DigitChar(d: nat): (c: char)
    requires d < 10
    ensures IsDigit(c)
  {
    (48 + d) as char
  }

  function DigitValue(c: char): nat
    requires IsDigit(c)
  {
    c as int - 48
  }

  predicate AllDigits(s: string) {
    forall i :: 0 <= i < |s| ==> IsDigit(s[i])
  }

  /** Decimal rendering of a natural number, no leading zeros. */
  function NatToString(n: nat): (s: string)
    ensures |s| > 0 && AllDigits(s)
    decreases n
  {
    if n < 10 then [DigitChar(n)] else NatToString(n / 10) + [DigitChar(n % 10)]
  }

  /** The value of a string of decimal digits. */
  function DigitsValue(s: string): nat
    requires AllDigits(s)
  {
    if |s| == 0 then 0 else 10 * DigitsValue(s[..|s| - 1]) + DigitValue(s[|s| - 1])
  }

  lemma {:induction false} NatToStringValue(n: nat)
    ensures DigitsValue(NatToString(n)) == n
    decreases n
  {
    if n >= 10 {
      var s := NatToString(n);
      NatToStringValue(n / 10);
      assert s[..|s| - 1] == NatToString(n / 10);
    }
  }

  /** Python's `str(i)` for an int. */
  function IntToString(i: int): string {
    if i < 0 then "-" + NatToString(-i) else NatToString(i)
  }

  /** Python's `int(token)` on a token already free of whitespace: an
      optional sign followed by at least one ASCII digit. */
  function ParseInt(s: string): (r: Option<int>)
    ensures r.Some? ==> |s| > 0
  {
    if |s| > 0 && (s[0] == '-' || s[0] == '+') then
      var d := s[1..];
      if |d| > 0 && AllDigits(d) then
        var v: int := DigitsValue(d);
        Some(if s[0] == '-' then -v else v)
      else None
    else if |s| > 0 && AllDigits(s) then Some(DigitsValue(s))
    else None
  }

  /** Reading back a printed integer gives the integer. */
  lemma IntToStringRoundTrip(i: int)
    ensures ParseInt(IntToString(i)) == Some(i)
  {
    if i < 0 {
      NatToStringValue(-i);
      assert IntToString(i)[1..] == NatToString(-i);
    } else {
      NatToStringValue(i);
    }
  }

  lemma IntToStringInjective(i: int, j: int)
    requires IntToString(i) == IntToString(j)
    ensures i == j
  {
    IntToStringRoundTrip(i);
    IntToStringRoundTrip(j);
  }

  function Zeros(k: int): string
    ensures |Zeros(k)| == if k > 0 then k else 0
    decreases k
  {
    if k <= 0 then "" else "0" + Zeros(k - 1)
  }

  /** Python's `"{:0Nd}".format(i)` (and `"{:0N.0f}"` on an integral
      float): the sign, then zeros up to `width` characters in all, then the
      digits; never truncated. */
  function ZeroPad(i: int, width: nat): (s: string)
    ensures |s| >= width
    ensures i >= 0 ==> s == Zeros(width - |NatToString(i)|) + NatToString(i)
  {
    if i < 0 then
      var d := NatToString(-i);
      "-" + Zeros(width - 1 - |d|) + d
    else
      var d := NatToString(i);
      Zeros(width - |d|) + d
  }
}
